=== FILE: README.md ===
# Retro Anime Recommender — a Dafny model of its core

The Retro Anime Recommender is a single-page site. A short quiz asks for
favourite genres, a mood, a pacing, a target audience and a complexity. The
site then recommends anime from a static index built offline from a CSV file.
This project models four parts of it.

- **The scorer** (`computeSimilarity`). It gives one catalog entry a score
  of at most 100 against the quiz answers. There are 50 points for the
  share of selected genres the entry has, 35 for the mood, 25 for pacing, 15
  for the audience and 10 for complexity. The sum is rescaled from 135 to
  85. Up to 10 points for the rating and 5 for the popularity are added.
  The total is rounded the way `Math.round` rounds, then capped. An entry
  that matches nothing scores 0.
- **The selector** (`getRecommendations`). It scores the whole catalog and
  sorts it stably by descending score. It then walks the list once, keeping
  an entry unless one of these holds:
  - its normalised title (lower-cased, with only `[a-z0-9]` kept) was kept before;
  - that title is a near duplicate of a kept one;
  - its primary genre, setting, or (year, primary genre) "studio" pair is
    over its cap of 2, 2 or 1.

  Counters are bumped before each cap test and never rolled back.
- **The index builder** (`scripts/build-index.js`). It splits the CSV text
  into non-blank lines. Each data line is split on commas outside double
  quotes, and lines with fewer fields than the header are dropped. The genre
  column is read as a JSON-like list, and genres and themes are cleaned.
  Episodes and year are read with `parseInt` and a default; rating and
  popularity are normalised. It collects eight sorted vocabularies of
  distinct values and returns the index.
- **The page metadata helpers** (`src/config/seo.js`). There is one
  configuration entry per page. Four helpers pick a title, description,
  keywords and canonical URL, filling the results page's templates with
  `String.prototype.replace`.

Files:

| file | module | contents |
|---|---|---|
| `wrappers.dfy` | `Wrappers` | `Option`, `Result` |
| `strings.dfy` | `Strings` | ASCII `toLowerCase`, `trim`, `indexOf`/`includes`, `replace` with a string pattern (with `$` patterns), `split`/`join`, code-unit order |
| `numbers.dfy` | `Numbers` | `parseInt` without a radix argument (decimal, or hexadecimal after `0x`/`0X`), and `String` of an integer |
| `catalog.dfy` | `Catalog` | catalog entries, quiz answers, the `JSON.parse` outcome |
| `scorer.dfy` | `Scorer` | `computeSimilarity` and its properties |
| `selector.dfy` | `Selector` | `getRecommendations`, the greedy pass and its invariant |
| `worked_examples.dfy` | `WorkedExamples` | concrete titles through the duplicate filter |
| `csv.dfy` | `CsvSplit` | the quote-aware line splitter |
| `vocab.dfy` | `Vocab` | sorted vocabularies of distinct values |
| `index_builder.dfy` | `IndexBuilder` | records, cleaning, numerics, the index |
| `pipeline.dfy` | `Pipeline` | the builder's output fed to the selector |
| `seo.dfy` | `Seo` | the configuration and the four helpers |

Design choices:

- `JSON.parse` and `parseFloat` are function parameters (`JsonParser`,
  `FloatParser`). The results are proved for every such function.
- `parseInt` is modelled concretely as it behaves without a radix argument:
  leading whitespace, sign, base 16 after a `0x`/`0X` prefix and base 10
  otherwise, and the longest digit run.
- Numbers are `real`s and counts are `int`s.
- `Math.round` is `JsRound`: the integer `r` with `r - 0.5 <= x < r + 0.5`.
- `undefined` fields are `Option` values.
- A `TypeError` thrown by the selector is a `Failure` result.
- A line the builder skips is a `None` record.

## Model

| member | source | states |
|---|---|---|
| Scorer.JsRound | src/utils/recommendations.js:75 | `Math.round` gives the integer nearest to x, with halves rounded up |
| Scorer.GenreOverlap | src/utils/recommendations.js:15 | the overlap counts the entry's genres that are selected: at most the entry's genre count, and positive exactly when some genre of the entry is selected |
| Scorer.GenreOverlapAppend | src/utils/recommendations.js:15 | the overlap of a concatenation is the sum of the overlaps |
| Scorer.OverlapOfDistinctIsSetSize | src/utils/recommendations.js:15 | when the entry's genres are distinct, the overlap is the size of the intersection of the two genre sets |
| Scorer.OverlapOfDistinctAtMostSelected | src/utils/recommendations.js:15-18 | with distinct genres the overlap is at most the number of selected genres, so the genre share is at most 1 |
| Scorer.MoodMatchedCases | src/utils/recommendations.js:25-34 | mood matches only when both sides are set. A string mood matches through the array `JSON.parse` gives; unparsable text falls back to the one-element list of the text itself; a non-array parse never matches; an array mood is searched directly |
| Scorer.ComputeSimilarity | src/utils/recommendations.js:3-76 | the score is at most 100 and is 0 when no dimension matches. Otherwise let x = points·85/135 + rating·10 + popularity·5: the score is 100 once x reaches 99.5, and otherwise the integer nearest x, halves up. It is non-negative when the bonus is |
| Scorer.GenrePointsPositiveIffMatched | src/utils/recommendations.js:13-22 | genre points are never negative, and are positive exactly when the genre dimension matched |
| Scorer.PointsIffMatched | src/utils/recommendations.js:13-57 | mood gives 35 points exactly when it matched. The raw points are zero exactly when the match count is zero |
| Scorer.UnsetPreferencesScoreZero | src/utils/recommendations.js:55-57 | empty quiz answers score every entry 0 |
| Scorer.ExactDimensionsAllOrNothing | src/utils/recommendations.js:37-52 | pacing, audience and complexity each add their 25, 15 or 10 points and one match when the answer is set and equals the entry's value, and nothing otherwise: clearing one of these answers lowers the points and the match count by exactly that much |
| Scorer.PacingAllOrNothing | src/utils/recommendations.js:37-40 | a set pacing answer equal to the entry's pacing adds 25 points and one match; otherwise pacing adds nothing |
| Scorer.AudienceAllOrNothing | src/utils/recommendations.js:43-46 | a set audience answer equal to the entry's adds 15 points and one match; otherwise it adds nothing |
| Scorer.ComplexityAllOrNothing | src/utils/recommendations.js:49-52 | a set complexity answer equal to the entry's adds 10 points and one match; otherwise it adds nothing |
| Scorer.InRangeInputsStayWithinCap | src/utils/recommendations.js:62-75 | with distinct genres and normalised rating and popularity in [0, 1], the unrounded score is at most 100, so the cap never bites |
| Scorer.ScoreMonotoneInBonus | src/utils/recommendations.js:67-75 | between two entries with the same features, the one with the larger bonus scores at least as much |
| Scorer.SameFeaturesSamePoints | src/utils/recommendations.js:13-52 | the match count and the raw points depend only on the features |
| Scorer.JsRoundMonotone | src/utils/recommendations.js:75 | rounding is monotone |
| Scorer.WorkedExampleGenreOnly | src/utils/recommendations.js:3-76 | answers [action, adventure] against an entry with genre [action], rating 0.8 and popularity 0.5 give the score 26 |
| Selector.Insert | src/utils/recommendations.js:90 | inserting into a sorted list keeps it sorted (descending score, catalog order among ties); the entries afterwards are the old ones and the new one |
| Selector.InsertPermutes | src/utils/recommendations.js:90 | insertion adds exactly one copy of the new entry and loses nothing (multisets) |
| Selector.Sort | src/utils/recommendations.js:90 | the stable sort by descending score is sorted and a permutation (same multiset) of its input |
| Selector.KeepTitleChars | src/utils/recommendations.js:104 | the result holds only `[a-z0-9]`, is no longer than the input, and leaves such a string unchanged |
| Selector.NormalizeTitle | src/utils/recommendations.js:104 | a normalised title holds only `[a-z0-9]` |
| Selector.NormalizeTitleIdempotent | src/utils/recommendations.js:104 | normalising twice is normalising once |
| Selector.NormalizeTitleAppend | src/utils/recommendations.js:104 | normalisation distributes over concatenation |
| Selector.NormalizeDropsPunctuation | src/utils/recommendations.js:104 | a text without ASCII letters or digits normalises to the empty title |
| Selector.NormalizeKeepsAlphanumerics | src/utils/recommendations.js:104 | a text of ASCII letters and digits normalises to its lower-case form |
| Selector.NearDuplicateSymmetricAndReflexive | src/utils/recommendations.js:110-111 | the near-duplicate relation is symmetric and reflexive |
| Selector.TooSimilar | src/utils/recommendations.js:108-117 | a title is too similar exactly when some kept title is its near duplicate |
| Selector.Bump | src/utils/recommendations.js:122 | a bump adds one to the key's counter (missing counts as 0) and leaves every other counter alone |
| Selector.Step | src/utils/recommendations.js:103-139 | a step fails only on an entry without a genre list or numbers. Otherwise it either appends the entry and its title, or leaves results and titles unchanged |
| Selector.GenreGate | src/utils/recommendations.js:119-124 | the genre test fails only when the genre list or the numbers are missing |
| Selector.SettingGate | src/utils/recommendations.js:126-131 | the setting test fails only when the numbers are missing |
| Selector.StudioGate | src/utils/recommendations.js:133-139 | the studio test fails exactly when the numbers are missing |
| Selector.StudioGateFacts | src/utils/recommendations.js:133-139 | the studio test bumps only the (year, primary genre) counter. It keeps the entry exactly when that counter was 0 |
| Selector.SettingGateFacts | src/utils/recommendations.js:126-131 | the setting test bumps the counter of a truthy setting, passes on to the studio test when the new count is at most 2, and skips the entry otherwise |
| Selector.GenreGateFacts | src/utils/recommendations.js:119-124 | the genre test bumps the counter of a truthy primary genre, passes on when the new count is at most 2, and skips the entry otherwise |
| Selector.StepDecision | src/utils/recommendations.js:103-139 | a candidate whose title was kept or is too similar is skipped with nothing changed. Otherwise a well-formed candidate is kept exactly when its genre, setting and studio counters had room before the step; its genre counter is bumped even when it is not kept |
| Selector.StepKeepsAdmissible | src/utils/recommendations.js:103-139 | a well-formed candidate is kept exactly when it is admissible: its title is new and not too similar to a kept one, and its genre, setting and studio counters have room before the step. Otherwise it is skipped |
| Selector.AdmittedLedger | src/utils/recommendations.js:119-139 | an admissible candidate is kept with its title appended and exactly its genre, setting and studio counters bumped by one |
| Selector.StepOutcome | src/utils/recommendations.js:103-139 | a step never lowers a counter. A kept entry's title was not too similar, and each of its counters went up by one and stays within its cap |
| Selector.StepKeepsConsistent | src/utils/recommendations.js:103-139 | each step preserves the pass invariant: titles match the results, no near duplicates, and every tally is within its counter and cap |
| Selector.SubsequenceKeepsSorted | src/utils/recommendations.js:99-140 | leaving entries out of a sorted list keeps it sorted |
| Selector.SelectFrom | src/utils/recommendations.js:99-140 | the pass fails only if some entry lacks its genres or numbers, never drops a result, and stops once `limit` results are kept |
| Selector.SelectFromConsistent | src/utils/recommendations.js:99-140 | the whole pass preserves the invariant |
| Selector.SelectFromPrefix | src/utils/recommendations.js:139 | the pass only appends to the results |
| Selector.SelectFromExtends | src/utils/recommendations.js:99-140 | what the pass appends is a subsequence of the sorted catalog |
| Selector.SelectFromAppend | src/utils/recommendations.js:99-140 | the pass over a concatenation is the pass over the first part, continued over the second from the state it reached (or the first part's error) |
| Selector.PassMembers | src/utils/recommendations.js:99-140 | every result of the pass was already kept or comes from its input |
| Selector.AdmissibleEntryIsKept | src/utils/recommendations.js:99-140 | an entry that meets every test against the state at its turn, while fewer than `limit` are kept, is among the results: the pass never passes over an entry it could keep |
| Selector.KeptIffAdmissible | src/utils/recommendations.js:99-140 | in a strictly ordered input, an entry is among the results exactly when, at its turn, fewer than `limit` were kept and it met every test |
| Selector.FreshIsAdmissible | src/utils/recommendations.js:103-136 | a candidate that shares no near-duplicate title, primary genre or (year, genre) key with the kept results, and whose setting has room, passes every test |
| Selector.AdmitKeepsExact | src/utils/recommendations.js:119-139 | keeping an admissible candidate keeps each counter equal to the number of kept results with its key |
| Selector.FittingEntriesAllKept | src/utils/recommendations.js:99-140 | over a run in which no two entries share a key and no setting exceeds its cap, the pass keeps exactly the first `limit` entries, or all of them |
| Selector.FullSettingSkips | src/utils/recommendations.js:126-131 | once a setting's counter has reached 2, the pass skips every further entry of that setting |
| Selector.SortedCatalogFacts | src/utils/recommendations.js:84-90 | every entry of the sorted list is the catalog entry at its recorded position with its own score |
| Selector.SortedPositionsDistinct | src/utils/recommendations.js:84-90 | no catalog position appears twice in the sorted list |
| Selector.ConsistentResultsAreDiverse | src/utils/recommendations.js:103-139 | results kept under the invariant are pairwise not near duplicates and within the three caps |
| Selector.PassResults | src/utils/recommendations.js:99-142 | the pass from empty state keeps at most `limit` entries. They are a sorted subsequence of the scored catalog, with no near duplicates and within the caps, and the final slice changes nothing |
| Selector.GetRecommendations | src/utils/recommendations.js:78-143 | no database or anime list gives []. A catalog whose entries all have genres and numbers never fails. A result has at most `limit` entries, taken from the catalog in sorted order with their true scores, no two near duplicates, at most 2 per primary genre, 2 per setting and 1 per (year, genre) |
| Selector.RecommendedIffAdmissible | src/utils/recommendations.js:78-143 | the i-th best entry is recommended exactly when fewer than `limit` entries were kept before it and it passed every test against them. A missing entry either came after the quota was met or failed a test at its turn |
| Selector.ApartCatalogFillsLimit | src/utils/recommendations.js:78-143 | when no two catalog entries share a near-duplicate title, primary genre, setting or (year, genre) key, the result is exactly the best min(limit, catalog size) entries |
| Selector.SharedSettingKeepsTwo | src/utils/recommendations.js:78-143 | when all entries share one setting and nothing else a test looks at, the result is exactly the best min(limit, catalog size, 2) entries |
| WorkedExamples.TrailingPunctuationIsSameTitle | src/utils/recommendations.js:104-105 | a title followed by spaces or punctuation normalises to the title itself, so the pass drops it as a duplicate |
| WorkedExamples.NarutoTrailingSpaceIsSameTitle | src/utils/recommendations.js:104-105 | "Naruto " and "Naruto" normalise to the same title |
| WorkedExamples.SequelIsNoNearDuplicate | src/utils/recommendations.js:108-117 | a title followed by a separator and a subtitle of at least 3 letters or digits normalises to the title plus the lower-cased subtitle, and is not a near duplicate of the title |
| WorkedExamples.NarutoShippudenIsNoNearDuplicate | src/utils/recommendations.js:108-117 | "Naruto" and "Naruto: Shippuden" are not near duplicates |
| WorkedExamples.ShortSuffixIsNearDuplicate | src/utils/recommendations.js:108-117 | "Naruto" and "Naruto 2" are near duplicates |
| Strings.Lower | scripts/build-index.js:77 | `toLowerCase` keeps the length and lower-cases each character |
| Strings.Trim | scripts/build-index.js:53 | `trim` returns the contiguous middle of the input without leading or trailing whitespace, dropping only whitespace |
| Strings.TrimOfTrimmed | scripts/build-index.js:59 | trimming a trimmed text changes nothing |
| Strings.IndexOf | src/config/seo.js:99 | the first occurrence of the pattern, or none exactly when it occurs nowhere |
| Strings.IncludesIffOccurs | src/utils/recommendations.js:110 | `includes` holds exactly when the pattern occurs somewhere |
| Strings.Substitute | src/config/seo.js:99 | a replacement without `$` is inserted literally (section 22.1.3.19.1 of ECMA-262) |
| Strings.ReplaceFirst | src/config/seo.js:99 | `replace` with a string pattern leaves a text without the pattern unchanged. Otherwise it replaces the first occurrence only |
| Strings.FillPlaceholder | src/config/seo.js:99 | a `{…}` placeholder preceded by `{`-free text is replaced by a `$`-free value in place |
| Strings.Split | scripts/build-index.js:78 | `split` gives one more piece than separators, none containing the separator |
| Strings.JoinSplit | scripts/build-index.js:78 | joining the pieces of a split gives back the text |
| Strings.SplitUnique | scripts/build-index.js:78 | splitting the join of separator-free pieces gives back the pieces |
| Strings.LessTransitive | scripts/build-index.js:132 | the default sort order is transitive |
| Strings.LessTotal | scripts/build-index.js:132 | two distinct texts are ordered one way or the other |
| Numbers.ParseInt | scripts/build-index.js:90-91 | `parseInt` yields a number only when the text contains a decimal digit |
| Numbers.ParseIntOfPrinted | scripts/build-index.js:90-91 | an integer printed in decimal, followed by nothing or by text that starts with neither an ASCII letter nor a digit, parses back to itself |
| Numbers.DigitsValueOfNatToString | scripts/build-index.js:90-91 | the digits of a printed natural number read back to it |
| CsvSplit.ScanInvariant | scripts/build-index.js:44-58 | the scanner is inside quotes exactly after an odd number of quotes. It has closed one field per separating comma, and no field holds a quote |
| CsvSplit.SplitFields | scripts/build-index.js:44-59 | a line has one more field than separating commas. Every field is trimmed and quote-free; the lemmas below fix the fields themselves: a line is cut at each separating comma, and each cell without one is its quote-free, trimmed text |
| CsvSplit.QuoteFreeLineIsPlainSplit | scripts/build-index.js:44-59 | a line without quotes splits like `split(',')` with each piece trimmed |
| CsvSplit.QuotedFieldIsOneField | scripts/build-index.js:44-59 | a quoted text is one field, whatever commas it holds |
| CsvSplit.UnclosedQuoteAbsorbsRest | scripts/build-index.js:44-59 | an unmatched opening quote makes the rest of the line one field, commas included |
| CsvSplit.SplitAtOutsideComma | scripts/build-index.js:44-59 | a comma with an even number of quotes before it cuts the line in two: the fields are those of the left part followed by those of the right part |
| CsvSplit.QuotedMiddleField | scripts/build-index.js:44-59 | a quoted cell between two separating commas, as in `x,"a,b",y`, is exactly one field, its trimmed text, between the fields of the two sides |
| CsvSplit.DropQuotes | scripts/build-index.js:50-56 | the text with every double quote removed: quote-free, shorter by exactly the number of quotes, and holding every other character of the input |
| CsvSplit.NoSeparatorCellIsOneField | scripts/build-index.js:44-59 | a cell with no separating comma is one field: the cell with every quote dropped, trimmed. A doubled quote is no escape (`"a""b"` gives `ab`), and `x"y,z"w` gives `xy,zw` |
| CsvSplit.PlainCellIsOneField | scripts/build-index.js:44-59 | a trimmed cell with neither quote nor comma is one field, unchanged |
| Vocab.InsertSorted | scripts/build-index.js:132 | inserting into a strictly sorted list keeps it strictly sorted and adds exactly the new value |
| Vocab.Vocabulary | scripts/build-index.js:132-139 | the vocabulary is strictly sorted (so duplicate-free) and holds exactly the non-empty values |
| Vocab.StrictlySortedUnique | scripts/build-index.js:132-139 | two strictly sorted lists with the same elements are equal |
| Vocab.VocabularyCharacterised | scripts/build-index.js:132-139 | the vocabulary is the only strictly sorted list of the non-empty values |
| IndexBuilder.Clean | scripts/build-index.js:77 | a cleaned text is lower-case and trimmed |
| IndexBuilder.CleanIdempotent | scripts/build-index.js:77 | cleaning twice is cleaning once |
| IndexBuilder.SingleToDoubleQuotes | scripts/build-index.js:66 | every `'` becomes `"` and every other character stays |
| IndexBuilder.StringElements | scripts/build-index.js:68-77 | a parsed array has string texts exactly when every element is a string, and then one text per element |
| IndexBuilder.RawGenres | scripts/build-index.js:63-74 | the genre cell is unusable exactly when it is missing, or is list-like and parses to a non-array or to an array with a non-string. Those records are skipped |
| IndexBuilder.Truthy | scripts/build-index.js:77 | `filter(g => g)` keeps exactly the non-empty texts, and no more than it is given |
| IndexBuilder.TruthyAppend | scripts/build-index.js:77 | the filter keeps order: it distributes over concatenation and keeps one text exactly when it is non-empty |
| IndexBuilder.CleanAll | scripts/build-index.js:77 | the map cleans each text in place |
| IndexBuilder.CleanGenres | scripts/build-index.js:77 | the cleaned genres are non-empty, lower-case and trimmed, and are exactly the non-empty cleaned inputs |
| IndexBuilder.CleanAllAppend | scripts/build-index.js:77 | the cleaning map distributes over concatenation |
| IndexBuilder.CleanGenresAppend | scripts/build-index.js:77 | genre cleaning distributes over concatenation, so the order of genres is kept |
| IndexBuilder.CleanGenresSingle | scripts/build-index.js:77 | one raw genre gives its cleaned text, or nothing when cleaning empties it |
| IndexBuilder.CleanGenresNone | scripts/build-index.js:77 | raw genres that all clean to the empty text leave no genre |
| IndexBuilder.PrimaryGenreIsFirstNonEmpty | scripts/build-index.js:77 | the first cleaned genre, `genres[0]`, is the first raw genre that cleaning does not empty |
| IndexBuilder.Themes | scripts/build-index.js:78 | an empty or missing cell has no themes. Otherwise the themes are the `_`-separated pieces, each cleaned, in order, empty pieces included: one more than the `_` count, each `_`-free, lower-case and trimmed |
| IndexBuilder.EpisodesBucket | scripts/build-index.js:113 | the bucket is 0.2 for at most 13 episodes, 0.5 up to 50, 0.8 above |
| IndexBuilder.YearNorm | scripts/build-index.js:114 | the normalised year lies in [0, 1], is clamped outside 1980..2024 and linear inside |
| IndexBuilder.MakeNumerics | scripts/build-index.js:90-121 | episodes is `parseInt` of its cell or 0; the year is `parseInt` of its cell, or 1980 when that is 0 or unreadable, so never 0; the bucket and normalised year are those of these values; the raw rating and popularity are `parseFloat` of columns 3 and 12, or 0 when unreadable; the raw and normalised blocks agree on episodes and year, and the normalised rating and popularity are the raw ones scaled by 1/10 and 1/100 |
| IndexBuilder.MakeItem | scripts/build-index.js:96-122 | the entry is titled by the first cell; its genres are the cleaned genres in order; mood, complexity, pacing, audience, setting and art style are the cleaned cells of their columns (missing when the line is short); its themes are those of column 9; its numbers are those of the numeric cells |
| IndexBuilder.ParseRecord | scripts/build-index.js:39-127 | a line yields no entry exactly when it is short of the header's arity or its genre cell is unusable. Otherwise the entry is well built and titled by its first field |
| IndexBuilder.ParseRecords | scripts/build-index.js:38-128 | at most one entry per data line, each well built |
| IndexBuilder.Records | scripts/build-index.js:38-128 | one outcome per data line, in order: the record of that line |
| IndexBuilder.ParseRecordsAppend | scripts/build-index.js:38-128 | the record loop distributes over concatenation: lines are handled one at a time, in order |
| IndexBuilder.ParseRecordsSingle | scripts/build-index.js:38-128 | one line gives its entry, or nothing when it is skipped; with the previous row this determines the loop |
| IndexBuilder.SomesAppend | scripts/build-index.js:124 | collecting the produced entries distributes over concatenation |
| IndexBuilder.AllSomes | scripts/build-index.js:124 | when every line yields an entry, all of them are kept in order |
| IndexBuilder.EveryUsableLineIsKept | scripts/build-index.js:38-128 | when every data line is usable, the entries are exactly the records of the lines, in order |
| IndexBuilder.PrintedYearIsRead | scripts/build-index.js:91 | a non-zero year printed in decimal is read back, and its normalised year follows |
| IndexBuilder.UnreadableYearIsFirstYear | scripts/build-index.js:91 | a year cell `parseInt` cannot read becomes 1980, normalised to 0 |
| IndexBuilder.PrintedEpisodesAreRead | scripts/build-index.js:90 | an episode count printed in decimal is read back, and its bucket follows |
| IndexBuilder.NonBlank | scripts/build-index.js:22 | the filter keeps exactly the lines that are not blank |
| IndexBuilder.NonBlankAppend | scripts/build-index.js:22 | the blank-line filter distributes over concatenation and keeps one line exactly when it is not blank, so it keeps the order of the file |
| IndexBuilder.Lines | scripts/build-index.js:21-22 | the lines are the non-blank pieces of the split on newlines: newline-free, not blank, at most one more than the newlines |
| IndexBuilder.AllGenres | scripts/build-index.js:80 | the genres collected are exactly those of some entry |
| IndexBuilder.AllThemes | scripts/build-index.js:81 | the themes collected are exactly those of some entry |
| IndexBuilder.BuildVocabularies | scripts/build-index.js:130-140 | every vocabulary is strictly sorted and has no empty entry. The genre and theme vocabularies hold exactly the non-empty collected values |
| IndexBuilder.BuiltGenresAreTruthy | scripts/build-index.js:77 | built entries never carry an empty genre |
| IndexBuilder.BuildIndex | scripts/build-index.js:21-150 | a file without a non-blank line fails (the header access throws). Otherwise the entries are the records of the lines after the first, with the first line's comma-separated piece count as arity; the count equals the entries, which are fewer than the lines. Every entry is well built, every vocabulary sorted and truthy, and a genre is in the vocabulary exactly when some entry has it |
| Pipeline.BuiltIndexIsServed | scripts/build-index.js:96-124 | the recommender never throws on an index the builder wrote |
| Pipeline.InRangeEntryNeedsNoCap | src/utils/recommendations.js:62-75 | a built entry with distinct genres, rating in [0, 10] and popularity in [0, 100] scores at most 100 before the cap |
| Seo.PageTitle | src/config/seo.js:94-103 | an unknown page gets the default title. A page without a filled template gets its title, or the default |
| Seo.PageDescription | src/config/seo.js:105-116 | an unknown page gets the default description. A page without both template values gets its description, or the default |
| Seo.PageKeywords | src/config/seo.js:118-129 | an unknown page gets the default keywords. A page without both template values gets its keywords, or the default |
| Seo.CanonicalUrl | src/config/seo.js:131-133 | the canonical URL is the site URL followed by the path |
| Seo.GenerateCanonicalUrl | src/config/seo.js:131-133 | with no path the canonical URL is the site URL |
| Seo.FillBothPlaceholders | src/config/seo.js:109-113 | two placeholders preceded by `{`-free text are filled in their places when the values hold no `$` and the first has no `{` |
| Seo.SiteHasResultsPage | src/config/seo.js:43-48 | the site configuration has the results page's three templates |
| Seo.ResultsTitleMatchesInline | src/components/Results.jsx:187 | the title helper for the results page gives the text the results view writes inline, for a `$`-free top list |
| Seo.ResultsDescriptionMatchesInline | src/components/Results.jsx:188 | the description helper gives the results view's inline text, when the top list has no `{` and neither value has a `$` |
| Seo.ResultsKeywordsMatchInline | src/components/Results.jsx:189 | the keywords helper gives the results view's inline text under the same conditions |
| Seo.ResultsWithoutDataGetsDefaults | src/config/seo.js:94-129 | without the values its templates need, the results page gets the site-wide texts |
| Seo.UnknownPageGetsDefaults | src/config/seo.js:94-129 | a page other than home, quiz and results gets the three site-wide texts |
| Seo.FixedPagesIgnoreData | src/config/seo.js:31-42 | the home and quiz pages get their configured texts whatever the data |

## Left out

- Reading the CSV file, writing the index file, the console messages and `generated_at` (a clock reading) are left out. The file content is a parameter and the index is the result.
- Loading the index over the network, and the React components around the helpers, are not modelled.
- `formatAnimeForDisplay` (src/utils/recommendations.js:145-162) only formats for the UI and is not part of this model.
- How the results view builds its top list and genre text (src/components/Results.jsx:184-185) is not modelled. The lemmas take those texts as parameters.
- `JSON.parse` and `parseFloat` are parameters, not implementations. IEEE-754 doubles are modelled as exact reals, so rounding errors in `/ 135 * 85` and `/ 10` are not modelled. `NaN` from `parseFloat` is `None`, and `Infinity` is not distinguished.
- `toLowerCase` is modelled for ASCII letters only. `trim` removes the ECMAScript WhiteSpace and LineTerminator characters as listed in `Strings.IsWhitespace`.
- `Array.prototype.sort` compares UTF-16 code units. The model compares characters, which differs only for characters outside the Basic Multilingual Plane.
- Keys that name `Object.prototype` properties (`"constructor"`, `"__proto__"`) are ordinary keys here. In the source they can defeat a diversity counter or resolve a page configuration; the results match an unknown key for the helpers, but not for the counters.
- Selector.GetRecommendations: states only the sufficient condition for success (every entry has genres and numbers). An entry without them that is never reached, or is skipped before its genres are read, does not make the source throw either.
- The default `limit` of 15 is the constant `Selector.DefaultLimit`. The model takes `limit` as a parameter and does not model the omitted argument.
- The scorer reads a mood that is missing, a string or an array of strings. Other JavaScript values in that field are not modelled.
- The helpers' `data` argument is two optional strings. A `null` data object (a `TypeError`), and non-string values, are not modelled. Neither is a non-string `path`.
- Seo.PageTitle, Seo.PageDescription and Seo.PageKeywords: the filled-template case is stated through the results-page lemmas and `Strings.ReplaceFirst`, not as an ensures of its own.
- Seo.ResultsTitleMatchesInline, Seo.ResultsDescriptionMatchesInline and Seo.ResultsKeywordsMatchInline: a value containing `$` is excluded. There `replace` expands substitution patterns and the two texts differ. `Strings.Substitute` models that expansion.
- IndexBuilder.BuildVocabularies: only the genre and theme vocabularies are characterised element by element. The other six are stated sorted and free of empty entries only.

## Notes on the code

- The genre overlap counts the entry's genres that are selected, each occurrence separately. It is not the size of a set intersection. `Scorer.OverlapOfDistinctIsSetSize` shows the two agree when the entry's genres are distinct, which the builder does not guarantee.
- The cap is applied after rounding: `min(round(x), 100)`. Since 100 is an integer this equals `round(min(x, 100))`; the model follows the code.

=== FILE: catalog.dfy ===
/** The records the recommender works on: one catalog entry per anime title as
    the index builder writes it, and the preference vector the questionnaire
    produces. Fields that the builder may leave `undefined` are `Option`s.
 */
module Catalog {
  import opened Wrappers

  /** An element of a parsed JSON array, as far as a comparison with a string
      can tell: a string, or any other JSON value. */
  datatype JsonValue = JsonString(text: string) | JsonOther

  /** What `JSON.parse` makes of a string: an array, some other JSON value,
      or a thrown `SyntaxError`. */
  datatype JsonOutcome = JsonArray(elements: seq<JsonValue>) | JsonNonArray | JsonError

  /** `JSON.parse` itself is not modelled; it is a parameter wherever it is called. */
  type JsonParser = string -> JsonOutcome

  /** The `mood` feature arrives either as a string (possibly a serialised list)
      or as an array of strings, or is absent. */
  datatype MoodField = MoodMissing | MoodString(text: string) | MoodArray(moods: seq<string>)

  datatype Features = Features(
    genres: Option<seq<string>>,
    mood: MoodField,
    complexity: Option<string>,
    pacing: Option<string>,
    targetAudience: Option<string>,
    themes: seq<string>,
    setting: Option<string>,
    artStyle: Option<string>)

  /** Normalised numbers: `rating` and `popularity` are scaled into [0, 1] by the
      builder when the raw values are in range. */
  datatype Numerics = Numerics(
    episodes: int,
    year: int,
    rating: real,
    popularity: real,
    episodesBucket: real,
    yearNorm: real)

  /** The parsed numbers, unscaled. */
  datatype RawNumerics = RawNumerics(episodes: int, year: int, rating: real, popularity: real)

  datatype Item = Item(baseTitle: string, features: Features, numerics: Option<Numerics>, raw: RawNumerics)

  /** One user's answers; the empty string means "no preference". */
  datatype Preferences = Preferences(
    genres: seq<string>,
    mood: string,
    pacing: string,
    targetAudience: string,
    complexity: string)
}

=== FILE: csv.dfy ===
/** The line splitter of the index builder: a comma separates fields unless it
    comes after an odd number of double quotes; the quotes themselves are
    dropped, and each field is trimmed. There is no escaping: `""` inside a
    quoted field just closes and reopens the quotes.
 */
module CsvSplit {
  import opened Strings

  /** The loop state: the fields closed so far, the field being read, and
      whether the scanner is inside quotes. The loop trims each field as it
      pushes it; here the closed fields are kept as read and all fields are
      trimmed together when the line ends, which gives the same list. */
  datatype Scan = Scan(fields: seq<string>, current: string, inQuotes: bool)

  const Start: Scan := Scan([], "", false)

  /** The body of the character loop of the splitter: a quote flips the flag,
      a comma outside quotes closes the field, any other character extends it. */
  function Feed(st: Scan, c: char): Scan {
    if c == '"' then st.(inQuotes := !st.inQuotes)
    else if c == ',' && !st.inQuotes then Scan(st.fields + [st.current], "", st.inQuotes)
    else st.(current := st.current + [c])
  }

  /** The character loop of the splitter, over the whole line. */
  function ScanLine(line: string): Scan
    decreases |line|
  {
    if |line| == 0 then Start else Feed(ScanLine(line[..|line| - 1]), line[|line| - 1])
  }

  /** A comma at `i` with an even number of quotes before it separates fields. */
  predicate IsSeparatorAt(line: string, i: nat)
    requires i < |line|
  {
    line[i] == ',' && CountChar(line[..i], '"') % 2 == 0
  }

  /** Number of separating commas, the reference the splitter is measured against. */
  function SeparatorCount(line: string): nat {
    if |line| == 0 then 0
    else SeparatorCount(line[..|line| - 1]) + (if IsSeparatorAt(line, |line| - 1) then 1 else 0)
  }

  predicate QuoteFree(s: string) {
    '"' !in s
  }

  /** The scanner is inside quotes exactly after an odd number of quotes, it has
      closed one field per separating comma, and no field holds a quote. */
  lemma ScanInvariant(line: string)
    ensures ScanLine(line).inQuotes <==> CountChar(line, '"') % 2 == 1
    ensures |ScanLine(line).fields| == SeparatorCount(line)
    ensures QuoteFree(ScanLine(line).current)
    ensures forall k :: 0 <= k < |ScanLine(line).fields| ==> QuoteFree(ScanLine(line).fields[k])
  {
    ScanQuoteParity(line);
    ScanFieldCount(line);
    ScanFieldsClean(line);
  }

  /** Whether an odd number of quotes has been read: the flag the loop keeps. */
  function Flipped(line: string): bool
    decreases |line|
  {
    if |line| == 0 then false else Flipped(line[..|line| - 1]) != (line[|line| - 1] == '"')
  }

  lemma ScanQuoteParity(line: string)
    ensures ScanLine(line).inQuotes <==> CountChar(line, '"') % 2 == 1
  {
    ScanFlag(line);
    FlippedIffOdd(line);
  }

  lemma {:induction false} ScanFlag(line: string)
    ensures ScanLine(line).inQuotes == Flipped(line)
    decreases |line|
  {
    if |line| > 0 {
      ScanFlag(line[..|line| - 1]);
      FeedInQuotes(ScanLine(line[..|line| - 1]), line[|line| - 1]);
    }
  }

  lemma {:induction false} FlippedIffOdd(line: string)
    ensures Flipped(line) <==> CountChar(line, '"') % 2 == 1
    decreases |line|
  {
    if |line| > 0 {
      var init := line[..|line| - 1];
      FlippedIffOdd(init);
      OddAfterOneMore(CountChar(init, '"'));
    }
  }

  lemma OddAfterOneMore(n: nat)
    ensures (n + 1) % 2 == 1 <==> n % 2 != 1
  {
  }

  lemma {:induction false} ScanFieldCount(line: string)
    ensures |ScanLine(line).fields| == SeparatorCount(line)
    decreases |line|
  {
    if |line| > 0 {
      var init := line[..|line| - 1];
      ScanFieldCount(init);
      ScanQuoteParity(init);
      assert line[..|line| - 1] == init;
    }
  }

  lemma {:induction false} ScanFieldsClean(line: string)
    ensures QuoteFree(ScanLine(line).current)
    ensures forall k :: 0 <= k < |ScanLine(line).fields| ==> QuoteFree(ScanLine(line).fields[k])
    decreases |line|
  {
    if |line| > 0 {
      var init := line[..|line| - 1];
      ScanFieldsClean(init);
      assert line[..|line| - 1] == init;
    }
  }

  /** The splitter: the fields of one line, the last one pushed after the loop. */
  function SplitFields(line: string): (fields: seq<string>)
    ensures |fields| == 1 + SeparatorCount(line)
    ensures forall k :: 0 <= k < |fields| ==> QuoteFree(fields[k]) && IsTrimmed(fields[k])
  {
    var st := ScanLine(line);
    ScanInvariant(line);
    TrimAll(st.fields + [st.current])
  }

  /** `pieces.map(p => p.trim())`. */
  function TrimAll(pieces: seq<string>): (r: seq<string>)
    ensures |r| == |pieces|
    ensures forall k :: 0 <= k < |pieces| ==> r[k] == Trim(pieces[k])
  {
    seq(|pieces|, k requires 0 <= k < |pieces| => Trim(pieces[k]))
  }

  lemma TrimAllSingle(x: string)
    ensures TrimAll([x]) == [Trim(x)]
  {
  }

  lemma TrimAllAppend(p: seq<string>, q: seq<string>)
    ensures TrimAll(p + q) == TrimAll(p) + TrimAll(q)
  {
  }

  lemma ScanSnoc(init: string, c: char)
    ensures ScanLine(init + [c]) == Feed(ScanLine(init), c)
  {
    assert (init + [c])[..|init + [c]| - 1] == init;
  }

  /** The scanner state of a quote-free line against the plain comma split. */
  predicate MatchesPlainSplit(st: Scan, line: string) {
    var p := Split(line, ',');
    && !st.inQuotes
    && st.fields == p[..|p| - 1]
    && st.current == p[|p| - 1]
  }

  /** On a line without quotes the scanner has closed every piece of the plain
      comma split but the last, and is reading that last piece. */
  lemma {:induction false} ScanOfQuoteFree(line: string)
    requires QuoteFree(line)
    ensures MatchesPlainSplit(ScanLine(line), line)
    decreases |line|
  {
    if |line| > 0 {
      var init := line[..|line| - 1];
      var c := line[|line| - 1];
      assert line == init + [c];
      assert QuoteFree(init) by {
        assert forall x :: x in init ==> x in line;
      }
      ScanOfQuoteFree(init);
      ScanQuoteFreeSnoc(init, c);
    }
  }

  lemma ScanQuoteFreeSnoc(init: string, c: char)
    requires c != '"'
    requires MatchesPlainSplit(ScanLine(init), init)
    ensures MatchesPlainSplit(ScanLine(init + [c]), init + [c])
  {
    if c == ',' {
      ScanQuoteFreeComma(init);
    } else {
      ScanQuoteFreeOther(init, c);
    }
  }

  lemma ScanQuoteFreeComma(init: string)
    requires MatchesPlainSplit(ScanLine(init), init)
    ensures MatchesPlainSplit(ScanLine(init + [',']), init + [','])
  {
    var st := ScanLine(init);
    var p := Split(init, ',');
    ScanSnoc(init, ',');
    FeedSeparator(st);
    SplitSnoc(init, ',', ',');
    ClosedPieces(p);
  }

  lemma ScanQuoteFreeOther(init: string, c: char)
    requires c != '"' && c != ','
    requires MatchesPlainSplit(ScanLine(init), init)
    ensures MatchesPlainSplit(ScanLine(init + [c]), init + [c])
  {
    var st := ScanLine(init);
    var p := Split(init, ',');
    ScanSnoc(init, c);
    FeedOther(st, c);
    SplitSnoc(init, ',', c);
    OpenPiece(p, c);
  }

  /** A comma outside quotes closes the field being read. */
  lemma FeedSeparator(st: Scan)
    requires !st.inQuotes
    ensures Feed(st, ',') == Scan(st.fields + [st.current], "", false)
  {
  }

  /** Any other character than a quote or a separating comma extends the field. */
  lemma FeedOther(st: Scan, c: char)
    requires c != '"' && (c != ',' || st.inQuotes)
    ensures Feed(st, c) == st.(current := st.current + [c])
  {
  }

  /** Only a quote flips the quote flag. */
  lemma FeedInQuotes(st: Scan, c: char)
    ensures Feed(st, c).inQuotes == (st.inQuotes != (c == '"'))
  {
  }

  /** After a comma, the closed pieces are all of `p`. */
  lemma ClosedPieces(p: seq<string>)
    requires |p| > 0
    ensures var q := p + [""];
            q[..|q| - 1] == p && p == p[..|p| - 1] + [p[|p| - 1]]
  {
  }

  /** Another character only extends the open piece. */
  lemma OpenPiece(p: seq<string>, c: char)
    requires |p| > 0
    ensures var q := p[..|p| - 1] + [p[|p| - 1] + [c]];
            q[..|q| - 1] == p[..|p| - 1] && q[|q| - 1] == p[|p| - 1] + [c]
  {
  }

  /** Without quotes, the splitter is the plain comma split with every piece
      trimmed. */
  lemma QuoteFreeLineIsPlainSplit(line: string)
    requires QuoteFree(line)
    ensures SplitFields(line) == TrimAll(Split(line, ','))
  {
    ScanOfQuoteFree(line);
    var p := Split(line, ',');
    assert p == p[..|p| - 1] + [p[|p| - 1]];
  }

  lemma {:induction false} ScanInsideQuotes(x: string)
    requires QuoteFree(x)
    ensures ScanLine(['"'] + x) == Scan([], x, true)
    decreases |x|
  {
    if |x| == 0 {
      ScanSnoc([], '"');
    } else {
      var init := x[..|x| - 1];
      assert QuoteFree(init) by {
        assert forall y :: y in init ==> y in x;
      }
      ScanInsideQuotes(init);
      assert ['"'] + x == (['"'] + init) + [x[|x| - 1]];
      ScanSnoc(['"'] + init, x[|x| - 1]);
      assert init + [x[|x| - 1]] == x;
    }
  }

  /** A quoted field is one field whatever commas it holds. */
  lemma QuotedFieldIsOneField(x: string)
    requires QuoteFree(x)
    ensures SplitFields(['"'] + x + ['"']) == [Trim(x)]
  {
    ScanInsideQuotes(x);
    ScanSnoc(['"'] + x, '"');
    assert [] + [x] == [x];
    TrimAllSingle(x);
  }

  /** An unmatched quote absorbs the rest of the line, commas included. */
  lemma UnclosedQuoteAbsorbsRest(x: string)
    requires QuoteFree(x)
    ensures SplitFields(['"'] + x) == [Trim(x)]
  {
    ScanInsideQuotes(x);
    assert [] + [x] == [x];
    TrimAllSingle(x);
  }

  /** The loop continued over `s` from the state `st`. */
  function ScanFrom(st: Scan, s: string): Scan
    decreases |s|
  {
    if |s| == 0 then st else Feed(ScanFrom(st, s[..|s| - 1]), s[|s| - 1])
  }

  /** Scanning `a + b` is scanning `a`, then continuing over `b`. */
  lemma {:induction false} ScanLineAppend(a: string, b: string)
    ensures ScanLine(a + b) == ScanFrom(ScanLine(a), b)
    decreases |b|
  {
    if |b| == 0 {
      assert a + b == a;
    } else {
      var init := b[..|b| - 1];
      ScanLineAppend(a, init);
      assert a + b == (a + init) + [b[|b| - 1]];
      ScanSnoc(a + init, b[|b| - 1]);
    }
  }

  /** Continuing from a fresh field outside quotes, after the fields `f`, is
      scanning from the start with `f` put in front of the fields. */
  lemma {:induction false} ScanFromFreshField(f: seq<string>, s: string)
    ensures var st := ScanLine(s);
            ScanFrom(Scan(f, "", false), s) == Scan(f + st.fields, st.current, st.inQuotes)
    decreases |s|
  {
    if |s| == 0 {
      assert f + [] == f;
    } else {
      var init := s[..|s| - 1];
      ScanFromFreshField(f, init);
      ScanSnoc(init, s[|s| - 1]);
      assert init + [s[|s| - 1]] == s;
      var st := ScanLine(init);
      assert (f + st.fields) + [st.current] == f + (st.fields + [st.current]);
    }
  }

  /** A comma after an even number of quotes cuts the line in two, and each
      half is split on its own. */
  lemma SplitAtOutsideComma(a: string, b: string)
    requires CountChar(a, '"') % 2 == 0
    ensures SplitFields(a + [','] + b) == SplitFields(a) + SplitFields(b)
  {
    var sa := ScanLine(a);
    var sb := ScanLine(b);
    ScanInvariant(a);
    ScanSnoc(a, ',');
    FeedSeparator(sa);
    ScanLineAppend(a + [','], b);
    ScanFromFreshField(sa.fields + [sa.current], b);
    assert sa.fields + [sa.current] + sb.fields + [sb.current]
        == (sa.fields + [sa.current]) + (sb.fields + [sb.current]);
    TrimAllAppend(sa.fields + [sa.current], sb.fields + [sb.current]);
  }

  lemma QuotedCellHasTwoQuotes(x: string)
    requires QuoteFree(x)
    ensures CountChar(['"'] + x + ['"'], '"') == 2
  {
    CountCharAppend(['"'], x, '"');
    CountCharAppend(['"'] + x, ['"'], '"');
  }

  lemma RegroupTail<T>(a: seq<T>, s: seq<T>, q: seq<T>, t: seq<T>, b: seq<T>)
    ensures a + s + q + t + b == a + s + (q + t + b)
  {
  }

  /** A quoted field between two separating commas is one field, whatever
      commas it holds: `x,"a,b",y` gives `x`, `a,b` and `y`. */
  lemma QuotedMiddleField(a: string, x: string, b: string)
    requires CountChar(a, '"') % 2 == 0 && QuoteFree(x)
    ensures SplitFields(a + [','] + (['"'] + x + ['"']) + [','] + b)
              == SplitFields(a) + [Trim(x)] + SplitFields(b)
  {
    var q := ['"'] + x + ['"'];
    QuotedCellHasTwoQuotes(x);
    var rest := q + [','] + b;
    RegroupTail(a, [','], q, [','], b);
    SplitAtOutsideComma(a, rest);
    SplitAtOutsideComma(q, b);
    QuotedFieldIsOneField(x);
    RegroupTail(SplitFields(a), [], [Trim(x)], [], SplitFields(b));
  }

  /** A trimmed cell with neither quote nor comma is one field, as written. */
  lemma PlainCellIsOneField(x: string)
    requires QuoteFree(x) && ',' !in x && IsTrimmed(x)
    ensures SplitFields(x) == [x]
  {
    QuoteFreeLineIsPlainSplit(x);
    SplitOfSeparatorFree(x, ',');
    TrimOfTrimmed(x);
  }

  /** `s` with every double quote removed. */
  function DropQuotes(s: string): (r: string)
    ensures QuoteFree(r)
    ensures |r| == |s| - CountChar(s, '"')
    ensures forall c :: c in r <==> c in s && c != '"'
    decreases |s|
  {
    if |s| == 0 then ""
    else DropQuotes(s[..|s| - 1]) + (if s[|s| - 1] == '"' then "" else [s[|s| - 1]])
  }

  /** Without a separating comma the scanner closes no field, and the field it
      reads is the line with its quotes dropped. */
  lemma {:induction false} ScanNoSeparator(line: string)
    requires forall i :: 0 <= i < |line| ==> !IsSeparatorAt(line, i)
    ensures ScanLine(line).fields == [] && ScanLine(line).current == DropQuotes(line)
    decreases |line|
  {
    if |line| > 0 {
      var init := line[..|line| - 1];
      forall i | 0 <= i < |init| ensures !IsSeparatorAt(init, i) {
        assert !IsSeparatorAt(line, i);
        assert line[..i] == init[..i];
      }
      ScanNoSeparator(init);
      ScanInvariant(init);
      assert !IsSeparatorAt(line, |line| - 1);
      assert line[..|line| - 1] == init;
    }
  }

  /** A cell without a separating comma is one field: the cell with its quotes
      dropped, trimmed. A doubled quote is no escape: `"a""b"` gives `ab`. */
  lemma NoSeparatorCellIsOneField(line: string)
    requires forall i :: 0 <= i < |line| ==> !IsSeparatorAt(line, i)
    ensures SplitFields(line) == [Trim(DropQuotes(line))]
  {
    ScanNoSeparator(line);
    var st := ScanLine(line);
    assert st.fields + [st.current] == [DropQuotes(line)];
    TrimAllSingle(DropQuotes(line));
  }

  /** A line with fewer fields than the header has columns is skipped. */
  predicate HasArity(fields: seq<string>, headerCount: nat) {
    |fields| >= headerCount
  }
}

=== FILE: index_builder.dfy ===
/** The index builder: turns the text of the enhanced anime CSV file into the
    catalog entries and the sorted vocabularies of the recommendation index.
    Reading and writing files, the console and the clock are left out; the
    file content is a parameter and the index is the result. `JSON.parse`
    and `parseFloat` are parameters too.
 */
module IndexBuilder {
  import opened Wrappers
  import opened Strings
  import opened Catalog
  import opened CsvSplit
  import opened Numbers
  import opened Vocab

  /** `parseFloat` is not modelled: `None` stands for `NaN`. */
  type FloatParser = string -> Option<real>

  // Column positions of the CSV file.
  const TitleColumn: nat := 0
  const EpisodesColumn: nat := 1
  const YearColumn: nat := 2
  const RatingColumn: nat := 3
  const GenresColumn: nat := 4
  const MoodColumn: nat := 5
  const ComplexityColumn: nat := 6
  const PacingColumn: nat := 7
  const AudienceColumn: nat := 8
  const ThemesColumn: nat := 9
  const SettingColumn: nat := 10
  const ArtStyleColumn: nat := 11
  const PopularityColumn: nat := 12

  const FirstYear: int := 1980
  const LastYear: int := 2024

  // ---------------------------------------------------------------------------
  // Text cleaning
  // ---------------------------------------------------------------------------

  /** `s.toLowerCase().trim()`. */
  function Clean(s: string): (r: string)
    ensures IsLower(r) && IsTrimmed(r)
  {
    TrimKeepsLower(Lower(s));
    Trim(Lower(s))
  }

  /** Cleaning a cleaned text changes nothing. */
  lemma CleanIdempotent(s: string)
    ensures Clean(Clean(s)) == Clean(s)
  {
    var c := Clean(s);
    LowerOfLower(c);
    TrimOfTrimmed(c);
  }

  /** `fields[i]`, or `undefined`. */
  function Field(fields: seq<string>, i: nat): Option<string> {
    if i < |fields| then Some(fields[i]) else None
  }

  /** `String(fields[i])`, the text `parseInt` and `parseFloat` read. */
  function FieldText(fields: seq<string>, i: nat): string {
    if i < |fields| then fields[i] else "undefined"
  }

  /** `fields[i]?.toLowerCase().trim()`. */
  function CleanField(fields: seq<string>, i: nat): (r: Option<string>)
    ensures r.Some? <==> i < |fields|
    ensures r.Some? ==> r.value == Clean(fields[i])
  {
    match Field(fields, i)
    case None => None
    case Some(f) => Some(Clean(f))
  }

  // ---------------------------------------------------------------------------
  // Genres and themes
  // ---------------------------------------------------------------------------

  /** `s.replace(/'/g, '"')`. */
  function SingleToDoubleQuotes(s: string): (r: string)
    ensures |r| == |s| && '\'' !in r
    ensures forall k :: 0 <= k < |s| ==> r[k] == (if s[k] == '\'' then '"' else s[k])
  {
    seq(|s|, k requires 0 <= k < |s| => if s[k] == '\'' then '"' else s[k])
  }

  /** `s.startsWith('[') && s.endsWith(']')`. */
  predicate LooksLikeList(s: string) {
    |s| > 0 && s[0] == '[' && s[|s| - 1] == ']'
  }

  /** The texts of a parsed array whose elements are all strings; `None` when
      one is not, since `toLowerCase` then throws. */
  function StringElements(elements: seq<JsonValue>): (r: Option<seq<string>>)
    ensures r.Some? <==> forall k :: 0 <= k < |elements| ==> elements[k].JsonString?
    ensures r.Some? ==> |r.value| == |elements|
    ensures r.Some? ==> forall k :: 0 <= k < |elements| ==> r.value[k] == elements[k].text
  {
    if |elements| == 0 then Some([])
    else
      match (elements[0], StringElements(elements[1..]))
      case (JsonString(t), Some(rest)) => Some([t] + rest)
      case _ => None
  }

  /** The genre parse of the builder (`fields[4]` through `JSON.parse`): the genre list before cleaning, or `None` when the record is
      skipped because cleaning it would throw: the field is missing, or it
      parses to something other than an array of strings. */
  function RawGenres(field: Option<string>, parse: JsonParser): (r: Option<seq<string>>)
    ensures r.None? <==>
              || field.None?
              || (&& LooksLikeList(SingleToDoubleQuotes(field.value))
                  && match parse(SingleToDoubleQuotes(field.value))
                     case JsonError => false
                     case JsonNonArray => true
                     case JsonArray(elements) => exists k :: 0 <= k < |elements| && elements[k].JsonOther?)
  {
    match field
    case None => None
    case Some(f) =>
      var s := SingleToDoubleQuotes(f);
      if !LooksLikeList(s) then Some([s])
      else
        match parse(s)
        case JsonError => Some([f])
        case JsonNonArray => None
        case JsonArray(elements) => StringElements(elements)
  }

  /** `xs.filter(keep)` for a test that looks at one element at a time. */
  function Filter<T(!new)>(xs: seq<T>, keep: T -> bool): (r: seq<T>)
    ensures |r| <= |xs|
    ensures forall x :: x in r <==> x in xs && keep(x)
  {
    if |xs| == 0 then []
    else
      var init := xs[..|xs| - 1];
      var last := xs[|xs| - 1];
      assert xs == init + [last];
      if keep(last) then Filter(init, keep) + [last] else Filter(init, keep)
  }

  /** A filter keeps the order: it distributes over concatenation. */
  lemma {:induction false} FilterAppend<T(!new)>(a: seq<T>, b: seq<T>, keep: T -> bool)
    ensures Filter(a + b, keep) == Filter(a, keep) + Filter(b, keep)
    decreases |b|
  {
    if |b| == 0 {
      assert a + b == a;
    } else {
      var init := b[..|b| - 1];
      var last := b[|b| - 1];
      assert b == init + [last];
      assert a + b == (a + init) + [last];
      FilterAppend(a, init, keep);
      FilterSnoc(a + init, last, keep);
      FilterSnoc(init, last, keep);
    }
  }

  lemma FilterSnoc<T(!new)>(xs: seq<T>, x: T, keep: T -> bool)
    ensures Filter(xs + [x], keep) == Filter(xs, keep) + (if keep(x) then [x] else [])
  {
    var t := xs + [x];
    assert t[..|t| - 1] == xs;
    assert t[|t| - 1] == x;
  }

  /** A single element is kept exactly when it passes the test. */
  lemma FilterSingle<T(!new)>(x: T, keep: T -> bool)
    ensures Filter([x], keep) == if keep(x) then [x] else []
  {
    assert [x][..0] == [];
  }

  /** Nothing is kept when nothing passes. */
  lemma {:induction false} FilterNone<T(!new)>(xs: seq<T>, keep: T -> bool)
    requires forall k :: 0 <= k < |xs| ==> !keep(xs[k])
    ensures Filter(xs, keep) == []
    decreases |xs|
  {
    if |xs| > 0 {
      FilterNone(xs[..|xs| - 1], keep);
    }
  }

  predicate NonEmpty(x: string) {
    x != ""
  }

  /** `xs.filter(x => x)` on strings: the empty ones are dropped. */
  function Truthy(xs: seq<string>): (r: seq<string>)
    ensures |r| <= |xs|
    ensures forall x :: x in r <==> x in xs && x != ""
  {
    Filter(xs, NonEmpty)
  }

  /** The genre filter keeps the order and the duplicates. */
  lemma TruthyAppend(a: seq<string>, b: seq<string>)
    ensures Truthy(a + b) == Truthy(a) + Truthy(b)
    ensures forall x :: Truthy([x]) == if x == "" then [] else [x]
  {
    FilterAppend(a, b, NonEmpty);
    forall x ensures Truthy([x]) == if x == "" then [] else [x] {
      FilterSingle(x, NonEmpty);
    }
  }

  /** `xs.map(x => x.toLowerCase().trim())`. */
  function CleanAll(xs: seq<string>): (r: seq<string>)
    ensures |r| == |xs|
    ensures forall k :: 0 <= k < |xs| ==> r[k] == Clean(xs[k])
    ensures forall x :: x in r ==> IsLower(x) && IsTrimmed(x)
  {
    MapSeq(xs, Clean)
  }

  /** `cleanGenres`: every genre cleaned, the empty ones dropped. */
  function CleanGenres(raw: seq<string>): (r: seq<string>)
    ensures |r| <= |raw|
    ensures forall k :: 0 <= k < |r| ==> r[k] != "" && IsLower(r[k]) && IsTrimmed(r[k])
    ensures forall g :: g in r <==> g != "" && g in CleanAll(raw)
  {
    var cleaned := CleanAll(raw);
    var r := Truthy(cleaned);
    forall k | 0 <= k < |r| ensures r[k] != "" && IsLower(r[k]) && IsTrimmed(r[k]) {
      assert r[k] in r;
    }
    r
  }

  lemma CleanAllAppend(a: seq<string>, b: seq<string>)
    ensures CleanAll(a + b) == CleanAll(a) + CleanAll(b)
  {
    MapSeqAppend(a, b, Clean);
  }

  /** Genre cleaning goes genre by genre, in order: it distributes over
      concatenation, and a single genre is kept, cleaned, exactly when cleaning
      leaves something. */
  lemma CleanGenresAppend(a: seq<string>, b: seq<string>)
    ensures CleanGenres(a + b) == CleanGenres(a) + CleanGenres(b)
  {
    CleanAllAppend(a, b);
    TruthyAppend(CleanAll(a), CleanAll(b));
  }

  lemma CleanGenresSingle(g: string)
    ensures CleanGenres([g]) == if Clean(g) == "" then [] else [Clean(g)]
  {
    assert CleanAll([g]) == [Clean(g)];
    TruthyAppend([], []);
  }

  /** The primary genre of an entry, `genres[0]`, is the first raw genre that
      cleaning does not empty. */
  lemma PrimaryGenreIsFirstNonEmpty(raw: seq<string>, j: nat)
    requires j < |raw| && Clean(raw[j]) != ""
    requires forall i :: 0 <= i < j ==> Clean(raw[i]) == ""
    ensures |CleanGenres(raw)| > 0 && CleanGenres(raw)[0] == Clean(raw[j])
  {
    var front := raw[..j];
    var rest := raw[j..];
    assert raw == front + rest;
    assert rest == [raw[j]] + raw[j + 1..];
    CleanGenresNone(front);
    CleanGenresAppend(front, rest);
    CleanGenresAppend([raw[j]], raw[j + 1..]);
    CleanGenresSingle(raw[j]);
  }

  /** Genres that all clean to nothing leave no genre. */
  lemma CleanGenresNone(raw: seq<string>)
    requires forall i :: 0 <= i < |raw| ==> Clean(raw[i]) == ""
    ensures CleanGenres(raw) == []
  {
    var cleaned := CleanAll(raw);
    assert forall k :: 0 <= k < |cleaned| ==> !NonEmpty(cleaned[k]);
    FilterNone(cleaned, NonEmpty);
  }

  /** `themes`: the `_`-separated pieces of the themes column, cleaned and
      kept even when empty; none when the column is empty or missing. */
  function Themes(field: Option<string>): (r: seq<string>)
    ensures field.None? || field.value == "" ==> r == []
    ensures field.Some? && field.value != "" ==> |r| == 1 + CountChar(field.value, '_')
    ensures field.Some? && field.value != "" ==>
              |r| == |Split(field.value, '_')| &&
              forall k :: 0 <= k < |r| ==> r[k] == Clean(Split(field.value, '_')[k])
    ensures forall k :: 0 <= k < |r| ==> '_' !in r[k] && IsLower(r[k]) && IsTrimmed(r[k])
  {
    if field.None? || field.value == "" then []
    else
      var pieces := Split(field.value, '_');
      var r := CleanAll(pieces);
      assert forall k :: 0 <= k < |r| ==> '_' !in r[k] by {
        forall k | 0 <= k < |r| ensures '_' !in r[k] {
          LowerTrimKeepsOut(pieces[k], '_');
        }
      }
      r
  }

  // ---------------------------------------------------------------------------
  // Numbers
  // ---------------------------------------------------------------------------

  /** `episodes_bucket`: three buckets of series length. */
  function EpisodesBucket(episodes: int): (b: real)
    ensures b == 0.2 <==> episodes <= 13
    ensures b == 0.5 <==> 13 < episodes <= 50
    ensures b == 0.8 <==> 50 < episodes
  {
    if episodes <= 13 then 0.2 else if episodes <= 50 then 0.5 else 0.8
  }

  /** `year_norm`: the year mapped linearly from 1980..2024 onto [0, 1], clamped. */
  function YearNorm(year: int): (r: real)
    ensures 0.0 <= r <= 1.0
    ensures year <= FirstYear ==> r == 0.0
    ensures year >= LastYear ==> r == 1.0
    ensures FirstYear <= year <= LastYear ==>
              r * (LastYear - FirstYear) as real == (year - FirstYear) as real
  {
    var x := (year - FirstYear) as real / (LastYear - FirstYear) as real;
    if x < 0.0 then 0.0 else if x > 1.0 then 1.0 else x
  }

  /** The `numerics` and `raw` blocks of an entry, from `episodes`, `year`,
      `rating` and `popularity`. */
  function MakeNumerics(fields: seq<string>, parseFloat: FloatParser): (r: (Numerics, RawNumerics))
    ensures r.0.year != 0
    ensures var y := ParseInt(FieldText(fields, YearColumn)).GetOr(0);
            r.0.year == if y == 0 then FirstYear else y
    ensures r.0.episodes == ParseInt(FieldText(fields, EpisodesColumn)).GetOr(0)
    ensures r.0.episodesBucket == EpisodesBucket(r.0.episodes) && r.0.yearNorm == YearNorm(r.0.year)
    ensures r.1.episodes == r.0.episodes && r.1.year == r.0.year
    ensures r.1.rating == parseFloat(FieldText(fields, RatingColumn)).GetOr(0.0)
    ensures r.1.popularity == parseFloat(FieldText(fields, PopularityColumn)).GetOr(0.0)
    ensures r.0.rating * 10.0 == r.1.rating && r.0.popularity * 100.0 == r.1.popularity
  {
    var episodes := ParseInt(FieldText(fields, EpisodesColumn)).GetOr(0);
    var parsedYear := ParseInt(FieldText(fields, YearColumn)).GetOr(0);
    var year := if parsedYear == 0 then FirstYear else parsedYear;
    var rating := parseFloat(FieldText(fields, RatingColumn)).GetOr(0.0);
    var popularity := parseFloat(FieldText(fields, PopularityColumn)).GetOr(0.0);
    (Numerics(episodes, year, rating / 10.0, popularity / 100.0, EpisodesBucket(episodes), YearNorm(year)),
     RawNumerics(episodes, year, rating, popularity))
  }

  // ---------------------------------------------------------------------------
  // Records
  // ---------------------------------------------------------------------------

  /** What every entry of the index satisfies. */
  predicate Built(item: Item) {
    && item.features.genres.Some?
    && item.numerics.Some?
    && (forall k :: 0 <= k < |item.features.genres.value| ==>
          var g := item.features.genres.value[k]; g != "" && IsLower(g) && IsTrimmed(g))
    && (forall k :: 0 <= k < |item.features.themes| ==> '_' !in item.features.themes[k])
    && var n := item.numerics.value;
       && n.year != 0
       && 0.0 <= n.yearNorm <= 1.0
       && (n.episodesBucket == 0.2 || n.episodesBucket == 0.5 || n.episodesBucket == 0.8)
       && n.episodes == item.raw.episodes && n.year == item.raw.year
       && n.rating * 10.0 == item.raw.rating && n.popularity * 100.0 == item.raw.popularity
  }

  function MoodOf(fields: seq<string>): MoodField {
    match CleanField(fields, MoodColumn)
    case None => MoodMissing
    case Some(m) => MoodString(m)
  }

  /** The `anime` object the builder pushes for a line whose genres could be read. */
  function MakeItem(fields: seq<string>, genres: seq<string>, parseFloat: FloatParser): (item: Item)
    requires |fields| > 0
    ensures Built(item)
    ensures item.baseTitle == fields[TitleColumn]
    ensures forall g :: g in item.features.genres.value <==> g != "" && g in CleanAll(genres)
    ensures item.features.genres == Some(CleanGenres(genres))
    ensures item.features.mood == if MoodColumn < |fields| then MoodString(Clean(fields[MoodColumn])) else MoodMissing
    ensures item.features.complexity == CleanField(fields, ComplexityColumn)
    ensures item.features.pacing == CleanField(fields, PacingColumn)
    ensures item.features.targetAudience == CleanField(fields, AudienceColumn)
    ensures item.features.themes == Themes(Field(fields, ThemesColumn))
    ensures item.features.setting == CleanField(fields, SettingColumn)
    ensures item.features.artStyle == CleanField(fields, ArtStyleColumn)
    ensures item.numerics == Some(MakeNumerics(fields, parseFloat).0) && item.raw == MakeNumerics(fields, parseFloat).1
  {
    var numbers := MakeNumerics(fields, parseFloat);
    var features := Features(
      Some(CleanGenres(genres)),
      MoodOf(fields),
      CleanField(fields, ComplexityColumn),
      CleanField(fields, PacingColumn),
      CleanField(fields, AudienceColumn),
      Themes(Field(fields, ThemesColumn)),
      CleanField(fields, SettingColumn),
      CleanField(fields, ArtStyleColumn));
    Item(fields[TitleColumn], features, Some(numbers.0), numbers.1)
  }

  /** One turn of the builder's loop over the data lines: the entry the line yields, or `None` when the line is
      skipped: it has fewer fields than the header has columns, or its genres
      cannot be cleaned. */
  function ParseRecord(line: string, headerCount: nat, parse: JsonParser, parseFloat: FloatParser)
    : (r: Option<Item>)
    ensures r.None? <==>
              || !HasArity(SplitFields(line), headerCount)
              || RawGenres(Field(SplitFields(line), GenresColumn), parse).None?
    ensures r.Some? ==> Built(r.value) && r.value.baseTitle == SplitFields(line)[TitleColumn]
  {
    var fields := SplitFields(line);
    if !HasArity(fields, headerCount) then None
    else
      match RawGenres(Field(fields, GenresColumn), parse)
      case None => None
      case Some(genres) => Some(MakeItem(fields, genres, parseFloat))
  }

  /** The values of the `Some`s, in order. */
  function Somes<T>(opts: seq<Option<T>>): (r: seq<T>)
    ensures |r| <= |opts|
    ensures forall x :: x in r ==> Some(x) in opts
  {
    if |opts| == 0 then []
    else
      var init := opts[..|opts| - 1];
      assert forall o :: o in init ==> o in opts;
      match opts[|opts| - 1]
      case None => Somes(init)
      case Some(x) => Somes(init) + [x]
  }

  /** `Somes` keeps the order: it distributes over concatenation, and keeps
      the value of a single `Some`. */
  lemma {:induction false} SomesAppend<T>(a: seq<Option<T>>, b: seq<Option<T>>)
    ensures Somes(a + b) == Somes(a) + Somes(b)
    decreases |b|
  {
    if |b| == 0 {
      assert a + b == a;
    } else {
      var init := b[..|b| - 1];
      var last := b[|b| - 1];
      var t := a + b;
      assert t[..|t| - 1] == a + init;
      assert t[|t| - 1] == last;
      SomesAppend(a, init);
      if last.None? {
        assert Somes(t) == Somes(a + init);
        assert Somes(b) == Somes(init);
      } else {
        assert Somes(t) == Somes(a + init) + [last.value];
        assert Somes(b) == Somes(init) + [last.value];
      }
    }
  }

  lemma SomesSingle<T>(o: Option<T>)
    ensures Somes([o]) == if o.Some? then [o.value] else []
  {
    assert [o][..0] == [];
  }

  /** Nothing is lost when every option is a `Some`. */
  lemma {:induction false} AllSomes<T>(opts: seq<Option<T>>)
    requires forall k :: 0 <= k < |opts| ==> opts[k].Some?
    ensures |Somes(opts)| == |opts|
    ensures forall k :: 0 <= k < |opts| ==> Somes(opts)[k] == opts[k].value
  {
    if |opts| > 0 {
      var init := opts[..|opts| - 1];
      AllSomes(init);
    }
  }

  /** `xs.map(f)`. */
  function MapSeq<A, B>(xs: seq<A>, f: A -> B): (r: seq<B>)
    ensures |r| == |xs|
    ensures forall k :: 0 <= k < |xs| ==> r[k] == f(xs[k])
  {
    seq(|xs|, k requires 0 <= k < |xs| => f(xs[k]))
  }

  lemma MapSeqAppend<A, B>(a: seq<A>, b: seq<A>, f: A -> B)
    ensures MapSeq(a + b, f) == MapSeq(a, f) + MapSeq(b, f)
  {
    var r := MapSeq(a + b, f);
    forall k | 0 <= k < |r| ensures r[k] == (MapSeq(a, f) + MapSeq(b, f))[k] {
      if k < |a| {
        assert (a + b)[k] == a[k];
      } else {
        assert (a + b)[k] == b[k - |a|];
      }
    }
  }

  /** The record of one data line, for a fixed header and parsers. */
  function LineParser(headerCount: nat, parse: JsonParser, parseFloat: FloatParser): string -> Option<Item> {
    line => ParseRecord(line, headerCount, parse, parseFloat)
  }

  /** The outcome of each data line, in order. */
  function Records(lines: seq<string>, headerCount: nat, parse: JsonParser, parseFloat: FloatParser)
    : (r: seq<Option<Item>>)
    ensures |r| == |lines|
    ensures forall k :: 0 <= k < |lines| ==> r[k] == ParseRecord(lines[k], headerCount, parse, parseFloat)
  {
    MapSeq(lines, LineParser(headerCount, parse, parseFloat))
  }

  /** The builder's loop over the data lines: the entries of the data lines, in order. */
  function ParseRecords(lines: seq<string>, headerCount: nat, parse: JsonParser, parseFloat: FloatParser)
    : (r: seq<Item>)
    ensures |r| <= |lines|
    ensures forall k :: 0 <= k < |r| ==> Built(r[k])
  {
    var opts := Records(lines, headerCount, parse, parseFloat);
    var r := Somes(opts);
    forall k | 0 <= k < |r| ensures Built(r[k]) {
      assert Some(r[k]) in opts;
      var j :| 0 <= j < |opts| && opts[j] == Some(r[k]);
    }
    r
  }

  /** The record loop handles each line on its own, in order: it distributes
      over concatenation, and one line gives its entry, or nothing when it is
      skipped. */
  lemma ParseRecordsAppend(a: seq<string>, b: seq<string>, headerCount: nat, parse: JsonParser, parseFloat: FloatParser)
    ensures ParseRecords(a + b, headerCount, parse, parseFloat) ==
              ParseRecords(a, headerCount, parse, parseFloat) + ParseRecords(b, headerCount, parse, parseFloat)
  {
    RecordsAppend(a, b, headerCount, parse, parseFloat);
    SomesAppend(Records(a, headerCount, parse, parseFloat), Records(b, headerCount, parse, parseFloat));
  }

  lemma RecordsAppend(a: seq<string>, b: seq<string>, headerCount: nat, parse: JsonParser, parseFloat: FloatParser)
    ensures Records(a + b, headerCount, parse, parseFloat) ==
              Records(a, headerCount, parse, parseFloat) + Records(b, headerCount, parse, parseFloat)
  {
    MapSeqAppend(a, b, LineParser(headerCount, parse, parseFloat));
  }

  lemma ParseRecordsSingle(line: string, headerCount: nat, parse: JsonParser, parseFloat: FloatParser)
    ensures ParseRecords([line], headerCount, parse, parseFloat) ==
              var o := ParseRecord(line, headerCount, parse, parseFloat); if o.Some? then [o.value] else []
  {
    var o := ParseRecord(line, headerCount, parse, parseFloat);
    assert Records([line], headerCount, parse, parseFloat) == [o];
    SomesSingle(o);
  }

  /** No usable line is lost: when every data line yields an entry, the
      entries are those of the lines, in the same order. */
  lemma EveryUsableLineIsKept(lines: seq<string>, headerCount: nat, parse: JsonParser, parseFloat: FloatParser)
    requires forall k :: 0 <= k < |lines| ==> ParseRecord(lines[k], headerCount, parse, parseFloat).Some?
    ensures |ParseRecords(lines, headerCount, parse, parseFloat)| == |lines|
    ensures forall k :: 0 <= k < |lines| ==>
              ParseRecords(lines, headerCount, parse, parseFloat)[k] == ParseRecord(lines[k], headerCount, parse, parseFloat).value
  {
    AllSomes(Records(lines, headerCount, parse, parseFloat));
  }

  /** A year written the way `String` prints it is read back unchanged, and a
      year column that holds no number becomes 1980. */
  lemma PrintedYearIsRead(fields: seq<string>, year: int, parseFloat: FloatParser)
    requires YearColumn < |fields| && fields[YearColumn] == IntToString(year) && year != 0
    ensures MakeNumerics(fields, parseFloat).0.year == year
    ensures MakeNumerics(fields, parseFloat).0.yearNorm == YearNorm(year)
  {
    ParseIntOfPrinted(year, "");
    assert IntToString(year) + "" == IntToString(year);
  }

  lemma UnreadableYearIsFirstYear(fields: seq<string>, parseFloat: FloatParser)
    requires ParseInt(FieldText(fields, YearColumn)) == None
    ensures MakeNumerics(fields, parseFloat).0.year == FirstYear
    ensures MakeNumerics(fields, parseFloat).0.yearNorm == 0.0
  {
  }

  /** An episode count written the way `String` prints it is read back
      unchanged, and puts the entry in the matching bucket. */
  lemma PrintedEpisodesAreRead(fields: seq<string>, episodes: int, parseFloat: FloatParser)
    requires EpisodesColumn < |fields| && fields[EpisodesColumn] == IntToString(episodes)
    ensures MakeNumerics(fields, parseFloat).0.episodes == episodes
    ensures MakeNumerics(fields, parseFloat).0.episodesBucket == EpisodesBucket(episodes)
  {
    ParseIntOfPrinted(episodes, "");
    assert IntToString(episodes) + "" == IntToString(episodes);
  }

  // ---------------------------------------------------------------------------
  // Lines and header
  // ---------------------------------------------------------------------------

  predicate NotBlank(line: string) {
    Trim(line) != ""
  }

  /** `pieces.filter(line => line.trim())`. */
  function NonBlank(pieces: seq<string>): (r: seq<string>)
    ensures |r| <= |pieces|
    ensures forall k :: 0 <= k < |r| ==> Trim(r[k]) != ""
    ensures forall l :: l in r <==> l in pieces && Trim(l) != ""
  {
    var r := Filter(pieces, NotBlank);
    assert forall k :: 0 <= k < |r| ==> r[k] in r;
    r
  }

  /** The blank-line filter keeps the order: it distributes over
      concatenation and keeps a single line exactly when it is not blank, so
      the first non-blank line stays first. */
  lemma NonBlankAppend(a: seq<string>, b: seq<string>)
    ensures NonBlank(a + b) == NonBlank(a) + NonBlank(b)
    ensures forall l :: NonBlank([l]) == if Trim(l) == "" then [] else [l]
  {
    FilterAppend(a, b, NotBlank);
    forall l ensures NonBlank([l]) == if Trim(l) == "" then [] else [l] {
      FilterSingle(l, NotBlank);
    }
  }

  /** `lines`: the non-blank lines of the file. */
  function Lines(content: string): (r: seq<string>)
    ensures r == NonBlank(Split(content, '\n'))
    ensures |r| <= 1 + CountChar(content, '\n')
    ensures forall k :: 0 <= k < |r| ==> '\n' !in r[k] && Trim(r[k]) != ""
  {
    var pieces := Split(content, '\n');
    var r := NonBlank(pieces);
    assert forall k :: 0 <= k < |r| ==> r[k] in pieces;
    r
  }

  // ---------------------------------------------------------------------------
  // Vocabularies and the index
  // ---------------------------------------------------------------------------

  /** Every genre of every entry, in the order the builder adds them to `genreSet`. */
  function AllGenres(items: seq<Item>): (r: seq<string>)
    ensures forall g :: g in r <==> exists k :: 0 <= k < |items| && g in items[k].features.genres.GetOr([])
  {
    if |items| == 0 then []
    else
      var init := items[..|items| - 1];
      assert forall k :: 0 <= k < |init| ==> init[k] == items[k];
      AllGenres(init) + items[|items| - 1].features.genres.GetOr([])
  }

  /** Every theme of every entry, as the builder adds them to `themeSet`. */
  function AllThemes(items: seq<Item>): (r: seq<string>)
    ensures forall t :: t in r <==> exists k :: 0 <= k < |items| && t in items[k].features.themes
  {
    if |items| == 0 then []
    else
      var init := items[..|items| - 1];
      assert forall k :: 0 <= k < |init| ==> init[k] == items[k];
      AllThemes(init) + items[|items| - 1].features.themes
  }

  /** A value a set received: `undefined` becomes the falsy `""`. */
  function Text(v: Option<string>): string {
    v.GetOr("")
  }

  function MoodText(m: MoodField): string {
    if m.MoodString? then m.text else ""
  }

  /** The eight sorted vocabularies of `vocabularies`. */
  datatype Vocabularies = Vocabularies(
    genres: seq<string>,
    moods: seq<string>,
    complexity: seq<string>,
    pacing: seq<string>,
    targetAudience: seq<string>,
    themes: seq<string>,
    settings: seq<string>,
    artStyles: seq<string>)

  predicate AllStrictlySorted(v: Vocabularies) {
    && StrictlySorted(v.genres) && StrictlySorted(v.moods) && StrictlySorted(v.complexity)
    && StrictlySorted(v.pacing) && StrictlySorted(v.targetAudience) && StrictlySorted(v.themes)
    && StrictlySorted(v.settings) && StrictlySorted(v.artStyles)
  }

  predicate NoEmptyEntry(v: Vocabularies) {
    && "" !in v.genres && "" !in v.moods && "" !in v.complexity && "" !in v.pacing
    && "" !in v.targetAudience && "" !in v.themes && "" !in v.settings && "" !in v.artStyles
  }

  function BuildVocabularies(items: seq<Item>): (v: Vocabularies)
    ensures AllStrictlySorted(v) && NoEmptyEntry(v)
    ensures forall g :: g in v.genres <==> g != "" && g in AllGenres(items)
    ensures forall t :: t in v.themes <==> t != "" && t in AllThemes(items)
  {
    Vocabularies(
      Vocabulary(AllGenres(items)),
      Vocabulary(seq(|items|, k requires 0 <= k < |items| => MoodText(items[k].features.mood))),
      Vocabulary(seq(|items|, k requires 0 <= k < |items| => Text(items[k].features.complexity))),
      Vocabulary(seq(|items|, k requires 0 <= k < |items| => Text(items[k].features.pacing))),
      Vocabulary(seq(|items|, k requires 0 <= k < |items| => Text(items[k].features.targetAudience))),
      Vocabulary(AllThemes(items)),
      Vocabulary(seq(|items|, k requires 0 <= k < |items| => Text(items[k].features.setting))),
      Vocabulary(seq(|items|, k requires 0 <= k < |items| => Text(items[k].features.artStyle))))
  }

  lemma BuiltGenresAreTruthy(items: seq<Item>)
    requires forall k :: 0 <= k < |items| ==> Built(items[k])
    ensures "" !in AllGenres(items)
  {
    forall k | 0 <= k < |items| ensures "" !in items[k].features.genres.GetOr([]) {
      assert Built(items[k]);
    }
  }

  /** The `index` object without `generated_at`, which reads the clock. */
  datatype Index = Index(totalAnime: nat, vocabularies: Vocabularies, anime: seq<Item>)

  /** `lines[0].split(',')` throws a `TypeError` when the file has no non-blank line. */
  datatype BuildError = NoHeaderLine

  /** The build script, from the file content to the `index` object. */
  function BuildIndex(content: string, parse: JsonParser, parseFloat: FloatParser)
    : (r: Result<Index, BuildError>)
    ensures r.Failure? <==> |Lines(content)| == 0
    ensures r.Success? ==> r.value.totalAnime == |r.value.anime| < |Lines(content)|
    ensures r.Success? ==>
              r.value.anime == ParseRecords(Lines(content)[1..], |Split(Lines(content)[0], ',')|, parse, parseFloat)
    ensures r.Success? ==> forall k :: 0 <= k < |r.value.anime| ==> Built(r.value.anime[k])
    ensures r.Success? ==> AllStrictlySorted(r.value.vocabularies) && NoEmptyEntry(r.value.vocabularies)
    ensures r.Success? ==> forall g :: g in r.value.vocabularies.genres <==>
              exists k :: 0 <= k < |r.value.anime| && g in r.value.anime[k].features.genres.GetOr([])
  {
    var lines := Lines(content);
    if |lines| == 0 then Failure(NoHeaderLine)
    else
      var headerCount := |Split(lines[0], ',')|;
      var anime := ParseRecords(lines[1..], headerCount, parse, parseFloat);
      var vocabularies := BuildVocabularies(anime);
      BuiltGenresAreTruthy(anime);
      Success(Index(|anime|, vocabularies, anime))
  }
}

=== FILE: numbers.dfy ===
/** `parseInt` with no radix argument, as section 19.2.5 of ECMA-262 defines
    it: skip leading white space, read an optional sign, switch to base 16 after
    a `0x`/`0X` prefix, and read the longest run of digits; no digit at all is
    `NaN`, modelled as `None`. `parseFloat` is not modelled here: it is a
    parameter of the index builder.
 */
module Numbers {
  import opened Wrappers
  import opened Strings

  /** The value of a digit character in any radix up to 36; 36 for any other
      character, so that it is a digit of no radix. */
  function DigitValue(c: char): (v: nat)
    ensures v <= 36
  {
    if '0' <= c <= '9' then c as nat - '0' as nat
    else if 'a' <= c <= 'z' then c as nat - 'a' as nat + 10
    else if 'A' <= c <= 'Z' then c as nat - 'A' as nat + 10
    else 36
  }

  predicate IsRadixDigit(c: char, radix: nat) {
    DigitValue(c) < radix
  }

  predicate IsDecimalDigit(c: char) {
    '0' <= c <= '9'
  }

  /** Length of the longest prefix of `s` made of radix digits. */
  function DigitRun(s: string, radix: nat): (n: nat)
    ensures n <= |s|
    ensures forall k :: 0 <= k < n ==> IsRadixDigit(s[k], radix)
    ensures n < |s| ==> !IsRadixDigit(s[n], radix)
  {
    if |s| > 0 && IsRadixDigit(s[0], radix) then 1 + DigitRun(s[1..], radix) else 0
  }

  /** The number a string of radix digits denotes, most significant first. */
  function DigitsValue(s: string, radix: nat): nat {
    if |s| == 0 then 0
    else DigitsValue(s[..|s| - 1], radix) * radix + DigitValue(s[|s| - 1])
  }

  /** The digits after the sign: base 16 after a `0x`/`0X` prefix, base 10
      otherwise, as many digits as there are. */
  function ParseUnsigned(u: string): (r: Option<nat>)
    ensures r.Some? ==> |u| > 0 && IsDecimalDigit(u[0])
  {
    var hex := |u| >= 2 && u[0] == '0' && (u[1] == 'x' || u[1] == 'X');
    var radix := if hex then 16 else 10;
    var v := if hex then u[2..] else u;
    var n := DigitRun(v, radix);
    if n == 0 then None
    else
      assert !hex ==> DigitValue(v[0]) < 10;
      Some(DigitsValue(v[..n], radix))
  }

  /** An optional sign, then the digits. */
  function ParseSigned(t: string): (r: Option<int>)
    ensures r.Some? ==> exists k :: 0 <= k < |t| && IsDecimalDigit(t[k])
  {
    var negative := |t| > 0 && t[0] == '-';
    var u := if |t| > 0 && (t[0] == '+' || t[0] == '-') then t[1..] else t;
    match ParseUnsigned(u)
    case None => None
    case Some(m) =>
      assert u[0] == t[|t| - |u|];
      var value := if negative then -(m as int) else m as int;
      Some(value)
  }

  /** `parseInt(s)`: leading white space is skipped. */
  function ParseInt(s: string): (r: Option<int>)
    ensures r.Some? ==> exists k :: 0 <= k < |s| && IsDecimalDigit(s[k])
  {
    var w := LeadingWhitespace(s);
    var r := ParseSigned(s[w..]);
    assert r.Some? ==> exists k :: w <= k < |s| && IsDecimalDigit(s[k]) by {
      if r.Some? {
        var k :| 0 <= k < |s[w..]| && IsDecimalDigit(s[w..][k]);
        assert s[w + k] == s[w..][k];
      }
    }
    r
  }

  // ---------------------------------------------------------------------------
  // Decimal printing, the partner of parsing
  // ---------------------------------------------------------------------------

  function DigitChar(d: nat): (c: char)
    requires d < 10
    ensures IsDecimalDigit(c) && DigitValue(c) == d
  {
    ('0' as nat + d) as char
  }

  /** The decimal digits of `n`, without leading zeros. */
  function NatToString(n: nat): (s: string)
    ensures |s| > 0
    ensures forall k :: 0 <= k < |s| ==> IsDecimalDigit(s[k])
  {
    if n < 10 then [DigitChar(n)] else NatToString(n / 10) + [DigitChar(n % 10)]
  }

  /** `String(n)` for an integer `n`. */
  function IntToString(n: int): string {
    if n < 0 then "-" + NatToString(-n) else NatToString(n)
  }

  lemma {:induction false} DigitsValueOfNatToString(n: nat)
    ensures DigitsValue(NatToString(n), 10) == n
  {
    var s := NatToString(n);
    if n >= 10 {
      DigitsValueOfNatToString(n / 10);
      assert s[..|s| - 1] == NatToString(n / 10);
    }
  }

  /** A run of decimal digits followed by a non-alphanumeric character or the
      end of the string is read in full. */
  lemma {:induction false} DigitRunOfDigits(s: string, rest: string)
    requires forall k :: 0 <= k < |s| ==> IsDecimalDigit(s[k])
    requires |rest| > 0 ==> DigitValue(rest[0]) == 36
    ensures DigitRun(s + rest, 10) == |s|
    decreases |s|
  {
    if |s| > 0 {
      assert (s + rest)[1..] == s[1..] + rest;
      DigitRunOfDigits(s[1..], rest);
    } else {
      assert s + rest == rest;
    }
  }

  lemma ParseUnsignedOfPrinted(m: nat, rest: string)
    requires |rest| > 0 ==> DigitValue(rest[0]) == 36
    ensures ParseUnsigned(NatToString(m) + rest) == Some(m)
  {
    var digits := NatToString(m);
    DigitRunOfDigits(digits, rest);
    DigitsValueOfNatToString(m);
    assert (digits + rest)[..|digits|] == digits;
    if |digits| >= 2 {
      LeadingDigitNonZero(m);
    } else if |rest| > 0 {
      assert (digits + rest)[1] == rest[0];
    }
  }

  /** Parsing what `String` prints gives the number back, also when the number
      is followed by text that starts with neither a letter nor a digit
      ("12 episodes" reads as 12). */
  lemma ParseIntOfPrinted(n: int, rest: string)
    requires |rest| > 0 ==> DigitValue(rest[0]) == 36
    ensures ParseInt(IntToString(n) + rest) == Some(n)
  {
    PrintedStartsWithSignOrDigit(n, rest);
    NoLeadingWhitespace(IntToString(n) + rest);
    ParseSignedOfPrinted(n, rest);
  }

  lemma PrintedStartsWithSignOrDigit(n: int, rest: string)
    ensures |IntToString(n) + rest| > 0 && !IsWhitespace((IntToString(n) + rest)[0])
  {
  }

  lemma ParseSignedOfPrinted(n: int, rest: string)
    requires |rest| > 0 ==> DigitValue(rest[0]) == 36
    ensures ParseSigned(IntToString(n) + rest) == Some(n)
  {
    if n < 0 {
      ParseSignedOfPrintedNegative(n, rest);
    } else {
      var t := NatToString(n) + rest;
      assert t[0] == NatToString(n)[0];
      UnsignedNeedsNoSign(t);
      ParseUnsignedOfPrinted(n, rest);
    }
  }

  /** Text that starts with a digit has no sign to strip. */
  lemma UnsignedNeedsNoSign(t: string)
    requires |t| > 0 && IsDecimalDigit(t[0])
    ensures ParseSigned(t) == ParseUnsigned(t)
  {
  }

  lemma IntToStringNegative(n: int)
    requires n < 0
    ensures IntToString(n) == ['-'] + NatToString(-n)
  {
  }

  lemma ParseSignedOfPrintedNegative(n: int, rest: string)
    requires n < 0
    requires |rest| > 0 ==> DigitValue(rest[0]) == 36
    ensures ParseSigned(IntToString(n) + rest) == Some(n)
  {
    var m: nat := -n;
    var d := NatToString(m) + rest;
    IntToStringNegative(n);
    assert IntToString(n) + rest == ['-'] + d;
    ParseUnsignedOfPrinted(m, rest);
    ParseSignedNegative(m, d);
  }

  lemma NoLeadingWhitespace(s: string)
    requires |s| > 0 && !IsWhitespace(s[0])
    ensures ParseInt(s) == ParseSigned(s)
  {
    assert s[0..] == s;
  }

  lemma ParseSignedNegative(m: nat, d: string)
    requires ParseUnsigned(d) == Some(m)
    ensures ParseSigned(['-'] + d) == Some(-(m as int))
  {
    assert (['-'] + d)[1..] == d;
  }

  /** A number of two or more digits does not start with `0`. */
  lemma {:induction false} LeadingDigitNonZero(n: nat)
    requires |NatToString(n)| >= 2
    ensures NatToString(n)[0] != '0'
  {
    if n / 10 >= 10 {
      LeadingDigitNonZero(n / 10);
    }
  }
}

=== FILE: pipeline.dfy ===
/** How the parts fit together: every entry the index builder writes is one
    the recommender can serve, and a catalog built from in-range ratings and
    popularities scores below the cap without needing it.
 */
module Pipeline {
  import opened Wrappers
  import opened Catalog
  import Scorer
  import Selector
  import IndexBuilder

  /** The recommender never throws on a freshly built index: every entry has
      its genres and its numbers. */
  lemma BuiltIndexIsServed(content: string, parse: JsonParser, parseFloat: IndexBuilder.FloatParser,
                           prefs: Preferences, limit: int, parseMood: JsonParser)
    requires IndexBuilder.BuildIndex(content, parse, parseFloat).Success?
    ensures Selector.GetRecommendations(
              prefs,
              Some(Selector.Database(Some(IndexBuilder.BuildIndex(content, parse, parseFloat).value.anime))),
              limit,
              parseMood).Success?
  {
    var anime := IndexBuilder.BuildIndex(content, parse, parseFloat).value.anime;
    var db := Some(Selector.Database(Some(anime)));
    assert Selector.CatalogOf(db) == anime;
    forall k | 0 <= k < |anime| ensures Selector.WellFormed(anime[k]) {
      assert IndexBuilder.Built(anime[k]);
    }
  }

  /** A built entry whose raw rating lies in [0, 10], whose raw popularity lies
      in [0, 100] and whose genres are distinct scores at most 100 before the
      cap, so the cap of `computeSimilarity` (`Math.min(..., 100)`) changes nothing. */
  lemma InRangeEntryNeedsNoCap(prefs: Preferences, item: Item, parse: JsonParser)
    requires IndexBuilder.Built(item)
    requires Scorer.NoDuplicates(item.features.genres.value)
    requires 0.0 <= item.raw.rating <= 10.0 && 0.0 <= item.raw.popularity <= 100.0
    ensures Scorer.ScoreBeforeRounding(prefs, item, parse) <= 100.0
    ensures Scorer.MatchCount(prefs, item, parse) > 0 ==>
              Scorer.ComputeSimilarity(prefs, item, parse) == Scorer.JsRound(Scorer.ScoreBeforeRounding(prefs, item, parse))
  {
    Scorer.InRangeInputsStayWithinCap(prefs, item, parse);
  }
}

=== FILE: scorer.dfy ===
/** `computeSimilarity`: how well one catalog entry fits one preference vector,
    as an integer score of at most 100.

    Five preference dimensions award points when they are set and match
    (genres 50, mood 35, pacing 25, target audience 15, complexity 10; 135 in
    all). No match at all gives exactly 0. Otherwise the points are rescaled to
    85, a rating bonus (10 x rating) and a popularity bonus (5 x popularity) are
    added, and the sum is rounded half-up and capped at 100.
 */
module Scorer {
  import opened Wrappers
  import opened Catalog

  const GenreWeight: real := 50.0
  const MoodWeight: real := 35.0
  const PacingWeight: real := 25.0
  const AudienceWeight: real := 15.0
  const ComplexityWeight: real := 10.0
  const MaxPreferenceScore: real := GenreWeight + MoodWeight + PacingWeight + AudienceWeight + ComplexityWeight
  /** The share of the final score that preferences can earn. */
  const PreferenceScale: real := 85.0
  const RatingBonusWeight: real := 10.0
  const PopularityBonusWeight: real := 5.0
  const ScoreCap: int := 100

  /** JavaScript `Math.round`: to the nearest integer, halves rounded up. */
  function JsRound(x: real): (r: int)
    ensures r as real - 0.5 <= x < r as real + 0.5
  {
    (x + 0.5).Floor
  }

  // ---------------------------------------------------------------------------
  // Genres
  // ---------------------------------------------------------------------------

  /** How many entries of `itemGenres` (duplicates counted) appear among the
      selected genres. */
  function GenreOverlap(itemGenres: seq<string>, selected: seq<string>): (n: nat)
    ensures n <= |itemGenres|
    ensures n > 0 <==> exists i :: 0 <= i < |itemGenres| && itemGenres[i] in selected
  {
    if |itemGenres| == 0 then 0
    else
      var rest := GenreOverlap(itemGenres[1..], selected);
      assert forall i :: 1 <= i < |itemGenres| ==> itemGenres[i] == itemGenres[1..][i - 1];
      (if itemGenres[0] in selected then 1 else 0) + rest
  }

  /** The overlap is additive over concatenation, so every duplicate entry counts. */
  lemma {:induction false} GenreOverlapAppend(a: seq<string>, b: seq<string>, selected: seq<string>)
    ensures GenreOverlap(a + b, selected) == GenreOverlap(a, selected) + GenreOverlap(b, selected)
    decreases |a|
  {
    if |a| == 0 {
      assert a + b == b;
    } else {
      assert (a + b)[1..] == a[1..] + b;
      GenreOverlapAppend(a[1..], b, selected);
    }
  }

  predicate NoDuplicates(s: seq<string>) {
    forall i, j :: 0 <= i < j < |s| ==> s[i] != s[j]
  }

  lemma {:induction false} OverlapOfDistinctIsSetSize(g: seq<string>, selected: seq<string>)
    requires NoDuplicates(g)
    ensures GenreOverlap(g, selected) == |set x | x in g && x in selected|
    decreases |g|
  {
    if |g| == 0 {
      assert (set x | x in g && x in selected) == {};
    } else {
      DistinctTail(g);
      OverlapOfDistinctIsSetSize(g[1..], selected);
      MatchedSetOfCons(g, selected);
    }
  }

  lemma DistinctTail(g: seq<string>)
    requires |g| > 0 && NoDuplicates(g)
    ensures NoDuplicates(g[1..])
    ensures g[0] !in g[1..]
  {
    var tail := g[1..];
    forall i, j | 0 <= i < j < |tail| ensures tail[i] != tail[j] {
      assert tail[i] == g[i + 1] && tail[j] == g[j + 1];
    }
    forall j | 0 <= j < |tail| ensures tail[j] != g[0] {
      assert tail[j] == g[j + 1];
    }
  }

  /** The selected genres of a list with a fresh head: those of the tail, plus
      the head when it is selected. */
  lemma MatchedSetOfCons(g: seq<string>, selected: seq<string>)
    requires |g| > 0 && g[0] !in g[1..]
    ensures |set x | x in g && x in selected| ==
            |set x | x in g[1..] && x in selected| + (if g[0] in selected then 1 else 0)
  {
    var tail := g[1..];
    var s := set x | x in g && x in selected;
    var t := set x | x in tail && x in selected;
    assert forall x :: x in g <==> x == g[0] || x in tail by {
      assert g == [g[0]] + tail;
    }
    if g[0] in selected {
      assert s == t + {g[0]};
    } else {
      assert s == t;
    }
  }


  lemma {:induction false} SetOfSeqAtMostLength(s: seq<string>)
    ensures |set x | x in s| <= |s|
    decreases |s|
  {
    if |s| > 0 {
      SetOfSeqAtMostLength(s[1..]);
      assert (set x | x in s) == (set x | x in s[1..]) + {s[0]} by {
        assert s == [s[0]] + s[1..];
      }
    }
  }

  /** With no duplicate item genres the overlap is at most the number of
      selected genres, so the genre dimension stays within its 50 points. */
  lemma OverlapOfDistinctAtMostSelected(g: seq<string>, selected: seq<string>)
    requires NoDuplicates(g)
    ensures GenreOverlap(g, selected) <= |selected|
  {
    OverlapOfDistinctIsSetSize(g, selected);
    SetOfSeqAtMostLength(selected);
    var a := set x | x in g && x in selected;
    var b := set x | x in selected;
    assert b == a + (b - a);
  }

  /** The genre test of `computeSimilarity`: genres must be selected and the item must carry a genre list;
      and at least one item genre must be selected. */
  predicate GenreMatched(prefs: Preferences, item: Item) {
    && |prefs.genres| > 0
    && item.features.genres.Some?
    && GenreOverlap(item.features.genres.value, prefs.genres) > 0
  }

  function GenrePoints(prefs: Preferences, item: Item): real {
    if GenreMatched(prefs, item) then
      (GenreOverlap(item.features.genres.value, prefs.genres) as real / |prefs.genres| as real) * GenreWeight
    else 0.0
  }

  // ---------------------------------------------------------------------------
  // Mood
  // ---------------------------------------------------------------------------

  /** JavaScript truthiness of the mood field. */
  predicate MoodPresent(mood: MoodField) {
    match mood
    case MoodMissing => false
    case MoodString(s) => s != ""
    case MoodArray(_) => true
  }

  /** The mood value after normalisation: a string is JSON-parsed, and one that
      fails to parse stands for itself as a one-element list. `None` when the
      value is not an array. */
  function NormalizedMoods(mood: MoodField, parse: JsonParser): Option<seq<JsonValue>> {
    match mood
    case MoodMissing => None
    case MoodString(s) =>
      (match parse(s)
       case JsonArray(es) => Some(es)
       case JsonNonArray => None
       case JsonError => Some([JsonString(s)]))
    case MoodArray(ms) => Some(seq(|ms|, i requires 0 <= i < |ms| => JsonString(ms[i])))
  }

  predicate MoodMatched(prefs: Preferences, item: Item, parse: JsonParser) {
    && prefs.mood != ""
    && MoodPresent(item.features.mood)
    && var moods := NormalizedMoods(item.features.mood, parse);
       moods.Some? && JsonString(prefs.mood) in moods.value
  }

  /** When the mood dimension matches, case by case on the stored value. */
  lemma MoodMatchedCases(prefs: Preferences, item: Item, parse: JsonParser)
    ensures prefs.mood == "" ==> !MoodMatched(prefs, item, parse)
    ensures item.features.mood.MoodMissing? ==> !MoodMatched(prefs, item, parse)
    ensures item.features.mood.MoodString? && parse(item.features.mood.text).JsonError? ==>
              (MoodMatched(prefs, item, parse) <==> prefs.mood != "" && prefs.mood == item.features.mood.text)
    ensures item.features.mood.MoodString? && parse(item.features.mood.text).JsonNonArray? ==>
              !MoodMatched(prefs, item, parse)
    ensures item.features.mood.MoodString? && parse(item.features.mood.text).JsonArray? ==>
              (MoodMatched(prefs, item, parse) <==>
                 && prefs.mood != ""
                 && item.features.mood.text != ""
                 && JsonString(prefs.mood) in parse(item.features.mood.text).elements)
    ensures item.features.mood.MoodArray? ==>
              (MoodMatched(prefs, item, parse) <==> prefs.mood != "" && prefs.mood in item.features.mood.moods)
  {
    if item.features.mood.MoodArray? {
      var ms := item.features.mood.moods;
      var js := seq(|ms|, i requires 0 <= i < |ms| => JsonString(ms[i]));
      assert NormalizedMoods(item.features.mood, parse) == Some(js);
      if prefs.mood in ms {
        var i :| 0 <= i < |ms| && ms[i] == prefs.mood;
        assert js[i] == JsonString(prefs.mood);
      }
      if JsonString(prefs.mood) in js {
        var i :| 0 <= i < |js| && js[i] == JsonString(prefs.mood);
        assert ms[i] == prefs.mood;
      }
    }
  }

  function MoodPoints(prefs: Preferences, item: Item, parse: JsonParser): real {
    if MoodMatched(prefs, item, parse) then MoodWeight else 0.0
  }

  // ---------------------------------------------------------------------------
  // Pacing, target audience, complexity: exact equality with a set preference
  // ---------------------------------------------------------------------------

  predicate PacingMatched(prefs: Preferences, item: Item) {
    prefs.pacing != "" && item.features.pacing == Some(prefs.pacing)
  }

  predicate AudienceMatched(prefs: Preferences, item: Item) {
    prefs.targetAudience != "" && item.features.targetAudience == Some(prefs.targetAudience)
  }

  predicate ComplexityMatched(prefs: Preferences, item: Item) {
    prefs.complexity != "" && item.features.complexity == Some(prefs.complexity)
  }

  // ---------------------------------------------------------------------------
  // Totals
  // ---------------------------------------------------------------------------

  function Indicator(b: bool): nat {
    if b then 1 else 0
  }

  /** `matchCount`: how many dimensions awarded points. */
  function MatchCount(prefs: Preferences, item: Item, parse: JsonParser): nat {
    Indicator(GenreMatched(prefs, item))
    + Indicator(MoodMatched(prefs, item, parse))
    + Indicator(PacingMatched(prefs, item))
    + Indicator(AudienceMatched(prefs, item))
    + Indicator(ComplexityMatched(prefs, item))
  }

  /** `preferenceScore`: the raw points before rescaling. */
  function RawPoints(prefs: Preferences, item: Item, parse: JsonParser): real {
    GenrePoints(prefs, item)
    + MoodPoints(prefs, item, parse)
    + (if PacingMatched(prefs, item) then PacingWeight else 0.0)
    + (if AudienceMatched(prefs, item) then AudienceWeight else 0.0)
    + (if ComplexityMatched(prefs, item) then ComplexityWeight else 0.0)
  }

  /** Rating and popularity bonuses; both are 0 when the item has no numerics. */
  function Bonus(item: Item): real {
    match item.numerics
    case None => 0.0
    case Some(n) => n.rating * RatingBonusWeight + n.popularity * PopularityBonusWeight
  }

  /** `finalScore` just before `Math.round`. */
  function ScoreBeforeRounding(prefs: Preferences, item: Item, parse: JsonParser): real {
    (RawPoints(prefs, item, parse) / MaxPreferenceScore) * PreferenceScale + Bonus(item)
  }

  /** The bonuses cannot lower a score (rating and popularity non-negative). */
  predicate BonusNonNegative(item: Item) {
    item.numerics.Some? ==> item.numerics.value.rating >= 0.0 && item.numerics.value.popularity >= 0.0
  }

  /** `computeSimilarity`. */
  function ComputeSimilarity(prefs: Preferences, item: Item, parse: JsonParser): (score: int)
    ensures score <= ScoreCap
    ensures MatchCount(prefs, item, parse) == 0 ==> score == 0
    ensures MatchCount(prefs, item, parse) > 0 ==>
              var x := ScoreBeforeRounding(prefs, item, parse);
              && (x >= 99.5 ==> score == ScoreCap)
              && (x < 99.5 ==> score as real - 0.5 <= x < score as real + 0.5)
    ensures BonusNonNegative(item) ==> score >= 0
  {
    if MatchCount(prefs, item, parse) == 0 then 0
    else
      GenrePointsPositiveIffMatched(prefs, item);
      var rounded := JsRound(ScoreBeforeRounding(prefs, item, parse));
      if rounded < ScoreCap then rounded else ScoreCap
  }

  // ---------------------------------------------------------------------------
  // Properties
  // ---------------------------------------------------------------------------

  lemma GenrePointsPositiveIffMatched(prefs: Preferences, item: Item)
    ensures GenrePoints(prefs, item) >= 0.0
    ensures GenrePoints(prefs, item) > 0.0 <==> GenreMatched(prefs, item)
  {
    if GenreMatched(prefs, item) {
      SharePositive(GenreOverlap(item.features.genres.value, prefs.genres) as real, |prefs.genres| as real);
    }
  }

  /** A positive part of a positive whole is a positive share. */
  lemma SharePositive(n: real, d: real)
    requires 0.0 < d && 0.0 < n
    ensures n / d > 0.0
  {
    assert (n / d) * d == n;
  }

  /** A dimension earns points exactly when it matches; so "no match" and
      "no points" are the same condition. */
  lemma PointsIffMatched(prefs: Preferences, item: Item, parse: JsonParser)
    ensures GenrePoints(prefs, item) > 0.0 <==> GenreMatched(prefs, item)
    ensures MoodPoints(prefs, item, parse) == (if MoodMatched(prefs, item, parse) then 35.0 else 0.0)
    ensures RawPoints(prefs, item, parse) >= 0.0
    ensures RawPoints(prefs, item, parse) == 0.0 <==> MatchCount(prefs, item, parse) == 0
  {
    GenrePointsPositiveIffMatched(prefs, item);
  }

  /** A user who answered nothing gets 0 for every item, whatever its rating
      and popularity. */
  lemma UnsetPreferencesScoreZero(item: Item, parse: JsonParser)
    ensures ComputeSimilarity(Preferences([], "", "", "", ""), item, parse) == 0
  {
  }

  /** Pacing, target audience and complexity are all-or-nothing: a set answer
      equal to the entry's value adds its full weight (25, 15 or 10) and one
      match, and any other answer adds nothing compared with leaving it unset. */
  lemma ExactDimensionsAllOrNothing(prefs: Preferences, item: Item, parse: JsonParser)
    ensures var hit := prefs.pacing != "" && item.features.pacing == Some(prefs.pacing);
            var unset := prefs.(pacing := "");
            && RawPoints(prefs, item, parse) == RawPoints(unset, item, parse) + (if hit then 25.0 else 0.0)
            && MatchCount(prefs, item, parse) == MatchCount(unset, item, parse) + (if hit then 1 else 0)
    ensures var hit := prefs.targetAudience != "" && item.features.targetAudience == Some(prefs.targetAudience);
            var unset := prefs.(targetAudience := "");
            && RawPoints(prefs, item, parse) == RawPoints(unset, item, parse) + (if hit then 15.0 else 0.0)
            && MatchCount(prefs, item, parse) == MatchCount(unset, item, parse) + (if hit then 1 else 0)
    ensures var hit := prefs.complexity != "" && item.features.complexity == Some(prefs.complexity);
            var unset := prefs.(complexity := "");
            && RawPoints(prefs, item, parse) == RawPoints(unset, item, parse) + (if hit then 10.0 else 0.0)
            && MatchCount(prefs, item, parse) == MatchCount(unset, item, parse) + (if hit then 1 else 0)
  {
    PacingAllOrNothing(prefs, item, parse);
    AudienceAllOrNothing(prefs, item, parse);
    ComplexityAllOrNothing(prefs, item, parse);
  }

  /** The pacing answer is worth 25 points and one match, or nothing. */
  lemma PacingAllOrNothing(prefs: Preferences, item: Item, parse: JsonParser)
    ensures var hit := prefs.pacing != "" && item.features.pacing == Some(prefs.pacing);
            var unset := prefs.(pacing := "");
            && RawPoints(prefs, item, parse) == RawPoints(unset, item, parse) + (if hit then 25.0 else 0.0)
            && MatchCount(prefs, item, parse) == MatchCount(unset, item, parse) + (if hit then 1 else 0)
  {
    OtherAnswersUnchanged(prefs, prefs.(pacing := ""), item, parse);
  }

  /** The target-audience answer is worth 15 points and one match, or nothing. */
  lemma AudienceAllOrNothing(prefs: Preferences, item: Item, parse: JsonParser)
    ensures var hit := prefs.targetAudience != "" && item.features.targetAudience == Some(prefs.targetAudience);
            var unset := prefs.(targetAudience := "");
            && RawPoints(prefs, item, parse) == RawPoints(unset, item, parse) + (if hit then 15.0 else 0.0)
            && MatchCount(prefs, item, parse) == MatchCount(unset, item, parse) + (if hit then 1 else 0)
  {
    OtherAnswersUnchanged(prefs, prefs.(targetAudience := ""), item, parse);
  }

  /** The complexity answer is worth 10 points and one match, or nothing. */
  lemma ComplexityAllOrNothing(prefs: Preferences, item: Item, parse: JsonParser)
    ensures var hit := prefs.complexity != "" && item.features.complexity == Some(prefs.complexity);
            var unset := prefs.(complexity := "");
            && RawPoints(prefs, item, parse) == RawPoints(unset, item, parse) + (if hit then 10.0 else 0.0)
            && MatchCount(prefs, item, parse) == MatchCount(unset, item, parse) + (if hit then 1 else 0)
  {
    OtherAnswersUnchanged(prefs, prefs.(complexity := ""), item, parse);
  }

  /** Genre and mood points depend on the genre and mood answers only. */
  lemma OtherAnswersUnchanged(prefs: Preferences, other: Preferences, item: Item, parse: JsonParser)
    requires other.genres == prefs.genres && other.mood == prefs.mood
    ensures GenrePoints(prefs, item) == GenrePoints(other, item)
    ensures GenreMatched(prefs, item) == GenreMatched(other, item)
    ensures MoodMatched(prefs, item, parse) == MoodMatched(other, item, parse)
  {
  }

  /** With distinct item genres and rating and popularity in [0, 1] the sum
      before rounding never exceeds 100 (85 + 10 + 5): only duplicate genre
      entries or out-of-range numbers make the cap bite. */
  lemma {:induction false} InRangeInputsStayWithinCap(prefs: Preferences, item: Item, parse: JsonParser)
    requires item.features.genres.Some? ==> NoDuplicates(item.features.genres.value)
    requires item.numerics.Some? ==>
               && 0.0 <= item.numerics.value.rating <= 1.0
               && 0.0 <= item.numerics.value.popularity <= 1.0
    ensures ScoreBeforeRounding(prefs, item, parse) <= 100.0
    ensures MatchCount(prefs, item, parse) > 0 ==>
              ComputeSimilarity(prefs, item, parse) == JsRound(ScoreBeforeRounding(prefs, item, parse))
  {
    GenrePointsAtMostWeight(prefs, item);
    MoodPointsAtMostWeight(prefs, item, parse);
    var raw := RawPoints(prefs, item, parse);
    assert raw <= MaxPreferenceScore;
    var share := raw / MaxPreferenceScore;
    assert share <= 1.0;
    assert share * PreferenceScale <= PreferenceScale;
    assert Bonus(item) <= RatingBonusWeight + PopularityBonusWeight;
  }

  /** With distinct item genres the genre share is at most 1. */
  lemma GenrePointsAtMostWeight(prefs: Preferences, item: Item)
    requires item.features.genres.Some? ==> NoDuplicates(item.features.genres.value)
    ensures GenrePoints(prefs, item) <= GenreWeight
  {
    if GenreMatched(prefs, item) {
      var g := item.features.genres.value;
      OverlapOfDistinctAtMostSelected(g, prefs.genres);
      ShareAtMostOne(GenreOverlap(g, prefs.genres) as real, |prefs.genres| as real);
    }
  }

  /** A part over a positive whole is at most 1. */
  lemma ShareAtMostOne(n: real, d: real)
    requires 0.0 < d && n <= d
    ensures n / d <= 1.0
  {
    assert (n / d) * d == n;
  }

  lemma MoodPointsAtMostWeight(prefs: Preferences, item: Item, parse: JsonParser)
    ensures MoodPoints(prefs, item, parse) <= MoodWeight
  {
  }

  /** Raising the bonuses of an otherwise identical item never lowers its score. */
  lemma ScoreMonotoneInBonus(prefs: Preferences, item: Item, better: Item, parse: JsonParser)
    requires better.features == item.features
    requires Bonus(item) <= Bonus(better)
    ensures ComputeSimilarity(prefs, item, parse) <= ComputeSimilarity(prefs, better, parse)
  {
    SameFeaturesSamePoints(prefs, item, better, parse);
    var x := ScoreBeforeRounding(prefs, item, parse);
    var y := ScoreBeforeRounding(prefs, better, parse);
    assert x <= y;
    if MatchCount(prefs, item, parse) > 0 {
      JsRoundMonotone(x, y);
    }
  }

  /** The points depend on the features only. */
  lemma SameFeaturesSamePoints(prefs: Preferences, item: Item, other: Item, parse: JsonParser)
    requires other.features == item.features
    ensures MatchCount(prefs, item, parse) == MatchCount(prefs, other, parse)
    ensures RawPoints(prefs, item, parse) == RawPoints(prefs, other, parse)
  {
    assert GenrePoints(prefs, item) == GenrePoints(prefs, other);
    assert MoodPoints(prefs, item, parse) == MoodPoints(prefs, other, parse);
  }

  lemma JsRoundMonotone(x: real, y: real)
    requires x <= y
    ensures JsRound(x) <= JsRound(y)
  {
  }

  /** The worked example: genres [action, adventure] against an item listing
      only action, rating 0.8 and popularity 0.5, gives
      25 * 85 / 135 + 8 + 2.5 = 26.24..., which rounds to 26. */
  lemma WorkedExampleGenreOnly(parse: JsonParser)
    ensures
      var prefs := Preferences(["action", "adventure"], "", "", "", "");
      var item := Item(
        "Example",
        Features(Some(["action"]), MoodMissing, None, None, None, [], None, None),
        Some(Numerics(12, 2000, 0.8, 0.5, 0.2, 20.0 / 44.0)),
        RawNumerics(12, 2000, 8.0, 50.0));
      ComputeSimilarity(prefs, item, parse) == 26
  {
    var prefs := Preferences(["action", "adventure"], "", "", "", "");
    var item := Item(
      "Example",
      Features(Some(["action"]), MoodMissing, None, None, None, [], None, None),
      Some(Numerics(12, 2000, 0.8, 0.5, 0.2, 20.0 / 44.0)),
      RawNumerics(12, 2000, 8.0, 50.0));
    assert GenreOverlap(["action"], prefs.genres) == 1;
    assert GenrePoints(prefs, item) == 25.0;
    assert MatchCount(prefs, item, parse) == 1;
    assert RawPoints(prefs, item, parse) == 25.0;
    assert ScoreBeforeRounding(prefs, item, parse) == 25.0 / 135.0 * 85.0 + 8.0 + 2.5;
  }
}

=== FILE: selector.dfy ===
/** `getRecommendations`: score the whole catalog, sort it by score (stable,
    descending), then walk it once, greedily keeping an entry unless

    - its normalised title was already kept, or is a near duplicate of a kept one;
    - its primary genre, its setting, or its (year, primary genre) pair has been
      counted more often than the cap (2, 2 and 1).

    The counters are bumped before each cap test and never rolled back, so a
    candidate that fails a later test still uses up a slot of the earlier ones.
    The walk stops once `limit` entries have been kept.
 */
module Selector {
  import opened Wrappers
  import opened Strings
  import opened Catalog
  import Scorer

  const DefaultLimit: int := 15
  const GenreCap: nat := 2
  const SettingCap: nat := 2
  const StudioCap: nat := 1
  /** Two titles where one contains the other are duplicates when their
      lengths differ by less than this. */
  const NearDuplicateGap: int := 3

  /** A catalog entry with its score. `pos` is the entry's index in the catalog:
      the order a stable sort keeps among equal scores. */
  datatype Scored = Scored(pos: nat, item: Item, score: int)

  /** `scoredAnime` before the sort: every catalog entry paired with its score. */
  function ScoreCatalog(prefs: Preferences, catalog: seq<Item>, parse: JsonParser): (r: seq<Scored>)
    ensures |r| == |catalog|
    ensures forall i :: 0 <= i < |r| ==>
              r[i] == Scored(i, catalog[i], Scorer.ComputeSimilarity(prefs, catalog[i], parse))
  {
    seq(|catalog|, i requires 0 <= i < |catalog| =>
      Scored(i, catalog[i], Scorer.ComputeSimilarity(prefs, catalog[i], parse)))
  }

  // ---------------------------------------------------------------------------
  // Stable descending sort
  // ---------------------------------------------------------------------------

  /** `a` precedes `b` after a stable sort by descending score: a higher score,
      or the same score and an earlier catalog position. */
  predicate Before(a: Scored, b: Scored) {
    a.score > b.score || (a.score == b.score && a.pos < b.pos)
  }

  predicate SortedDesc(s: seq<Scored>) {
    forall i, j :: 0 <= i < j < |s| ==> Before(s[i], s[j])
  }

  predicate DistinctPositions(s: seq<Scored>) {
    forall i, j :: 0 <= i < j < |s| ==> s[i].pos != s[j].pos
  }

  /** Inserts `x` in front of the first entry it precedes. */
  function Insert(x: Scored, s: seq<Scored>): (r: seq<Scored>)
    requires SortedDesc(s)
    requires forall k :: 0 <= k < |s| ==> s[k].pos != x.pos
    ensures SortedDesc(r)
    ensures forall y :: y in r <==> y in s || y == x
    decreases |s|
  {
    if |s| == 0 then [x]
    else if Before(x, s[0]) then [x] + s
    else
      var rest := Insert(x, s[1..]);
      assert s == [s[0]] + s[1..];
      assert forall y :: y in rest ==> Before(s[0], y);
      [s[0]] + rest
  }

  /** Insertion adds exactly `x`. */
  lemma {:induction false} InsertPermutes(x: Scored, s: seq<Scored>)
    requires SortedDesc(s)
    requires forall k :: 0 <= k < |s| ==> s[k].pos != x.pos
    ensures multiset(Insert(x, s)) == multiset(s) + multiset{x}
    decreases |s|
  {
    if |s| > 0 && !Before(x, s[0]) {
      InsertPermutes(x, s[1..]);
      assert s == [s[0]] + s[1..];
    }
  }

  /** `Array.prototype.sort` with the comparator `b.score - a.score`, which is
      stable: an insertion sort from the back of the catalog. */
  function Sort(s: seq<Scored>): (r: seq<Scored>)
    requires DistinctPositions(s)
    ensures SortedDesc(r)
    ensures multiset(r) == multiset(s)
    ensures forall y :: y in r <==> y in s
    decreases |s|
  {
    if |s| == 0 then []
    else
      assert s == [s[0]] + s[1..];
      var rest := Sort(s[1..]);
      assert forall k :: 0 <= k < |rest| ==> rest[k] in s[1..];
      InsertPermutes(s[0], rest);
      Insert(s[0], rest)
  }

  // ---------------------------------------------------------------------------
  // Titles
  // ---------------------------------------------------------------------------

  predicate IsTitleChar(c: char) {
    'a' <= c <= 'z' || '0' <= c <= '9'
  }

  predicate IsTitleString(s: string) {
    forall i :: 0 <= i < |s| ==> IsTitleChar(s[i])
  }

  /** `replace(/[^a-z0-9]/g, '')`. */
  function KeepTitleChars(s: string): (r: string)
    ensures IsTitleString(r)
    ensures |r| <= |s|
    ensures IsTitleString(s) ==> r == s
  {
    if |s| == 0 then ""
    else (if IsTitleChar(s[0]) then [s[0]] else "") + KeepTitleChars(s[1..])
  }

  /** `normalizedTitle`: lower-case, then keep only `[a-z0-9]`. */
  function NormalizeTitle(title: string): (r: string)
    ensures IsTitleString(r)
  {
    KeepTitleChars(Lower(title))
  }

  /** Normalising a normalised title changes nothing. */
  lemma NormalizeTitleIdempotent(title: string)
    ensures NormalizeTitle(NormalizeTitle(title)) == NormalizeTitle(title)
  {
    var n := NormalizeTitle(title);
    assert Lower(n) == n;
  }

  /** Normalisation works character by character, so it distributes over
      concatenation. */
  lemma {:induction false} NormalizeTitleAppend(a: string, b: string)
    ensures NormalizeTitle(a + b) == NormalizeTitle(a) + NormalizeTitle(b)
  {
    LowerAppend(a, b);
    KeepTitleCharsAppend(Lower(a), Lower(b));
  }

  lemma {:induction false} KeepTitleCharsAppend(a: string, b: string)
    ensures KeepTitleChars(a + b) == KeepTitleChars(a) + KeepTitleChars(b)
    decreases |a|
  {
    if |a| == 0 {
      assert a + b == b;
    } else {
      var head := if IsTitleChar(a[0]) then [a[0]] else "";
      assert (a + b)[0] == a[0];
      assert (a + b)[1..] == a[1..] + b;
      assert KeepTitleChars(a + b) == head + KeepTitleChars(a[1..] + b);
      KeepTitleCharsAppend(a[1..], b);
      assert KeepTitleChars(a) == head + KeepTitleChars(a[1..]);
    }
  }

  predicate IsAsciiAlphanumeric(c: char) {
    'a' <= c <= 'z' || 'A' <= c <= 'Z' || '0' <= c <= '9'
  }

  /** Punctuation and spaces vanish from a normalised title. */
  lemma {:induction false} NormalizeDropsPunctuation(s: string)
    requires forall i :: 0 <= i < |s| ==> !IsAsciiAlphanumeric(s[i])
    ensures NormalizeTitle(s) == ""
  {
    assert Lower(s) == s;
    KeepNoTitleChars(s);
  }

  lemma {:induction false} KeepNoTitleChars(s: string)
    requires forall i :: 0 <= i < |s| ==> !IsTitleChar(s[i])
    ensures KeepTitleChars(s) == ""
    decreases |s|
  {
    if |s| > 0 {
      KeepNoTitleChars(s[1..]);
    }
  }

  /** Letters and digits all survive normalisation, lower-cased. */
  lemma NormalizeKeepsAlphanumerics(s: string)
    requires forall i :: 0 <= i < |s| ==> IsAsciiAlphanumeric(s[i])
    ensures NormalizeTitle(s) == Lower(s)
  {
    assert IsTitleString(Lower(s));
  }

  /** The near-duplicate test of `getRecommendations`: one title contains the other and the lengths differ by less
      than three. */
  predicate NearDuplicate(a: string, b: string) {
    && (Includes(a, b) || Includes(b, a))
    && -NearDuplicateGap < |a| - |b| < NearDuplicateGap
  }

  lemma NearDuplicateSymmetricAndReflexive(a: string, b: string)
    ensures NearDuplicate(a, b) <==> NearDuplicate(b, a)
    ensures NearDuplicate(a, a)
  {
    assert OccursAt(a, a, 0);
  }

  /** `tooSimilar`: the loop over the accepted titles, stopping at the first
      near duplicate. */
  function TooSimilar(title: string, seen: seq<string>): (r: bool)
    ensures r <==> exists k :: 0 <= k < |seen| && NearDuplicate(title, seen[k])
  {
    if |seen| == 0 then false
    else
      assert forall k :: 1 <= k < |seen| ==> seen[k] == seen[1..][k - 1];
      NearDuplicate(title, seen[0]) || TooSimilar(title, seen[1..])
  }

  // ---------------------------------------------------------------------------
  // The diversity ledger
  // ---------------------------------------------------------------------------

  /** The `studioApprox` key `${year}_${primaryGenre}`. Since a decimal year has
      no `_`, two keys are equal exactly when both parts are. */
  datatype StudioKey = StudioKey(year: int, genre: string)

  /** The state of the greedy pass: `titlesSeen`, the three counter maps and the
      results so far. */
  datatype Ledger = Ledger(
    titlesSeen: seq<string>,
    genreCounts: map<string, nat>,
    settingCounts: map<string, nat>,
    studioCounts: map<StudioKey, nat>,
    results: seq<Scored>)

  const EmptyLedger: Ledger := Ledger([], map[], map[], map[], [])

  /** `counts[k] || 0`. */
  function Count<K>(m: map<K, nat>, k: K): nat {
    if k in m then m[k] else 0
  }

  /** `counts[k] = (counts[k] || 0) + 1`. */
  function Bump<K(!new)>(m: map<K, nat>, k: K): (r: map<K, nat>)
    ensures Count(r, k) == Count(m, k) + 1
    ensures forall j :: j != k ==> Count(r, j) == Count(m, j)
  {
    m[k := Count(m, k) + 1]
  }

  /** The `TypeError` thrown when a candidate that reaches the diversity tests
      has no genre list (the genre cap reads `genres[0]`) or no numerics (the
      studio key reads `numerics.year`). */
  datatype SelectError = GenresUndefined | NumericsUndefined

  /** `features.genres[0]` when it is truthy. */
  function PrimaryGenre(genres: seq<string>): Option<string> {
    if |genres| > 0 && genres[0] != "" then Some(genres[0]) else None
  }

  /** `${primaryGenre}` inside the studio key: `undefined` for an empty list. */
  function PrimaryGenreText(genres: seq<string>): string {
    if |genres| > 0 then genres[0] else "undefined"
  }

  /** `features.setting` when it is truthy. */
  function SettingOf(item: Item): Option<string> {
    if item.features.setting.Some? && item.features.setting.value != "" then item.features.setting else None
  }

  /** The candidate's primary genre, as far as the genre cap is concerned. */
  function PrimaryOf(item: Item): Option<string> {
    if item.features.genres.Some? then PrimaryGenre(item.features.genres.value) else None
  }

  /** The candidate's studio key, when it has one. */
  function StudioKeyOf(item: Item): Option<StudioKey> {
    if item.features.genres.Some? && item.numerics.Some? then
      Some(StudioKey(item.numerics.value.year, PrimaryGenreText(item.features.genres.value)))
    else None
  }

  /** The step kept `c`: its title and the entry itself were appended. */
  predicate Kept(l: Ledger, n: Ledger, c: Scored, title: string) {
    n.results == l.results + [c] && n.titlesSeen == l.titlesSeen + [title]
  }

  /** The step skipped `c`: results and titles are as before. */
  predicate Skipped(l: Ledger, n: Ledger) {
    n.results == l.results && n.titlesSeen == l.titlesSeen
  }

  /** One turn of the loop of `getRecommendations` over the sorted entries. A title already kept, or
      a near duplicate of one, is skipped before any counter is touched. */
  function Step(l: Ledger, c: Scored): (r: Result<Ledger, SelectError>)
    ensures r.Failure? ==> !WellFormed(c.item)
    ensures r.Success? ==> Kept(l, r.value, c, NormalizeTitle(c.item.baseTitle)) || Skipped(l, r.value)
  {
    var title := NormalizeTitle(c.item.baseTitle);
    if title in l.titlesSeen || TooSimilar(title, l.titlesSeen) then Success(l)
    else
      GenreGateFacts(l, c, title);
      GenreGate(l, c, title)
  }

  /** The genre cap: `features.genres[0]` (a `TypeError` when `genres` is
      missing); a truthy primary genre has its counter bumped, and the candidate
      is skipped once the counter passes the cap. */
  function GenreGate(l: Ledger, c: Scored, title: string): (r: Result<Ledger, SelectError>)
    ensures r.Failure? ==> c.item.features.genres.None? || c.item.numerics.None?
  {
    if c.item.features.genres.None? then Failure(GenresUndefined)
    else
      var primary := PrimaryOf(c.item);
      var next := if primary.Some? then l.(genreCounts := Bump(l.genreCounts, primary.value)) else l;
      if primary.Some? && Count(next.genreCounts, primary.value) > GenreCap then Success(next)
      else SettingGate(next, c, title)
  }

  /** The setting cap: the same for a truthy `features.setting`. */
  function SettingGate(l: Ledger, c: Scored, title: string): (r: Result<Ledger, SelectError>)
    requires c.item.features.genres.Some?
    ensures r.Failure? ==> c.item.numerics.None?
  {
    var setting := SettingOf(c.item);
    var next := if setting.Some? then l.(settingCounts := Bump(l.settingCounts, setting.value)) else l;
    if setting.Some? && Count(next.settingCounts, setting.value) > SettingCap then Success(next)
    else StudioGate(next, c, title)
  }

  /** The studio cap: `numerics.year` (a `TypeError` when `numerics` is missing)
      and the studio key, whose counter is always bumped; past the cap the
      candidate is skipped, otherwise its title and the candidate are kept. */
  function StudioGate(l: Ledger, c: Scored, title: string): (r: Result<Ledger, SelectError>)
    requires c.item.features.genres.Some?
    ensures r.Failure? <==> c.item.numerics.None?
  {
    if c.item.numerics.None? then Failure(NumericsUndefined)
    else
      var key := StudioKeyOf(c.item).value;
      var next := l.(studioCounts := Bump(l.studioCounts, key));
      if Count(next.studioCounts, key) > StudioCap then Success(next)
      else Success(next.(titlesSeen := next.titlesSeen + [title], results := next.results + [c]))
  }

  /** The studio test bumps only the studio counter and keeps the candidate
      exactly when that counter had room. */
  lemma StudioGateFacts(l: Ledger, c: Scored, title: string)
    requires c.item.features.genres.Some?
    ensures var r := StudioGate(l, c, title);
            r.Success? ==>
              && r.value.genreCounts == l.genreCounts
              && r.value.settingCounts == l.settingCounts
              && StudioKeyOf(c.item).Some?
              && Count(r.value.studioCounts, StudioKeyOf(c.item).value) == Count(l.studioCounts, StudioKeyOf(c.item).value) + 1
              && (forall k :: k != StudioKeyOf(c.item).value ==> Count(r.value.studioCounts, k) == Count(l.studioCounts, k))
              && (Kept(l, r.value, c, title) <==> Count(l.studioCounts, StudioKeyOf(c.item).value) < StudioCap)
              && (Kept(l, r.value, c, title) || Skipped(l, r.value))
  {
  }

  /** The setting test bumps the counter of a truthy setting, leaves the genre
      counters alone, and passes the candidate on exactly when the setting
      counter had room. */
  lemma SettingGateFacts(l: Ledger, c: Scored, title: string)
    requires c.item.features.genres.Some?
    ensures var r := SettingGate(l, c, title);
            var s := SettingOf(c.item);
            r.Success? ==>
              && r.value.genreCounts == l.genreCounts
              && (s.Some? ==> Count(r.value.settingCounts, s.value) == Count(l.settingCounts, s.value) + 1)
              && (forall t :: Some(t) != s ==> Count(r.value.settingCounts, t) == Count(l.settingCounts, t))
              && (forall k :: Count(l.studioCounts, k) <= Count(r.value.studioCounts, k))
              && (Kept(l, r.value, c, title) <==>
                    && (s.Some? ==> Count(l.settingCounts, s.value) < SettingCap)
                    && StudioKeyOf(c.item).Some?
                    && Count(l.studioCounts, StudioKeyOf(c.item).value) < StudioCap)
              && (Kept(l, r.value, c, title) ==>
                    Count(r.value.studioCounts, StudioKeyOf(c.item).value) == Count(l.studioCounts, StudioKeyOf(c.item).value) + 1)
              && (Kept(l, r.value, c, title) || Skipped(l, r.value))
  {
    var s := SettingOf(c.item);
    var next := if s.Some? then l.(settingCounts := Bump(l.settingCounts, s.value)) else l;
    StudioGateFacts(next, c, title);
  }

  /** The genre test, stated the same way. */
  lemma GenreGateFacts(l: Ledger, c: Scored, title: string)
    ensures var r := GenreGate(l, c, title);
            var p := PrimaryOf(c.item);
            var s := SettingOf(c.item);
            r.Success? ==>
              && (p.Some? ==> Count(r.value.genreCounts, p.value) == Count(l.genreCounts, p.value) + 1)
              && (forall g :: Some(g) != p ==> Count(r.value.genreCounts, g) == Count(l.genreCounts, g))
              && (forall t :: Count(l.settingCounts, t) <= Count(r.value.settingCounts, t))
              && (forall k :: Count(l.studioCounts, k) <= Count(r.value.studioCounts, k))
              && (Kept(l, r.value, c, title) <==>
                    && (p.Some? ==> Count(l.genreCounts, p.value) < GenreCap)
                    && (s.Some? ==> Count(l.settingCounts, s.value) < SettingCap)
                    && StudioKeyOf(c.item).Some?
                    && Count(l.studioCounts, StudioKeyOf(c.item).value) < StudioCap)
              && (Kept(l, r.value, c, title) ==>
                    && (s.Some? ==> Count(r.value.settingCounts, s.value) == Count(l.settingCounts, s.value) + 1)
                    && Count(r.value.studioCounts, StudioKeyOf(c.item).value) == Count(l.studioCounts, StudioKeyOf(c.item).value) + 1)
              && (Kept(l, r.value, c, title) || Skipped(l, r.value))
  {
    if c.item.features.genres.Some? {
      var p := PrimaryOf(c.item);
      var next := if p.Some? then l.(genreCounts := Bump(l.genreCounts, p.value)) else l;
      if !(p.Some? && Count(next.genreCounts, p.value) > GenreCap) {
        SettingGateFacts(next, c, title);
      }
    }
  }

  /** Which of the three tests a fresh, dissimilar, well-formed candidate
      passes, stated against the counters before the step: it is kept exactly
      when each cap still has room, and its genre counter is bumped whether or
      not it is kept in the end. */
  lemma StepDecision(l: Ledger, c: Scored)
    requires WellFormed(c.item)
    ensures var title := NormalizeTitle(c.item.baseTitle);
            (title in l.titlesSeen || TooSimilar(title, l.titlesSeen)) ==> Step(l, c) == Success(l)
    ensures var title := NormalizeTitle(c.item.baseTitle);
            var r := Step(l, c);
            !(title in l.titlesSeen || TooSimilar(title, l.titlesSeen)) ==>
              && r.Success?
              && (PrimaryOf(c.item).Some? ==>
                    Count(r.value.genreCounts, PrimaryOf(c.item).value) == Count(l.genreCounts, PrimaryOf(c.item).value) + 1)
              && (Kept(l, r.value, c, title) <==>
                    && (PrimaryOf(c.item).Some? ==> Count(l.genreCounts, PrimaryOf(c.item).value) < GenreCap)
                    && (SettingOf(c.item).Some? ==> Count(l.settingCounts, SettingOf(c.item).value) < SettingCap)
                    && Count(l.studioCounts, StudioKeyOf(c.item).value) < StudioCap)
              && (Kept(l, r.value, c, title) || Skipped(l, r.value))
  {
    GenreGateFacts(l, c, NormalizeTitle(c.item.baseTitle));
  }

  // ---------------------------------------------------------------------------
  // Tallies of the accepted results
  // ---------------------------------------------------------------------------

  function GenreTally(rs: seq<Scored>, g: string): nat {
    if |rs| == 0 then 0
    else GenreTally(rs[..|rs| - 1], g) + Scorer.Indicator(PrimaryOf(rs[|rs| - 1].item) == Some(g))
  }

  function SettingTally(rs: seq<Scored>, s: string): nat {
    if |rs| == 0 then 0
    else SettingTally(rs[..|rs| - 1], s) + Scorer.Indicator(SettingOf(rs[|rs| - 1].item) == Some(s))
  }

  function StudioTally(rs: seq<Scored>, k: StudioKey): nat {
    if |rs| == 0 then 0
    else StudioTally(rs[..|rs| - 1], k) + Scorer.Indicator(StudioKeyOf(rs[|rs| - 1].item) == Some(k))
  }

  /** `titles` holds the normalised titles of `rs`, in order. */
  ghost predicate TitlesMatch(titles: seq<string>, rs: seq<Scored>) {
    && |titles| == |rs|
    && (forall k :: 0 <= k < |rs| ==> titles[k] == NormalizeTitle(rs[k].item.baseTitle))
  }

  /** No title is a near duplicate of an earlier one. */
  predicate TitlesApart(titles: seq<string>) {
    forall i, j :: 0 <= i < j < |titles| ==> !NearDuplicate(titles[j], titles[i])
  }

  ghost predicate GenresWithin(rs: seq<Scored>, counts: map<string, nat>) {
    forall g :: GenreTally(rs, g) <= Count(counts, g) && GenreTally(rs, g) <= GenreCap
  }

  ghost predicate SettingsWithin(rs: seq<Scored>, counts: map<string, nat>) {
    forall s :: SettingTally(rs, s) <= Count(counts, s) && SettingTally(rs, s) <= SettingCap
  }

  ghost predicate StudiosWithin(rs: seq<Scored>, counts: map<StudioKey, nat>) {
    forall k :: StudioTally(rs, k) <= Count(counts, k) && StudioTally(rs, k) <= StudioCap
  }

  /** The invariant of the greedy pass: `titlesSeen` holds the normalised titles
      of the results in order, no two of which are near duplicates, and every
      counter is at least the number of results with its key, which is itself
      within the cap. */
  ghost predicate Consistent(l: Ledger) {
    && TitlesMatch(l.titlesSeen, l.results)
    && TitlesApart(l.titlesSeen)
    && GenresWithin(l.results, l.genreCounts)
    && SettingsWithin(l.results, l.settingCounts)
    && StudiosWithin(l.results, l.studioCounts)
  }

  lemma TalliesOfAppend(rs: seq<Scored>, c: Scored)
    ensures forall g :: GenreTally(rs + [c], g) == GenreTally(rs, g) + Scorer.Indicator(PrimaryOf(c.item) == Some(g))
    ensures forall s :: SettingTally(rs + [c], s) == SettingTally(rs, s) + Scorer.Indicator(SettingOf(c.item) == Some(s))
    ensures forall k :: StudioTally(rs + [c], k) == StudioTally(rs, k) + Scorer.Indicator(StudioKeyOf(c.item) == Some(k))
  {
    assert (rs + [c])[..|rs|] == rs;
  }

  /** A successful step never lowers a counter, and it either keeps `c` with
      every counter of `c` within its cap, or keeps nothing. */
  lemma StepOutcome(l: Ledger, c: Scored)
    requires Step(l, c).Success?
    ensures var n := Step(l, c).value;
            && (forall g :: Count(l.genreCounts, g) <= Count(n.genreCounts, g))
            && (forall s :: Count(l.settingCounts, s) <= Count(n.settingCounts, s))
            && (forall k :: Count(l.studioCounts, k) <= Count(n.studioCounts, k))
            && (Kept(l, n, c, NormalizeTitle(c.item.baseTitle)) || Skipped(l, n))
    ensures var n := Step(l, c).value;
            var title := NormalizeTitle(c.item.baseTitle);
            Kept(l, n, c, title) ==>
              && !TooSimilar(title, l.titlesSeen)
              && (PrimaryOf(c.item).Some? ==>
                    Count(n.genreCounts, PrimaryOf(c.item).value) == Count(l.genreCounts, PrimaryOf(c.item).value) + 1 <= GenreCap)
              && (SettingOf(c.item).Some? ==>
                    Count(n.settingCounts, SettingOf(c.item).value) == Count(l.settingCounts, SettingOf(c.item).value) + 1 <= SettingCap)
              && StudioKeyOf(c.item).Some?
              && Count(n.studioCounts, StudioKeyOf(c.item).value) == Count(l.studioCounts, StudioKeyOf(c.item).value) + 1 <= StudioCap
  {
    var title := NormalizeTitle(c.item.baseTitle);
    if !(title in l.titlesSeen || TooSimilar(title, l.titlesSeen)) {
      GenreGateFacts(l, c, title);
    }
  }

  lemma {:induction false} TitlesApartAppend(titles: seq<string>, title: string)
    requires TitlesApart(titles) && !TooSimilar(title, titles)
    ensures TitlesApart(titles + [title])
  {
    var n := titles + [title];
    forall i, j | 0 <= i < j < |n| ensures !NearDuplicate(n[j], n[i]) {
      if j == |titles| {
        assert n[j] == title && n[i] == titles[i];
      } else {
        assert n[j] == titles[j] && n[i] == titles[i];
      }
    }
  }

  lemma {:induction false} GenresWithinStep(l: Ledger, c: Scored)
    requires GenresWithin(l.results, l.genreCounts)
    requires Step(l, c).Success?
    ensures GenresWithin(Step(l, c).value.results, Step(l, c).value.genreCounts)
  {
    StepOutcome(l, c);
    TalliesOfAppend(l.results, c);
  }

  lemma {:induction false} SettingsWithinStep(l: Ledger, c: Scored)
    requires SettingsWithin(l.results, l.settingCounts)
    requires Step(l, c).Success?
    ensures SettingsWithin(Step(l, c).value.results, Step(l, c).value.settingCounts)
  {
    StepOutcome(l, c);
    TalliesOfAppend(l.results, c);
  }

  lemma {:induction false} StudiosWithinStep(l: Ledger, c: Scored)
    requires StudiosWithin(l.results, l.studioCounts)
    requires Step(l, c).Success?
    ensures StudiosWithin(Step(l, c).value.results, Step(l, c).value.studioCounts)
  {
    StepOutcome(l, c);
    TalliesOfAppend(l.results, c);
  }

  /** One step keeps the ledger consistent. */
  lemma {:induction false} StepKeepsConsistent(l: Ledger, c: Scored)
    requires Consistent(l)
    ensures Step(l, c).Success? ==> Consistent(Step(l, c).value)
  {
    if Step(l, c).Success? {
      StepOutcome(l, c);
      var title := NormalizeTitle(c.item.baseTitle);
      if Kept(l, Step(l, c).value, c, title) {
        TitlesApartAppend(l.titlesSeen, title);
        assert TitlesMatch(l.titlesSeen + [title], l.results + [c]);
      }
      GenresWithinStep(l, c);
      SettingsWithinStep(l, c);
      StudiosWithinStep(l, c);
    }
  }

  // ---------------------------------------------------------------------------
  // The greedy pass
  // ---------------------------------------------------------------------------

  /** `a` is `b` with some entries left out. */
  predicate IsSubsequence<T(==)>(a: seq<T>, b: seq<T>)
    decreases |b|
  {
    if |a| == 0 then true
    else if |b| == 0 then false
    else (a[0] == b[0] && IsSubsequence(a[1..], b[1..])) || IsSubsequence(a, b[1..])
  }

  lemma {:induction false} SubsequenceMembers<T>(a: seq<T>, b: seq<T>)
    requires IsSubsequence(a, b)
    ensures forall x :: x in a ==> x in b
    decreases |b|
  {
    if |a| > 0 {
      if a[0] == b[0] && IsSubsequence(a[1..], b[1..]) {
        SubsequenceMembers(a[1..], b[1..]);
        assert a == [a[0]] + a[1..];
      } else {
        SubsequenceMembers(a, b[1..]);
      }
    }
  }

  /** Leaving out entries keeps a sorted sequence sorted. */
  lemma {:induction false} SubsequenceKeepsSorted(a: seq<Scored>, b: seq<Scored>)
    requires IsSubsequence(a, b) && SortedDesc(b)
    ensures SortedDesc(a)
    decreases |b|
  {
    if |a| > 0 {
      if a[0] == b[0] && IsSubsequence(a[1..], b[1..]) {
        SubsequenceKeepsSorted(a[1..], b[1..]);
        SubsequenceMembers(a[1..], b[1..]);
        forall i, j | 0 <= i < j < |a| ensures Before(a[i], a[j]) {
          assert a[j] == a[1..][j - 1];
          if i > 0 {
            assert a[i] == a[1..][i - 1];
          } else {
            assert a[j] in a[1..];
            var k :| 0 <= k < |b[1..]| && b[1..][k] == a[j];
            assert b[k + 1] == a[j];
          }
        }
      } else {
        SubsequenceKeepsSorted(a, b[1..]);
      }
    }
  }

  /** Every entry can be dereferenced by the pass without a `TypeError`. */
  predicate AllWellFormed(s: seq<Scored>) {
    forall k :: 0 <= k < |s| ==> WellFormed(s[k].item)
  }

  /** The loop of `getRecommendations`, which stops as soon as `limit` results are kept. */
  function SelectFrom(sorted: seq<Scored>, limit: int, l: Ledger): (r: Result<Ledger, SelectError>)
    ensures AllWellFormed(sorted) ==> r.Success?
    ensures r.Success? ==> |l.results| <= |r.value.results|
    ensures r.Success? && |l.results| <= limit ==> |r.value.results| <= limit
    ensures |l.results| >= limit ==> r == Success(l)
    decreases |sorted|
  {
    if |sorted| == 0 || |l.results| >= limit then Success(l)
    else
      match Step(l, sorted[0])
      case Failure(e) => Failure(e)
      case Success(next) =>
        assert forall k :: 0 <= k < |sorted[1..]| ==> sorted[1..][k] == sorted[k + 1];
        SelectFrom(sorted[1..], limit, next)
  }

  /** The pass keeps the ledger consistent. */
  lemma {:induction false} SelectFromConsistent(sorted: seq<Scored>, limit: int, l: Ledger)
    requires Consistent(l)
    ensures SelectFrom(sorted, limit, l).Success? ==> Consistent(SelectFrom(sorted, limit, l).value)
    decreases |sorted|
  {
    if |sorted| > 0 && |l.results| < limit {
      StepKeepsConsistent(l, sorted[0]);
      if Step(l, sorted[0]).Success? {
        SelectFromConsistent(sorted[1..], limit, Step(l, sorted[0]).value);
      }
    }
  }

  lemma TailAfterPrefix<T>(out: seq<T>, pre: seq<T>, x: T)
    requires |pre| + 1 <= |out| && out[..|pre| + 1] == pre + [x]
    ensures out[|pre|..] == [x] + out[|pre| + 1..]
  {
    assert out[|pre|] == (pre + [x])[|pre|];
  }

  lemma SubsequenceSkip<T>(a: seq<T>, b: seq<T>)
    requires |b| > 0 && IsSubsequence(a, b[1..])
    ensures IsSubsequence(a, b)
  {
  }

  lemma SubsequenceTake<T>(a: seq<T>, b: seq<T>)
    requires |b| > 0 && IsSubsequence(a, b[1..])
    ensures IsSubsequence([b[0]] + a, b)
  {
    assert ([b[0]] + a)[1..] == a;
  }

  /** The pass only appends to the results. */
  lemma {:induction false} SelectFromPrefix(sorted: seq<Scored>, limit: int, l: Ledger)
    ensures var r := SelectFrom(sorted, limit, l);
            r.Success? ==> r.value.results[..|l.results|] == l.results
    decreases |sorted|
  {
    if |sorted| > 0 && |l.results| < limit && Step(l, sorted[0]).Success? {
      var next := Step(l, sorted[0]).value;
      SelectFromPrefix(sorted[1..], limit, next);
      var r := SelectFrom(sorted[1..], limit, next);
      if r.Success? {
        assert r.value.results[..|l.results|] == r.value.results[..|next.results|][..|l.results|];
      }
    }
  }

  /** What the pass appends is a subsequence of its input. */
  lemma {:induction false} SelectFromExtends(sorted: seq<Scored>, limit: int, l: Ledger)
    ensures var r := SelectFrom(sorted, limit, l);
            r.Success? ==> IsSubsequence(r.value.results[|l.results|..], sorted)
    decreases |sorted|
  {
    var r := SelectFrom(sorted, limit, l);
    if |sorted| == 0 || |l.results| >= limit {
      assert r.value.results[|l.results|..] == [];
    } else if Step(l, sorted[0]).Success? {
      var next := Step(l, sorted[0]).value;
      SelectFromExtends(sorted[1..], limit, next);
      SelectFromPrefix(sorted[1..], limit, next);
      assert r == SelectFrom(sorted[1..], limit, next);
      if r.Success? {
        var out := r.value.results;
        if next.results == l.results {
          SubsequenceSkip(out[|l.results|..], sorted);
        } else {
          assert next.results == l.results + [sorted[0]];
          TailAfterPrefix(out, l.results, sorted[0]);
          SubsequenceTake(out[|next.results|..], sorted);
        }
      }
    }
  }

  /** The title, genre, setting and studio tests of the loop, read against the ledger the candidate finds:
      its title is new and no near duplicate of a kept one, and each of its
      counters still has room. */
  predicate Admissible(l: Ledger, c: Scored) {
    var title := NormalizeTitle(c.item.baseTitle);
    && title !in l.titlesSeen
    && !TooSimilar(title, l.titlesSeen)
    && (PrimaryOf(c.item).Some? ==> Count(l.genreCounts, PrimaryOf(c.item).value) < GenreCap)
    && (SettingOf(c.item).Some? ==> Count(l.settingCounts, SettingOf(c.item).value) < SettingCap)
    && StudioKeyOf(c.item).Some?
    && Count(l.studioCounts, StudioKeyOf(c.item).value) < StudioCap
  }

  /** A well-formed candidate is kept exactly when it is admissible. */
  lemma StepKeepsAdmissible(l: Ledger, c: Scored)
    requires WellFormed(c.item)
    ensures Step(l, c).Success?
    ensures Kept(l, Step(l, c).value, c, NormalizeTitle(c.item.baseTitle)) <==> Admissible(l, c)
    ensures !Admissible(l, c) ==> Skipped(l, Step(l, c).value)
  {
    StepDecision(l, c);
  }

  /** Running the pass over `a + b` is running it over `a`, then over `b` from
      the ledger it reached. */
  lemma {:induction false} SelectFromAppend(a: seq<Scored>, b: seq<Scored>, limit: int, l: Ledger)
    ensures SelectFrom(a + b, limit, l) ==
              match SelectFrom(a, limit, l)
              case Failure(e) => Failure(e)
              case Success(m) => SelectFrom(b, limit, m)
    decreases |a|
  {
    if |a| == 0 {
      assert a + b == b;
    } else if |l.results| < limit {
      assert (a + b)[0] == a[0];
      assert (a + b)[1..] == a[1..] + b;
      if Step(l, a[0]).Success? {
        SelectFromAppend(a[1..], b, limit, Step(l, a[0]).value);
      }
    }
  }

  /** Every result of the pass was in the ledger already or comes from its input. */
  lemma PassMembers(sorted: seq<Scored>, limit: int, l: Ledger)
    ensures var r := SelectFrom(sorted, limit, l);
            r.Success? ==> forall x :: x in r.value.results ==> x in l.results || x in sorted
  {
    var r := SelectFrom(sorted, limit, l);
    if r.Success? {
      var out := r.value.results;
      SelectFromPrefix(sorted, limit, l);
      SelectFromExtends(sorted, limit, l);
      SubsequenceMembers(out[|l.results|..], sorted);
      MembersOfExtension(out, l.results, sorted);
    }
  }

  /** Every element of a sequence that extends `p` with elements of `q` is in
      `p` or in `q`. */
  lemma MembersOfExtension<T>(out: seq<T>, p: seq<T>, q: seq<T>)
    requires |p| <= |out| && out[..|p|] == p
    requires forall x :: x in out[|p|..] ==> x in q
    ensures forall x :: x in out ==> x in p || x in q
  {
    forall x | x in out ensures x in p || x in q {
      var k :| 0 <= k < |out| && out[k] == x;
      if k < |p| {
        assert out[..|p|][k] == x;
      } else {
        assert out[|p|..][k - |p|] == x;
      }
    }
  }

  /** The pass never passes over an entry it could keep: an entry that meets
      every test against the ledger it finds, while fewer than `limit` entries
      are kept, is among the results. */
  lemma AdmissibleEntryIsKept(sorted: seq<Scored>, limit: int, l: Ledger, i: nat)
    requires AllWellFormed(sorted) && i < |sorted|
    requires var before := SelectFrom(sorted[..i], limit, l);
             before.Success? && |before.value.results| < limit && Admissible(before.value, sorted[i])
    ensures SelectFrom(sorted, limit, l).Success?
    ensures sorted[i] in SelectFrom(sorted, limit, l).value.results
  {
    var before := SelectFrom(sorted[..i], limit, l).value;
    SplitAt(sorted, i);
    SelectFromAppend(sorted[..i], sorted[i..], limit, l);
    AdmissibleHeadIsKept(sorted[i..], limit, before);
  }

  /** The admissible head of a run is kept when there is room for it. */
  lemma AdmissibleHeadIsKept(rest: seq<Scored>, limit: int, before: Ledger)
    requires AllWellFormed(rest) && |rest| > 0
    requires |before.results| < limit && Admissible(before, rest[0])
    ensures SelectFrom(rest, limit, before).Success?
    ensures rest[0] in SelectFrom(rest, limit, before).value.results
  {
    StepKeepsAdmissible(before, rest[0]);
    var next := Step(before, rest[0]).value;
    assert SelectFrom(rest, limit, before) == SelectFrom(rest[1..], limit, next);
    SelectFromPrefix(rest[1..], limit, next);
    LastOfPrefixIsMember(SelectFrom(rest[1..], limit, next).value.results, next.results);
  }

  /** The last element of a prefix of `s` is an element of `s`. */
  lemma LastOfPrefixIsMember<T>(s: seq<T>, p: seq<T>)
    requires 0 < |p| <= |s| && s[..|p|] == p
    ensures p[|p| - 1] in s
  {
    assert s[|p| - 1] == p[|p| - 1];
  }

  /** No entry of a strictly ordered run equals another one. */
  lemma SortedEntriesDistinct(sorted: seq<Scored>, i: nat)
    requires SortedDesc(sorted) && i < |sorted|
    ensures sorted[i] !in sorted[..i] && sorted[i] !in sorted[i + 1..]
  {
    forall k | 0 <= k < i ensures sorted[..i][k] != sorted[i] {
      assert Before(sorted[k], sorted[i]);
    }
    var tail := sorted[i + 1..];
    forall k | 0 <= k < |tail| ensures tail[k] != sorted[i] {
      assert Before(sorted[i], sorted[i + 1 + k]);
    }
  }

  /** Which entries the pass keeps: an entry of a strictly ordered run is among
      the results exactly when, at its turn, fewer than `limit` entries were
      kept and it met every test against the ledger it found. */
  lemma KeptIffAdmissible(sorted: seq<Scored>, limit: int, l: Ledger, i: nat)
    requires AllWellFormed(sorted) && SortedDesc(sorted) && i < |sorted|
    requires sorted[i] !in l.results
    ensures SelectFrom(sorted[..i], limit, l).Success? && SelectFrom(sorted, limit, l).Success?
    ensures var before := SelectFrom(sorted[..i], limit, l).value;
            sorted[i] in SelectFrom(sorted, limit, l).value.results <==>
              (|before.results| < limit && Admissible(before, sorted[i]))
  {
    var front := sorted[..i];
    var rest := sorted[i..];
    assert AllWellFormed(front) && AllWellFormed(rest[1..]);
    var before := SelectFrom(front, limit, l).value;
    if |before.results| < limit && Admissible(before, sorted[i]) {
      AdmissibleEntryIsKept(sorted, limit, l, i);
    } else {
      assert sorted == front + rest;
      SelectFromAppend(front, rest, limit, l);
      SortedEntriesDistinct(sorted, i);
      PassMembers(front, limit, l);
      assert sorted[i] !in before.results;
      if |before.results| < limit {
        StepKeepsAdmissible(before, sorted[i]);
        var next := Step(before, sorted[i]).value;
        assert rest[0] == sorted[i] && rest[1..] == sorted[i + 1..];
        assert SelectFrom(rest, limit, before) == SelectFrom(rest[1..], limit, next);
        PassMembers(rest[1..], limit, next);
      } else {
        assert SelectFrom(rest, limit, before) == Success(before);
      }
    }
  }

  // ---------------------------------------------------------------------------
  // Entries that no test holds back
  // ---------------------------------------------------------------------------

  /** Neither title is a near duplicate of the other, and the two entries share
      no primary genre and no (year, primary genre) key. */
  predicate KeysApart(a: Item, b: Item) {
    && !NearDuplicate(NormalizeTitle(a.baseTitle), NormalizeTitle(b.baseTitle))
    && (PrimaryOf(a).Some? ==> PrimaryOf(a) != PrimaryOf(b))
    && StudioKeyOf(a) != StudioKeyOf(b)
  }

  /** Two entries that no test can hold against each other. */
  predicate Apart(a: Item, b: Item) {
    && KeysApart(a, b)
    && (SettingOf(a).Some? ==> SettingOf(a) != SettingOf(b))
  }

  ghost predicate KeysApartPairwise(s: seq<Scored>) {
    forall i, j :: 0 <= i < j < |s| ==> KeysApart(s[i].item, s[j].item)
  }

  /** Each entry's setting has room among the entries before it. */
  ghost predicate SettingsFit(s: seq<Scored>) {
    forall j :: 0 <= j < |s| ==>
      SettingOf(s[j].item).Some? ==> SettingTally(s[..j], SettingOf(s[j].item).value) < SettingCap
  }

  /** Every counter equals the number of results with its key: no candidate
      was skipped after its counters were bumped. */
  ghost predicate Exact(l: Ledger) {
    && TitlesMatch(l.titlesSeen, l.results)
    && (forall g :: Count(l.genreCounts, g) == GenreTally(l.results, g))
    && (forall t :: Count(l.settingCounts, t) == SettingTally(l.results, t))
    && (forall k :: Count(l.studioCounts, k) == StudioTally(l.results, k))
  }

  lemma EmptyLedgerExact()
    ensures Exact(EmptyLedger)
  {
    assert forall g :: GenreTally([], g) == 0;
    assert forall t :: SettingTally([], t) == 0;
    assert forall k :: StudioTally([], k) == 0;
  }

  /** `Bump` when the key is present. */
  function BumpIf<K(!new)>(m: map<K, nat>, k: Option<K>): map<K, nat> {
    if k.Some? then Bump(m, k.value) else m
  }

  /** An admissible well-formed candidate is kept, and exactly its three
      counters go up by one. */
  lemma AdmittedLedger(l: Ledger, c: Scored)
    requires WellFormed(c.item) && Admissible(l, c)
    ensures Step(l, c) == Success(Ledger(
              l.titlesSeen + [NormalizeTitle(c.item.baseTitle)],
              BumpIf(l.genreCounts, PrimaryOf(c.item)),
              BumpIf(l.settingCounts, SettingOf(c.item)),
              Bump(l.studioCounts, StudioKeyOf(c.item).value),
              l.results + [c]))
  {
  }

  lemma {:induction false} TalliesOfKeysApart(rs: seq<Scored>, item: Item)
    requires forall k :: 0 <= k < |rs| ==> KeysApart(rs[k].item, item)
    ensures PrimaryOf(item).Some? ==> GenreTally(rs, PrimaryOf(item).value) == 0
    ensures StudioKeyOf(item).Some? ==> StudioTally(rs, StudioKeyOf(item).value) == 0
    decreases |rs|
  {
    if |rs| > 0 {
      TalliesOfKeysApart(rs[..|rs| - 1], item);
    }
  }

  /** A candidate whose keys no result shares, and whose setting has room, is
      admissible against an exact ledger. */
  lemma FreshIsAdmissible(l: Ledger, c: Scored)
    requires Exact(l) && WellFormed(c.item)
    requires forall k :: 0 <= k < |l.results| ==> KeysApart(l.results[k].item, c.item)
    requires SettingOf(c.item).Some? ==> SettingTally(l.results, SettingOf(c.item).value) < SettingCap
    ensures Admissible(l, c)
  {
    var title := NormalizeTitle(c.item.baseTitle);
    forall k | 0 <= k < |l.titlesSeen| ensures !NearDuplicate(title, l.titlesSeen[k]) && l.titlesSeen[k] != title {
      NearDuplicateSymmetricAndReflexive(title, l.titlesSeen[k]);
      NearDuplicateSymmetricAndReflexive(title, title);
    }
    TalliesOfKeysApart(l.results, c.item);
  }

  /** Keeping an admissible candidate leaves an exact ledger exact. */
  lemma AdmitKeepsExact(l: Ledger, c: Scored)
    requires Exact(l) && WellFormed(c.item) && Admissible(l, c)
    ensures Step(l, c).Success? && Step(l, c).value.results == l.results + [c]
    ensures Exact(Step(l, c).value)
  {
    AdmittedLedger(l, c);
    var n := Step(l, c).value;
    GenreCountsStayExact(l.genreCounts, l.results, c);
    SettingCountsStayExact(l.settingCounts, l.results, c);
    StudioCountsStayExact(l.studioCounts, l.results, c);
    assert TitlesMatch(n.titlesSeen, n.results) by {
      assert n.titlesSeen == l.titlesSeen + [NormalizeTitle(c.item.baseTitle)];
    }
  }

  lemma GenreCountsStayExact(m: map<string, nat>, rs: seq<Scored>, c: Scored)
    requires forall g :: Count(m, g) == GenreTally(rs, g)
    ensures forall g :: Count(BumpIf(m, PrimaryOf(c.item)), g) == GenreTally(rs + [c], g)
  {
    TalliesOfAppend(rs, c);
  }

  lemma SettingCountsStayExact(m: map<string, nat>, rs: seq<Scored>, c: Scored)
    requires forall t :: Count(m, t) == SettingTally(rs, t)
    ensures forall t :: Count(BumpIf(m, SettingOf(c.item)), t) == SettingTally(rs + [c], t)
  {
    TalliesOfAppend(rs, c);
  }

  lemma StudioCountsStayExact(m: map<StudioKey, nat>, rs: seq<Scored>, c: Scored)
    requires StudioKeyOf(c.item).Some?
    requires forall k :: Count(m, k) == StudioTally(rs, k)
    ensures forall k :: Count(Bump(m, StudioKeyOf(c.item).value), k) == StudioTally(rs + [c], k)
  {
    TalliesOfAppend(rs, c);
  }

  lemma SplitAt<T>(s: seq<T>, m: nat)
    requires m <= |s|
    ensures s == s[..m] + s[m..]
  {
  }

  /** One step over a run of fitting entries, the first `j` of them kept: the
      next one is kept too, and the ledger stays exact. */
  lemma FittingStep(all: seq<Scored>, limit: int, l: Ledger, j: nat)
    requires AllWellFormed(all) && KeysApartPairwise(all) && SettingsFit(all)
    requires j < |all| && j < limit && l.results == all[..j] && Exact(l)
    ensures Step(l, all[j]).Success?
    ensures var next := Step(l, all[j]).value;
            && next.results == all[..j + 1]
            && Exact(next)
            && SelectFrom(all[j..], limit, l) == SelectFrom(all[j + 1..], limit, next)
  {
    var c := all[j];
    PrefixKeysApart(all, j);
    FreshIsAdmissible(l, c);
    AdmitKeepsExact(l, c);
    StepAt(all, j);
  }

  /** Slicing one step further into a sequence. */
  lemma StepAt<T>(s: seq<T>, j: nat)
    requires j < |s|
    ensures s[..j] + [s[j]] == s[..j + 1]
    ensures s[j..][0] == s[j] && s[j..][1..] == s[j + 1..]
  {
  }

  /** In a run whose keys are pairwise apart, each entry is apart from every
      entry before it. */
  lemma PrefixKeysApart(all: seq<Scored>, j: nat)
    requires KeysApartPairwise(all) && j < |all|
    ensures forall k :: 0 <= k < |all[..j]| ==> KeysApart(all[..j][k].item, all[j].item)
  {
    forall k | 0 <= k < |all[..j]| ensures KeysApart(all[..j][k].item, all[j].item) {
      assert all[..j][k] == all[k];
    }
  }

  /** The pass keeps every entry of a run in which no two entries share a key
      and no setting runs out of room, until `limit` entries are kept: started
      after the first `j` entries were kept, it ends with the first `limit`
      (or all of them). */
  lemma {:induction false} FittingEntriesAllKept(all: seq<Scored>, limit: int, l: Ledger, j: nat)
    requires AllWellFormed(all) && KeysApartPairwise(all) && SettingsFit(all)
    requires j <= |all| && l.results == all[..j] && Exact(l)
    ensures SelectFrom(all[j..], limit, l).Success?
    ensures Exact(SelectFrom(all[j..], limit, l).value)
    ensures SelectFrom(all[j..], limit, l).value.results ==
              all[..if limit <= j then j else if limit < |all| then limit else |all|]
    decreases |all| - j
  {
    if j < |all| && j < limit {
      FittingStep(all, limit, l, j);
      FittingEntriesAllKept(all, limit, Step(l, all[j]).value, j + 1);
    }
  }

  // ---------------------------------------------------------------------------
  // The whole operation
  // ---------------------------------------------------------------------------

  /** The loaded index; `anime` is `undefined` when the file lacks the list. */
  datatype Database = Database(anime: Option<seq<Item>>)

  /** The catalog the recommender works on; empty when the database or its
      `anime` list is missing. */
  function CatalogOf(db: Option<Database>): seq<Item> {
    if db.Some? && db.value.anime.Some? then db.value.anime.value else []
  }

  /** The entries the pass can dereference without a `TypeError`. */
  predicate WellFormed(item: Item) {
    item.features.genres.Some? && item.numerics.Some?
  }

  /** The scored catalog after the stable sort. */
  function SortedCatalog(prefs: Preferences, catalog: seq<Item>, parse: JsonParser): (r: seq<Scored>)
    ensures SortedDesc(r)
    ensures forall y :: y in r <==> y in ScoreCatalog(prefs, catalog, parse)
    ensures |r| == |catalog|
  {
    var scored := ScoreCatalog(prefs, catalog, parse);
    var r := Sort(scored);
    assert |r| == |multiset(r)| == |multiset(scored)| == |scored|;
    r
  }

  /** `Array.prototype.slice(0, end)`. */
  function SliceTo<T>(xs: seq<T>, end: int): (r: seq<T>)
    ensures 0 <= end ==> r == xs[..if end < |xs| then end else |xs|]
    ensures end < 0 ==> r == xs[..if |xs| + end < 0 then 0 else |xs| + end]
  {
    if end >= |xs| then xs
    else if end >= 0 then xs[..end]
    else if |xs| + end < 0 then []
    else xs[..|xs| + end]
  }

  /** No two results are near duplicates of one another (identical normalised
      titles included). */
  predicate NoNearDuplicates(rs: seq<Scored>) {
    forall i, j :: 0 <= i < j < |rs| ==>
      !NearDuplicate(NormalizeTitle(rs[j].item.baseTitle), NormalizeTitle(rs[i].item.baseTitle))
  }

  /** At most two results share a primary genre, at most two a setting, and
      at most one a (year, primary genre) pair. */
  ghost predicate WithinCaps(rs: seq<Scored>) {
    && (forall g :: GenreTally(rs, g) <= GenreCap)
    && (forall s :: SettingTally(rs, s) <= SettingCap)
    && (forall k :: StudioTally(rs, k) <= StudioCap)
  }

  /** Every entry of the scored catalog comes from the catalog position it
      records and carries that entry's similarity score. */
  predicate FromCatalog(rs: seq<Scored>, prefs: Preferences, catalog: seq<Item>, parse: JsonParser) {
    forall k :: 0 <= k < |rs| ==>
      && rs[k].pos < |catalog|
      && rs[k].item == catalog[rs[k].pos]
      && rs[k].score == Scorer.ComputeSimilarity(prefs, rs[k].item, parse)
  }

  lemma SortedCatalogFacts(prefs: Preferences, catalog: seq<Item>, parse: JsonParser)
    ensures FromCatalog(SortedCatalog(prefs, catalog, parse), prefs, catalog, parse)
    ensures (forall i :: 0 <= i < |catalog| ==> WellFormed(catalog[i])) ==>
              AllWellFormed(SortedCatalog(prefs, catalog, parse))
  {
    var sorted := SortedCatalog(prefs, catalog, parse);
    var scored := ScoreCatalog(prefs, catalog, parse);
    forall k | 0 <= k < |sorted|
      ensures sorted[k].pos < |catalog| && sorted[k].item == catalog[sorted[k].pos]
      ensures sorted[k].score == Scorer.ComputeSimilarity(prefs, sorted[k].item, parse)
    {
      var y := sorted[k];
      assert y in scored;
      var i :| 0 <= i < |scored| && scored[i] == y;
    }
  }

  /** A subsequence of entries from the catalog is itself from the catalog. */
  lemma FromCatalogSubsequence(a: seq<Scored>, b: seq<Scored>, prefs: Preferences, catalog: seq<Item>, parse: JsonParser)
    requires IsSubsequence(a, b) && FromCatalog(b, prefs, catalog, parse)
    ensures FromCatalog(a, prefs, catalog, parse)
  {
    SubsequenceMembers(a, b);
    forall k | 0 <= k < |a| ensures a[k].pos < |catalog| && a[k].item == catalog[a[k].pos] {
      assert a[k] in b;
    }
  }

  /** A consistent ledger's results are pairwise dissimilar and within the caps. */
  lemma ConsistentResultsAreDiverse(l: Ledger)
    requires Consistent(l)
    ensures NoNearDuplicates(l.results)
    ensures WithinCaps(l.results)
  {
    forall i, j | 0 <= i < j < |l.results|
      ensures !NearDuplicate(NormalizeTitle(l.results[j].item.baseTitle), NormalizeTitle(l.results[i].item.baseTitle))
    {
      assert l.titlesSeen[j] == NormalizeTitle(l.results[j].item.baseTitle);
      assert l.titlesSeen[i] == NormalizeTitle(l.results[i].item.baseTitle);
    }
  }

  lemma EmptyLedgerConsistent()
    ensures Consistent(EmptyLedger)
  {
    assert forall g :: GenreTally([], g) == 0;
    assert forall s :: SettingTally([], s) == 0;
    assert forall k :: StudioTally([], k) == 0;
  }

  /** What the pass from an empty ledger keeps over a sorted catalog. */
  lemma PassResults(prefs: Preferences, catalog: seq<Item>, limit: int, parse: JsonParser)
    ensures var sorted := SortedCatalog(prefs, catalog, parse);
            var r := SelectFrom(sorted, limit, EmptyLedger);
            r.Success? ==>
              && |r.value.results| <= (if limit < 0 then 0 else limit)
              && SliceTo(r.value.results, limit) == r.value.results
              && IsSubsequence(r.value.results, sorted)
              && SortedDesc(r.value.results)
              && FromCatalog(r.value.results, prefs, catalog, parse)
              && NoNearDuplicates(r.value.results)
              && WithinCaps(r.value.results)
  {
    var sorted := SortedCatalog(prefs, catalog, parse);
    var r := SelectFrom(sorted, limit, EmptyLedger);
    if r.Success? {
      var out := r.value.results;
      EmptyLedgerConsistent();
      SelectFromConsistent(sorted, limit, EmptyLedger);
      SelectFromPrefix(sorted, limit, EmptyLedger);
      SelectFromExtends(sorted, limit, EmptyLedger);
      assert out[0..] == out;
      SubsequenceKeepsSorted(out, sorted);
      SortedCatalogFacts(prefs, catalog, parse);
      FromCatalogSubsequence(out, sorted, prefs, catalog, parse);
      ConsistentResultsAreDiverse(r.value);
    }
  }

  /** `getRecommendations`: an empty list without a database, otherwise at most
      `limit` entries of the catalog, best first, no two near duplicates, and
      within every diversity cap; a `TypeError` only when some entry lacks its
      genre list or its numbers. */
  function GetRecommendations(prefs: Preferences, db: Option<Database>, limit: int, parse: JsonParser)
    : (r: Result<seq<Scored>, SelectError>)
    ensures db.None? || db.value.anime.None? ==> r == Success([])
    ensures (forall i :: 0 <= i < |CatalogOf(db)| ==> WellFormed(CatalogOf(db)[i])) ==> r.Success?
    ensures r.Success? ==> |r.value| <= (if limit < 0 then 0 else limit)
    ensures r.Success? ==> IsSubsequence(r.value, SortedCatalog(prefs, CatalogOf(db), parse))
    ensures r.Success? ==> SortedDesc(r.value)
    ensures r.Success? ==> FromCatalog(r.value, prefs, CatalogOf(db), parse)
    ensures r.Success? ==> NoNearDuplicates(r.value)
    ensures r.Success? ==> WithinCaps(r.value)
  {
    if db.None? || db.value.anime.None? then Success([])
    else
      var catalog := db.value.anime.value;
      assert CatalogOf(db) == catalog;
      var sorted := SortedCatalog(prefs, catalog, parse);
      SortedCatalogFacts(prefs, catalog, parse);
      PassResults(prefs, catalog, limit, parse);
      match SelectFrom(sorted, limit, EmptyLedger)
      case Failure(e) => Failure(e)
      case Success(final) => Success(SliceTo(final.results, limit))
  }

  // ---------------------------------------------------------------------------
  // What the operation keeps
  // ---------------------------------------------------------------------------

  /** Position `i` of the sorted catalog holds a distinct catalog entry for
      each `i`: equal positions would mean equal entries and equal scores. */
  lemma SortedPositionsDistinct(prefs: Preferences, catalog: seq<Item>, parse: JsonParser)
    ensures var sorted := SortedCatalog(prefs, catalog, parse);
            forall i, j :: 0 <= i < j < |sorted| ==> sorted[i].pos != sorted[j].pos
  {
    var sorted := SortedCatalog(prefs, catalog, parse);
    SortedCatalogFacts(prefs, catalog, parse);
    forall i, j | 0 <= i < j < |sorted| ensures sorted[i].pos != sorted[j].pos {
      assert Before(sorted[i], sorted[j]);
    }
  }

  /** Pairwise facts about catalog entries carry over to the sorted catalog. */
  lemma SortedCatalogKeysApart(prefs: Preferences, catalog: seq<Item>, parse: JsonParser)
    requires forall i, j :: 0 <= i < |catalog| && 0 <= j < |catalog| && i != j ==> KeysApart(catalog[i], catalog[j])
    ensures KeysApartPairwise(SortedCatalog(prefs, catalog, parse))
  {
    var sorted := SortedCatalog(prefs, catalog, parse);
    SortedCatalogFacts(prefs, catalog, parse);
    SortedPositionsDistinct(prefs, catalog, parse);
    forall i, j | 0 <= i < j < |sorted| ensures KeysApart(sorted[i].item, sorted[j].item) {
      assert sorted[i].item == catalog[sorted[i].pos] && sorted[j].item == catalog[sorted[j].pos];
    }
  }

  lemma {:induction false} SettingTallyOfApart(rs: seq<Scored>, item: Item)
    requires forall k :: 0 <= k < |rs| ==> Apart(rs[k].item, item)
    ensures SettingOf(item).Some? ==> SettingTally(rs, SettingOf(item).value) == 0
    decreases |rs|
  {
    if |rs| > 0 {
      SettingTallyOfApart(rs[..|rs| - 1], item);
    }
  }

  lemma {:induction false} SettingTallyAtMost(rs: seq<Scored>, t: string)
    ensures SettingTally(rs, t) <= |rs|
    ensures (forall k :: 0 <= k < |rs| ==> SettingOf(rs[k].item) == Some(t)) ==> SettingTally(rs, t) == |rs|
    decreases |rs|
  {
    if |rs| > 0 {
      SettingTallyAtMost(rs[..|rs| - 1], t);
    }
  }

  /** In a catalog of pairwise apart entries no setting ever runs out of room. */
  lemma SortedCatalogSettingsFit(prefs: Preferences, catalog: seq<Item>, parse: JsonParser)
    requires forall i, j :: 0 <= i < |catalog| && 0 <= j < |catalog| && i != j ==> Apart(catalog[i], catalog[j])
    ensures SettingsFit(SortedCatalog(prefs, catalog, parse))
  {
    var sorted := SortedCatalog(prefs, catalog, parse);
    SortedCatalogFacts(prefs, catalog, parse);
    SortedPositionsDistinct(prefs, catalog, parse);
    forall j | 0 <= j < |sorted|
      ensures SettingOf(sorted[j].item).Some? ==> SettingTally(sorted[..j], SettingOf(sorted[j].item).value) < SettingCap
    {
      forall k | 0 <= k < j ensures Apart(sorted[..j][k].item, sorted[j].item) {
        assert sorted[..j][k] == sorted[k];
        assert sorted[k].item == catalog[sorted[k].pos] && sorted[j].item == catalog[sorted[j].pos];
      }
      SettingTallyOfApart(sorted[..j], sorted[j].item);
    }
  }

  /** The pass over the whole catalog from an empty ledger, seen from the
      operation. */
  lemma OperationIsPass(prefs: Preferences, catalog: seq<Item>, limit: int, parse: JsonParser)
    requires forall i :: 0 <= i < |catalog| ==> WellFormed(catalog[i])
    ensures AllWellFormed(SortedCatalog(prefs, catalog, parse))
    ensures SelectFrom(SortedCatalog(prefs, catalog, parse), limit, EmptyLedger).Success?
    ensures GetRecommendations(prefs, Some(Database(Some(catalog))), limit, parse) ==
              Success(SelectFrom(SortedCatalog(prefs, catalog, parse), limit, EmptyLedger).value.results)
  {
    SortedCatalogFacts(prefs, catalog, parse);
    PassResults(prefs, catalog, limit, parse);
  }

  /** Which entries are recommended: the `i`-th best entry is among the results
      exactly when, at its turn, fewer than `limit` entries were kept and it met
      every test against what was kept before it. An entry missing from the
      result either came after the quota was met or failed a test. */
  lemma RecommendedIffAdmissible(prefs: Preferences, catalog: seq<Item>, limit: int, parse: JsonParser, i: nat)
    requires forall k :: 0 <= k < |catalog| ==> WellFormed(catalog[k])
    requires i < |catalog|
    ensures var sorted := SortedCatalog(prefs, catalog, parse);
            var r := GetRecommendations(prefs, Some(Database(Some(catalog))), limit, parse);
            && SelectFrom(sorted[..i], limit, EmptyLedger).Success?
            && r.Success?
            && (sorted[i] in r.value <==>
                  var before := SelectFrom(sorted[..i], limit, EmptyLedger).value;
                  |before.results| < limit && Admissible(before, sorted[i]))
  {
    OperationIsPass(prefs, catalog, limit, parse);
    KeptIffAdmissible(SortedCatalog(prefs, catalog, parse), limit, EmptyLedger, i);
  }

  /** A catalog whose entries are pairwise apart (no near-duplicate titles, no
      shared primary genre, setting or year-and-genre key) fills the quota:
      the result is the best `limit` entries, or all of them when there are
      fewer. */
  lemma ApartCatalogFillsLimit(prefs: Preferences, catalog: seq<Item>, limit: int, parse: JsonParser)
    requires forall i :: 0 <= i < |catalog| ==> WellFormed(catalog[i])
    requires forall i, j :: 0 <= i < |catalog| && 0 <= j < |catalog| && i != j ==> Apart(catalog[i], catalog[j])
    ensures var n := if limit <= 0 then 0 else if limit < |catalog| then limit else |catalog|;
            var r := GetRecommendations(prefs, Some(Database(Some(catalog))), limit, parse);
            && r == Success(SortedCatalog(prefs, catalog, parse)[..n])
            && |r.value| == n
  {
    var sorted := SortedCatalog(prefs, catalog, parse);
    OperationIsPass(prefs, catalog, limit, parse);
    SortedCatalogKeysApart(prefs, catalog, parse);
    SortedCatalogSettingsFit(prefs, catalog, parse);
    EmptyLedgerExact();
    assert sorted[0..] == sorted && sorted[..0] == [];
    FittingEntriesAllKept(sorted, limit, EmptyLedger, 0);
  }

  /** Once a setting's counter is full, the pass skips every further entry of
      that setting. */
  lemma {:induction false} FullSettingSkips(s: seq<Scored>, limit: int, l: Ledger, t: string)
    requires AllWellFormed(s)
    requires forall k :: 0 <= k < |s| ==> SettingOf(s[k].item) == Some(t)
    requires Count(l.settingCounts, t) >= SettingCap
    ensures SelectFrom(s, limit, l).Success?
    ensures SelectFrom(s, limit, l).value.results == l.results
    decreases |s|
  {
    if |s| > 0 && |l.results| < limit {
      StepKeepsAdmissible(l, s[0]);
      StepOutcome(l, s[0]);
      var next := Step(l, s[0]).value;
      assert AllWellFormed(s[1..]) by {
        forall k | 0 <= k < |s[1..]| ensures WellFormed(s[1..][k].item) {
          assert s[1..][k] == s[k + 1];
        }
      }
      FullSettingSkips(s[1..], limit, next, t);
    }
  }

  /** The pass over entries that share one setting and no other key keeps the
      first two (fewer when the quota or the run is smaller). */
  lemma SharedSettingPass(sorted: seq<Scored>, limit: int, t: string)
    requires AllWellFormed(sorted)
    requires forall k :: 0 <= k < |sorted| ==> SettingOf(sorted[k].item) == Some(t)
    requires |sorted| >= 2 ==> KeysApart(sorted[0].item, sorted[1].item)
    ensures var m := if |sorted| < SettingCap then |sorted| else SettingCap;
            var n := if limit <= 0 then 0 else if limit < m then limit else m;
            && SelectFrom(sorted, limit, EmptyLedger).Success?
            && SelectFrom(sorted, limit, EmptyLedger).value.results == sorted[..n]
  {
    var m := if |sorted| < SettingCap then |sorted| else SettingCap;
    var n := if limit <= 0 then 0 else if limit < m then limit else m;
    SharedSettingFront(sorted, m, t);
    SharedSettingFrontKept(sorted[..m], limit, t);
    var kept := SelectFrom(sorted[..m], limit, EmptyLedger).value;
    assert kept.results == sorted[..n] by {
      assert sorted[..m][..n] == sorted[..n];
    }
    assert SelectFrom(sorted, limit, EmptyLedger) == SelectFrom(sorted[m..], limit, kept) by {
      SplitAt(sorted, m);
      SelectFromAppend(sorted[..m], sorted[m..], limit, EmptyLedger);
    }
    SharedSettingRest(sorted, m, limit, kept, t);
  }

  /** A run of at most two entries of one setting, no two sharing another key,
      is kept whole, up to the quota. */
  lemma SharedSettingFrontKept(front: seq<Scored>, limit: int, t: string)
    requires |front| <= SettingCap
    requires AllWellFormed(front) && KeysApartPairwise(front)
    requires forall k :: 0 <= k < |front| ==> SettingOf(front[k].item) == Some(t)
    ensures var n := if limit <= 0 then 0 else if limit < |front| then limit else |front|;
            var kept := SelectFrom(front, limit, EmptyLedger);
            && kept.Success?
            && kept.value.results == front[..n]
            && Count(kept.value.settingCounts, t) == n
  {
    forall j | 0 <= j < |front|
      ensures SettingOf(front[j].item).Some? ==> SettingTally(front[..j], SettingOf(front[j].item).value) < SettingCap
    {
      SettingTallyAtMost(front[..j], t);
    }
    EmptyLedgerExact();
    assert front[0..] == front && front[..0] == [];
    FittingEntriesAllKept(front, limit, EmptyLedger, 0);
    var n := if limit <= 0 then 0 else if limit < |front| then limit else |front|;
    SettingTallyAtMost(front[..n], t);
  }

  /** The worked example of the diversity rule: entries that all share one
      setting, and nothing else a test looks at, yield the best two (fewer
      when the quota or the catalog is smaller), however large `limit` is. */
  lemma SharedSettingKeepsTwo(prefs: Preferences, catalog: seq<Item>, limit: int, parse: JsonParser, t: string)
    requires forall i :: 0 <= i < |catalog| ==> WellFormed(catalog[i])
    requires t != "" && forall i :: 0 <= i < |catalog| ==> catalog[i].features.setting == Some(t)
    requires forall i, j :: 0 <= i < |catalog| && 0 <= j < |catalog| && i != j ==> KeysApart(catalog[i], catalog[j])
    ensures var m := if |catalog| < SettingCap then |catalog| else SettingCap;
            var n := if limit <= 0 then 0 else if limit < m then limit else m;
            var r := GetRecommendations(prefs, Some(Database(Some(catalog))), limit, parse);
            && r == Success(SortedCatalog(prefs, catalog, parse)[..n])
            && |r.value| == n
  {
    var sorted := SortedCatalog(prefs, catalog, parse);
    OperationIsPass(prefs, catalog, limit, parse);
    SortedCatalogKeysApart(prefs, catalog, parse);
    SortedCatalogFacts(prefs, catalog, parse);
    forall k | 0 <= k < |sorted| ensures SettingOf(sorted[k].item) == Some(t) {
      assert sorted[k].item == catalog[sorted[k].pos];
    }
    assert |sorted| >= 2 ==> KeysApart(sorted[0].item, sorted[1].item);
    SharedSettingPass(sorted, limit, t);
  }

  /** The first `m <= 2` entries of a run keep its per-entry facts, and no two
      of them share a key when the first two do not. */
  lemma SharedSettingFront(sorted: seq<Scored>, m: nat, t: string)
    requires m <= |sorted| && m <= SettingCap
    requires AllWellFormed(sorted)
    requires forall k :: 0 <= k < |sorted| ==> SettingOf(sorted[k].item) == Some(t)
    requires |sorted| >= 2 ==> KeysApart(sorted[0].item, sorted[1].item)
    ensures AllWellFormed(sorted[..m]) && KeysApartPairwise(sorted[..m])
    ensures forall k :: 0 <= k < m ==> SettingOf(sorted[..m][k].item) == Some(t)
  {
    var front := sorted[..m];
    forall j | 0 <= j < |front| ensures WellFormed(front[j].item) && SettingOf(front[j].item) == Some(t) {
      assert front[j] == sorted[j];
    }
    forall i, j | 0 <= i < j < |front| ensures KeysApart(front[i].item, front[j].item) {
      assert i == 0 && j == 1;
      assert front[0] == sorted[0] && front[1] == sorted[1];
    }
  }

  /** Behind the first `m` entries of one setting, with `m` kept or the quota
      met, the pass keeps nothing more. */
  lemma SharedSettingRest(sorted: seq<Scored>, m: nat, limit: int, kept: Ledger, t: string)
    requires m <= |sorted| && AllWellFormed(sorted)
    requires forall k :: 0 <= k < |sorted| ==> SettingOf(sorted[k].item) == Some(t)
    requires m == |sorted| || |kept.results| >= limit || Count(kept.settingCounts, t) >= SettingCap
    ensures SelectFrom(sorted[m..], limit, kept).Success?
    ensures SelectFrom(sorted[m..], limit, kept).value.results == kept.results
  {
    var rest := sorted[m..];
    if |kept.results| < limit && |rest| > 0 {
      assert AllWellFormed(rest) && forall k :: 0 <= k < |rest| ==> SettingOf(rest[k].item) == Some(t) by {
        forall k | 0 <= k < |rest| ensures WellFormed(rest[k].item) && SettingOf(rest[k].item) == Some(t) {
          assert rest[k] == sorted[m + k];
        }
      }
      FullSettingSkips(rest, limit, kept, t);
    }
  }
}

=== FILE: seo.dfy ===
/** The page metadata helpers of the site: a fixed configuration with one
    entry per page, and four functions that pick a page's title, description,
    keywords and canonical URL, filling the results page's templates with the
    top recommendations and the chosen genres.
 */
module Seo {
  import opened Wrappers
  import opened Strings

  /** The configuration of one page: fixed texts, templates with placeholders,
      or both; a missing property is `None`. */
  datatype PageConfig = PageConfig(
    title: Option<string>,
    description: Option<string>,
    keywords: Option<string>,
    titleTemplate: Option<string>,
    descriptionTemplate: Option<string>,
    keywordsTemplate: Option<string>,
    path: string)

  datatype SeoConfig = SeoConfig(
    siteName: string,
    siteUrl: string,
    defaultTitle: string,
    defaultDescription: string,
    defaultKeywords: string,
    pages: map<string, PageConfig>)

  /** The `data` argument; a property it lacks is `None`. */
  datatype PageData = PageData(topAnime: Option<string>, genres: Option<string>)

  const NoData := PageData(None, None)

  const TopAnimeMark := "{topAnime}"
  const GenresMark := "{genres}"

  const SiteName := "Retro Anime Recommender"
  const SiteUrl := "https://your-domain.com"
  const DefaultTitle := "Retro Anime Recommender - Find Your Perfect Anime Match"
  const DefaultDescription :=
    "Discover your next favorite anime with our intelligent recommendation engine. Take our personalized quiz and get curated anime suggestions based on your preferences, mood, and viewing style."
  const DefaultKeywords :=
    "anime recommendations, anime finder, anime quiz, anime discovery, personalized anime, anime suggestion engine, find anime, anime database, anime matcher"

  // The results page's templates, written around their placeholders.
  const TitleBefore := "Anime Recommendations: "
  const TitleAfter := " | Retro Anime Recommender"
  const DescriptionBefore := "Discover anime like "
  const DescriptionBetween := " based on your preferences for "
  const DescriptionAfter := ". Get personalized anime recommendations with our intelligent matching system."
  const KeywordsBetween := ", "
  const KeywordsAfter := ", anime recommendations, personalized anime, anime finder"

  const HomePage := PageConfig(
    Some(DefaultTitle),
    Some("Take our personalized anime quiz to discover your next favorite series. Get intelligent recommendations based on your preferences, mood, and viewing style."),
    Some("anime quiz, anime recommendations, find anime, personalized anime, anime discovery tool"),
    None, None, None,
    "/")

  const QuizPage := PageConfig(
    Some("Anime Quiz - Find Your Perfect Anime Match | Retro Anime Recommender"),
    Some("Take our personalized anime quiz to discover your next favorite series. Answer questions about your preferences and get tailored anime recommendations."),
    Some("anime quiz, anime personality test, find anime, anime recommendations quiz, personalized anime finder, anime discovery quiz"),
    None, None, None,
    "/")

  const ResultsPage := PageConfig(
    None, None, None,
    Some(TitleBefore + TopAnimeMark + TitleAfter),
    Some(DescriptionBefore + TopAnimeMark + DescriptionBetween + GenresMark + DescriptionAfter),
    Some(TopAnimeMark + KeywordsBetween + GenresMark + KeywordsAfter),
    "/results")

  /** `seoConfig`, the parts the helpers read. */
  const Config := SeoConfig(
    SiteName, SiteUrl, DefaultTitle, DefaultDescription, DefaultKeywords,
    map["home" := HomePage, "quiz" := QuizPage, "results" := ResultsPage])

  /** JavaScript truthiness of an optional string: present and not empty. */
  predicate Truthy(v: Option<string>) {
    v.Some? && v.value != ""
  }

  /** `v || fallback`. */
  function OrElse(v: Option<string>, fallback: string): (r: string)
    ensures Truthy(v) ==> r == v.value
    ensures !Truthy(v) ==> r == fallback
  {
    if Truthy(v) then v.value else fallback
  }

  /** `generatePageTitle`, over any configuration. */
  function PageTitle(config: SeoConfig, pageKey: string, data: PageData): (r: string)
    ensures pageKey !in config.pages ==> r == config.defaultTitle
    ensures pageKey in config.pages && !(Truthy(config.pages[pageKey].titleTemplate) && Truthy(data.topAnime)) ==>
              r == OrElse(config.pages[pageKey].title, config.defaultTitle)
  {
    if pageKey !in config.pages then config.defaultTitle
    else
      var page := config.pages[pageKey];
      if Truthy(page.titleTemplate) && Truthy(data.topAnime) then
        ReplaceFirst(page.titleTemplate.value, TopAnimeMark, data.topAnime.value)
      else OrElse(page.title, config.defaultTitle)
  }

  /** Both placeholders filled, `{topAnime}` first, then the first `{genres}`
      of what that gives. */
  function FillBoth(template: string, data: PageData): string
    requires Truthy(data.topAnime) && Truthy(data.genres)
  {
    ReplaceFirst(ReplaceFirst(template, TopAnimeMark, data.topAnime.value), GenresMark, data.genres.value)
  }

  /** Whether a description or keywords template is filled: the page has one
      and the data has both values. */
  predicate Fills(template: Option<string>, data: PageData) {
    Truthy(template) && Truthy(data.topAnime) && Truthy(data.genres)
  }

  /** `generatePageDescription`, over any configuration. */
  function PageDescription(config: SeoConfig, pageKey: string, data: PageData): (r: string)
    ensures pageKey !in config.pages ==> r == config.defaultDescription
    ensures pageKey in config.pages && !Fills(config.pages[pageKey].descriptionTemplate, data) ==>
              r == OrElse(config.pages[pageKey].description, config.defaultDescription)
  {
    if pageKey !in config.pages then config.defaultDescription
    else
      var page := config.pages[pageKey];
      if Fills(page.descriptionTemplate, data) then FillBoth(page.descriptionTemplate.value, data)
      else OrElse(page.description, config.defaultDescription)
  }

  /** `generatePageKeywords`, over any configuration. */
  function PageKeywords(config: SeoConfig, pageKey: string, data: PageData): (r: string)
    ensures pageKey !in config.pages ==> r == config.defaultKeywords
    ensures pageKey in config.pages && !Fills(config.pages[pageKey].keywordsTemplate, data) ==>
              r == OrElse(config.pages[pageKey].keywords, config.defaultKeywords)
  {
    if pageKey !in config.pages then config.defaultKeywords
    else
      var page := config.pages[pageKey];
      if Fills(page.keywordsTemplate, data) then FillBoth(page.keywordsTemplate.value, data)
      else OrElse(page.keywords, config.defaultKeywords)
  }

  /** `generateCanonicalUrl`, over any configuration: the site URL followed by the
      path, `''` by default. */
  function CanonicalUrl(config: SeoConfig, path: Option<string>): (r: string)
    ensures |r| >= |config.siteUrl| && r[..|config.siteUrl|] == config.siteUrl
    ensures r[|config.siteUrl|..] == path.GetOr("")
  {
    config.siteUrl + path.GetOr("")
  }

  /** `generatePageTitle`. */
  function GeneratePageTitle(pageKey: string, data: PageData): string {
    PageTitle(Config, pageKey, data)
  }

  /** `generatePageDescription`. */
  function GeneratePageDescription(pageKey: string, data: PageData): string {
    PageDescription(Config, pageKey, data)
  }

  /** `generatePageKeywords`. */
  function GeneratePageKeywords(pageKey: string, data: PageData): string {
    PageKeywords(Config, pageKey, data)
  }

  /** `generateCanonicalUrl`. */
  function GenerateCanonicalUrl(path: Option<string>): (r: string)
    ensures path.None? ==> r == SiteUrl
  {
    CanonicalUrl(Config, path)
  }

  // ---------------------------------------------------------------------------
  // The results page writes the same texts inline
  // ---------------------------------------------------------------------------

  /** The title the results view writes with a template literal. */
  function InlineTitle(topAnime: string): string {
    "Anime Recommendations: " + topAnime + " | Retro Anime Recommender"
  }

  /** The description the results view writes with a template literal. */
  function InlineDescription(topAnime: string, genres: string): string {
    "Discover anime like " + topAnime + " based on your preferences for " + genres
    + ". Get personalized anime recommendations with our intelligent matching system."
  }

  /** The keywords the results view writes with a template literal. */
  function InlineKeywords(topAnime: string, genres: string): string {
    topAnime + ", " + genres + ", anime recommendations, personalized anime, anime finder"
  }

  /** Filling a template with two placeholders, each preceded by text without
      a `{`, puts the values in their places when the first value has no `{`
      either and neither has a `$`. */
  lemma FillBothPlaceholders(before: string, between: string, after: string, topAnime: string, genres: string)
    requires topAnime != "" && genres != ""
    requires '{' !in before && '{' !in between && '{' !in topAnime
    requires '$' !in topAnime && '$' !in genres
    ensures FillBoth(before + TopAnimeMark + between + GenresMark + after, PageData(Some(topAnime), Some(genres)))
            == before + topAnime + between + genres + after
  {
    var rest := between + GenresMark + after;
    assert before + TopAnimeMark + between + GenresMark + after == before + TopAnimeMark + rest;
    FillPlaceholder(before, TopAnimeMark, rest, topAnime);
    var head := before + topAnime + between;
    assert '{' !in head;
    assert before + topAnime + rest == head + GenresMark + after;
    FillPlaceholder(head, GenresMark, after, genres);
  }

  /** A configuration whose `results` entry is the site's. */
  predicate HasResultsPage(config: SeoConfig) {
    "results" in config.pages && config.pages["results"] == ResultsPage
  }

  /** The site configuration has the `results` page entry of `seoConfig`. */
  lemma SiteHasResultsPage()
    ensures HasResultsPage(Config)
  {
  }

  /** The title helper and the results view agree on any top list without a
      `$`, which `replace` would read as a substitution pattern. */
  lemma ResultsTitleMatchesInline(config: SeoConfig, topAnime: string, genres: Option<string>)
    requires HasResultsPage(config)
    requires topAnime != "" && '$' !in topAnime
    ensures PageTitle(config, "results", PageData(Some(topAnime), genres)) == InlineTitle(topAnime)
  {
    FillPlaceholder(TitleBefore, TopAnimeMark, TitleAfter, topAnime);
  }

  /** The description helper and the results view agree when the top list has
      no `{`, so that the `{genres}` the second `replace` finds is the
      template's own, and neither text has a `$`. */
  lemma ResultsDescriptionMatchesInline(config: SeoConfig, topAnime: string, genres: string)
    requires HasResultsPage(config)
    requires topAnime != "" && genres != ""
    requires '{' !in topAnime && '$' !in topAnime && '$' !in genres
    ensures PageDescription(config, "results", PageData(Some(topAnime), Some(genres)))
            == InlineDescription(topAnime, genres)
  {
    FillBothPlaceholders(DescriptionBefore, DescriptionBetween, DescriptionAfter, topAnime, genres);
  }

  /** The same for the keywords. */
  lemma ResultsKeywordsMatchInline(config: SeoConfig, topAnime: string, genres: string)
    requires HasResultsPage(config)
    requires topAnime != "" && genres != ""
    requires '{' !in topAnime && '$' !in topAnime && '$' !in genres
    ensures PageKeywords(config, "results", PageData(Some(topAnime), Some(genres)))
            == InlineKeywords(topAnime, genres)
  {
    FillBothPlaceholders("", KeywordsBetween, KeywordsAfter, topAnime, genres);
    assert "" + TopAnimeMark == TopAnimeMark;
    assert "" + topAnime == topAnime;
  }

  /** The results page has templates only, so without the data to fill them
      it falls back to the site-wide texts. */
  lemma ResultsWithoutDataGetsDefaults(config: SeoConfig, data: PageData)
    requires HasResultsPage(config)
    ensures !Truthy(data.topAnime) ==> PageTitle(config, "results", data) == config.defaultTitle
    ensures !Truthy(data.topAnime) || !Truthy(data.genres) ==>
              && PageDescription(config, "results", data) == config.defaultDescription
              && PageKeywords(config, "results", data) == config.defaultKeywords
  {
  }

  // ---------------------------------------------------------------------------
  // Fallbacks of the site configuration
  // ---------------------------------------------------------------------------

  /** A page the configuration does not know gets the site-wide texts. */
  lemma UnknownPageGetsDefaults(pageKey: string, data: PageData)
    requires pageKey != "home" && pageKey != "quiz" && pageKey != "results"
    ensures GeneratePageTitle(pageKey, data) == DefaultTitle
    ensures GeneratePageDescription(pageKey, data) == DefaultDescription
    ensures GeneratePageKeywords(pageKey, data) == DefaultKeywords
  {
  }

  /** The home and quiz pages have no templates: their texts are the
      configured ones whatever the data. */
  lemma FixedPagesIgnoreData(pageKey: string, data: PageData)
    requires pageKey == "home" || pageKey == "quiz"
    ensures GeneratePageTitle(pageKey, data) == GeneratePageTitle(pageKey, NoData) == Config.pages[pageKey].title.value
    ensures GeneratePageDescription(pageKey, data) == Config.pages[pageKey].description.value
    ensures GeneratePageKeywords(pageKey, data) == Config.pages[pageKey].keywords.value
  {
  }
}

=== FILE: strings.dfy ===
/** The JavaScript string primitives the core relies on, over `seq<char>`:
    `toLowerCase` (ASCII letters only), `trim`, `indexOf`/`includes`,
    `split` on one character, and the default `Array.prototype.sort` order.
 */
module Strings {
  import opened Wrappers

  // ---------------------------------------------------------------------------
  // Case mapping
  // ---------------------------------------------------------------------------

  predicate IsAsciiUpper(c: char) {
    'A' <= c <= 'Z'
  }

  /** `toLowerCase` on one character, restricted to the ASCII letters. */
  function LowerChar(c: char): (r: char)
    ensures !IsAsciiUpper(r)
    ensures !IsAsciiUpper(c) ==> r == c
  {
    if IsAsciiUpper(c) then (c as int + 32) as char else c
  }

  predicate IsLower(s: string) {
    forall i :: 0 <= i < |s| ==> !IsAsciiUpper(s[i])
  }

  /** `String.prototype.toLowerCase`, ASCII letters only. */
  function Lower(s: string): (r: string)
    ensures |r| == |s|
    ensures forall i :: 0 <= i < |s| ==> r[i] == LowerChar(s[i])
    ensures IsLower(r)
  {
    seq(|s|, i requires 0 <= i < |s| => LowerChar(s[i]))
  }

  // ---------------------------------------------------------------------------
  // Trimming
  // ---------------------------------------------------------------------------

  /** The characters `String.prototype.trim` removes: the ECMAScript
      WhiteSpace and LineTerminator code points. */
  predicate IsWhitespace(c: char) {
    || c == '\t' || c == '\n' || c == '\U{000B}' || c == '\U{000C}' || c == '\r'
    || c == ' ' || c == '\U{00A0}' || c == '\U{1680}'
    || ('\U{2000}' <= c <= '\U{200A}')
    || c == '\U{2028}' || c == '\U{2029}' || c == '\U{202F}' || c == '\U{205F}'
    || c == '\U{3000}' || c == '\U{FEFF}'
  }

  /** Number of leading whitespace characters. */
  function LeadingWhitespace(s: string): (n: nat)
    ensures n <= |s|
    ensures forall k :: 0 <= k < n ==> IsWhitespace(s[k])
    ensures n < |s| ==> !IsWhitespace(s[n])
  {
    if |s| > 0 && IsWhitespace(s[0]) then 1 + LeadingWhitespace(s[1..]) else 0
  }

  /** Number of trailing whitespace characters. */
  function TrailingWhitespace(s: string): (n: nat)
    ensures n <= |s|
    ensures forall k :: |s| - n <= k < |s| ==> IsWhitespace(s[k])
    ensures n < |s| ==> !IsWhitespace(s[|s| - 1 - n])
  {
    if |s| > 0 && IsWhitespace(s[|s| - 1]) then 1 + TrailingWhitespace(s[..|s| - 1]) else 0
  }

  predicate IsTrimmed(s: string) {
    |s| == 0 || (!IsWhitespace(s[0]) && !IsWhitespace(s[|s| - 1]))
  }

  /** `s` without its trailing whitespace. */
  function TrimEnd(s: string): (r: string)
    ensures |r| <= |s| && r == s[..|r|]
    ensures |r| > 0 ==> !IsWhitespace(r[|r| - 1])
    ensures forall k :: |r| <= k < |s| ==> IsWhitespace(s[k])
  {
    var n := TrailingWhitespace(s);
    assert |s| - n > 0 ==> s[..|s| - n][|s| - n - 1] == s[|s| - 1 - n];
    s[..|s| - n]
  }

  /** `String.prototype.trim`: drops the leading and the trailing whitespace and
      keeps the slice in between. */
  function Trim(s: string): (r: string)
    ensures IsTrimmed(r)
    ensures LeadingWhitespace(s) + |r| <= |s|
    ensures r == s[LeadingWhitespace(s)..][..|r|]
    ensures forall k :: LeadingWhitespace(s) + |r| <= k < |s| ==> IsWhitespace(s[k])
    ensures forall c :: c in r ==> c in s
  {
    var a := LeadingWhitespace(s);
    var t := s[a..];
    var r := TrimEnd(t);
    assert |r| > 0 ==> r[0] == s[a];
    assert forall k :: a + |r| <= k < |s| ==> s[k] == t[k - a];
    r
  }

  /** Lower-casing works character by character. */
  lemma LowerAppend(a: string, b: string)
    ensures Lower(a + b) == Lower(a) + Lower(b)
  {
    assert forall i :: 0 <= i < |a| ==> (a + b)[i] == a[i];
    assert forall i :: |a| <= i < |a + b| ==> (a + b)[i] == b[i - |a|];
  }

  /** Trimming a lower-case string leaves it lower-case. */
  lemma TrimKeepsLower(s: string)
    requires IsLower(s)
    ensures IsLower(Trim(s))
  {
    var r := Trim(s);
    assert forall k :: 0 <= k < |r| ==> r[k] == s[LeadingWhitespace(s) + k];
  }

  lemma LowerOfLower(s: string)
    requires IsLower(s)
    ensures Lower(s) == s
  {
  }

  lemma TrimOfTrimmed(s: string)
    requires IsTrimmed(s)
    ensures Trim(s) == s
  {
    var r := Trim(s);
    if |s| > 0 {
      assert LeadingWhitespace(s) == 0;
      assert !IsWhitespace(s[|s| - 1]);
    }
  }

  /** A character that is neither in `s` nor a lower-case ASCII letter is not
      in `s` lowered and trimmed either. */
  lemma LowerTrimKeepsOut(s: string, c: char)
    requires c !in s && !('a' <= c <= 'z')
    ensures c !in Trim(Lower(s))
  {
    assert c !in Lower(s);
  }

  // ---------------------------------------------------------------------------
  // Searching
  // ---------------------------------------------------------------------------

  /** `needle` occurs in `hay` starting at index `i`. */
  predicate OccursAt(hay: string, needle: string, i: int) {
    0 <= i && i + |needle| <= |hay| && hay[i..i + |needle|] == needle
  }

  /** `hay.indexOf(needle, from)`: the first occurrence at or after `from`. */
  function IndexOfFrom(hay: string, needle: string, from: nat): (r: Option<nat>)
    ensures r.Some? ==> from <= r.value && OccursAt(hay, needle, r.value)
    ensures r.Some? ==> forall j :: from <= j < r.value ==> !OccursAt(hay, needle, j)
    ensures r.None? ==> forall j :: from <= j ==> !OccursAt(hay, needle, j)
    decreases |hay| - from
  {
    if from + |needle| > |hay| then None
    else if hay[from..from + |needle|] == needle then Some(from)
    else IndexOfFrom(hay, needle, from + 1)
  }

  /** `hay.indexOf(needle)`, with `None` for -1. */
  function IndexOf(hay: string, needle: string): (r: Option<nat>)
    ensures r.Some? ==> OccursAt(hay, needle, r.value)
                        && forall j :: 0 <= j < r.value ==> !OccursAt(hay, needle, j)
    ensures r.None? <==> forall j :: !OccursAt(hay, needle, j)
  {
    IndexOfFrom(hay, needle, 0)
  }

  /** `hay.includes(needle)`. */
  predicate Includes(hay: string, needle: string) {
    IndexOf(hay, needle).Some?
  }

  lemma IncludesIffOccurs(hay: string, needle: string)
    ensures Includes(hay, needle) <==> exists i :: OccursAt(hay, needle, i)
  {
    if Includes(hay, needle) {
      assert OccursAt(hay, needle, IndexOf(hay, needle).value);
    }
  }

  /** A needle that starts with `c` is found at `k` when `hay` has no `c` before `k`
      and the needle occurs at `k`. */
  lemma {:induction false} IndexOfAtFirstMark(hay: string, needle: string, c: char, k: nat)
    requires |needle| > 0 && needle[0] == c
    requires OccursAt(hay, needle, k)
    requires forall j :: 0 <= j < k ==> hay[j] != c
    ensures IndexOf(hay, needle) == Some(k)
  {
  }

  /** The replacement text of `String.prototype.replace` for a string pattern
      (GetSubstitution, section 22.1.3.19.1 of ECMA-262): `$$` is a dollar
      sign, `$&` the matched text, `` $` `` the text before the match, `$'`
      the text after it; any other `$` stands for itself, since a string
      pattern has no capture groups. */
  function Substitute(replacement: string, matched: string, before: string, after: string): (r: string)
    ensures '$' !in replacement ==> r == replacement
    decreases |replacement|
  {
    if |replacement| == 0 then ""
    else if replacement[0] == '$' && |replacement| >= 2 && replacement[1] in "$&`'" then
      var insert :=
        if replacement[1] == '$' then "$"
        else if replacement[1] == '&' then matched
        else if replacement[1] == '`' then before
        else after;
      insert + Substitute(replacement[2..], matched, before, after)
    else
      assert replacement == [replacement[0]] + replacement[1..];
      [replacement[0]] + Substitute(replacement[1..], matched, before, after)
  }

  /** `s.replace(pattern, replacement)` with a string pattern: only the first
      occurrence is replaced, and `s` is returned unchanged when there is none. */
  function ReplaceFirst(s: string, pattern: string, replacement: string): (r: string)
    ensures IndexOf(s, pattern).None? ==> r == s
    ensures IndexOf(s, pattern).Some? && '$' !in replacement ==>
              var i := IndexOf(s, pattern).value;
              r == s[..i] + replacement + s[i + |pattern|..]
  {
    match IndexOf(s, pattern)
    case None => s
    case Some(i) => s[..i] + Substitute(replacement, pattern, s[..i], s[i + |pattern|..]) + s[i + |pattern|..]
  }

  /** Filling the first placeholder of a template: when the text before the
      placeholder has no `{` and the placeholder starts with one, the
      placeholder found is the one written after `prefix`. */
  lemma FillPlaceholder(prefix: string, mark: string, suffix: string, value: string)
    requires |mark| > 0 && mark[0] == '{' && '{' !in prefix
    requires '$' !in value
    ensures ReplaceFirst(prefix + mark + suffix, mark, value) == prefix + value + suffix
  {
    var s := prefix + mark + suffix;
    assert s[|prefix|..|prefix| + |mark|] == mark;
    IndexOfAtFirstMark(s, mark, '{', |prefix|);
    assert s[..|prefix|] == prefix;
    assert s[|prefix| + |mark|..] == suffix;
  }

  // ---------------------------------------------------------------------------
  // Splitting and joining
  // ---------------------------------------------------------------------------

  /** Number of occurrences of `c` in `s`. */
  function CountChar(s: string, c: char): (n: nat)
    ensures n <= |s|
    ensures n == 0 <==> c !in s
  {
    if |s| == 0 then 0
    else CountChar(s[..|s| - 1], c) + (if s[|s| - 1] == c then 1 else 0)
  }

  /** One more character counts once more when it is `c`. */
  lemma CountCharSnoc(s: string, x: char, c: char)
    ensures CountChar(s + [x], c) == CountChar(s, c) + (if x == c then 1 else 0)
  {
    assert (s + [x])[..|s + [x]| - 1] == s;
  }

  /** Occurrences in a concatenation add up. */
  lemma {:induction false} CountCharAppend(a: string, b: string, c: char)
    ensures CountChar(a + b, c) == CountChar(a, c) + CountChar(b, c)
    decreases |b|
  {
    if |b| == 0 {
      assert a + b == a;
    } else {
      CountCharAppend(a, b[..|b| - 1], c);
      assert (a + b)[..|a + b| - 1] == a + b[..|b| - 1];
    }
  }

  /** `pieces.join([sep])`. */
  function Join(pieces: seq<string>, sep: char): string
    requires |pieces| > 0
  {
    if |pieces| == 1 then pieces[0]
    else Join(pieces[..|pieces| - 1], sep) + [sep] + pieces[|pieces| - 1]
  }

  /** `s.split(sep)` for a one-character separator, as a left fold over `s`:
      a separator opens a new empty piece, any other character extends the last one. */
  function Split(s: string, sep: char): (r: seq<string>)
    ensures |r| == 1 + CountChar(s, sep)
    ensures forall k :: 0 <= k < |r| ==> sep !in r[k]
  {
    if |s| == 0 then [""]
    else
      var p := Split(s[..|s| - 1], sep);
      var c := s[|s| - 1];
      if c == sep then p + [""]
      else p[..|p| - 1] + [p[|p| - 1] + [c]]
  }

  /** Joining the pieces back with the separator gives the string again. */
  lemma {:induction false} JoinSplit(s: string, sep: char)
    ensures Join(Split(s, sep), sep) == s
    decreases |s|
  {
    if |s| > 0 {
      var init := s[..|s| - 1];
      JoinSplit(init, sep);
      assert s == init + [s[|s| - 1]];
      JoinSplitSnoc(init, sep, s[|s| - 1]);
    }
  }

  lemma JoinSplitSnoc(init: string, sep: char, c: char)
    requires Join(Split(init, sep), sep) == init
    ensures Join(Split(init + [c], sep), sep) == init + [c]
  {
    SplitSnoc(init, sep, c);
    var p := Split(init, sep);
    if c == sep {
      JoinSnoc(p, "", sep);
    } else {
      JoinExtendLast(p, c, sep);
    }
  }

  lemma JoinSnoc(q: seq<string>, x: string, sep: char)
    requires |q| > 0
    ensures Join(q + [x], sep) == Join(q, sep) + [sep] + x
  {
    assert (q + [x])[..|q|] == q;
  }

  /** Extending the last piece extends the joined string. */
  lemma JoinExtendLast(p: seq<string>, c: char, sep: char)
    requires |p| > 0
    ensures Join(p[..|p| - 1] + [p[|p| - 1] + [c]], sep) == Join(p, sep) + [c]
  {
    var q := p[..|p| - 1];
    var x := p[|p| - 1];
    if |q| > 0 {
      JoinSnoc(q, x + [c], sep);
      assert p == q + [x];
      JoinSnoc(q, x, sep);
    }
  }

  /** `Split` of a string with one more character: a separator opens a new
      piece, anything else extends the last one. */
  lemma SplitSnoc(s: string, sep: char, c: char)
    ensures var p := Split(s, sep);
            Split(s + [c], sep) == if c == sep then p + [""] else p[..|p| - 1] + [p[|p| - 1] + [c]]
  {
    var t := s + [c];
    assert t[..|t| - 1] == s;
    assert t[|t| - 1] == c;
  }

  /** A separator opens a new, empty piece. */
  lemma SplitOnSeparator(s: string, sep: char)
    ensures Split(s + [sep], sep) == Split(s, sep) + [""]
  {
    var t := s + [sep];
    assert t[..|t| - 1] == s;
    assert t[|t| - 1] == sep;
  }

  /** Any other character extends the last piece. */
  lemma SplitExtendLast(s: string, sep: char, c: char)
    requires c != sep
    ensures var p := Split(s, sep);
            Split(s + [c], sep) == p[..|p| - 1] + [p[|p| - 1] + [c]]
  {
    var t := s + [c];
    assert t[..|t| - 1] == s;
    assert t[|t| - 1] == c;
  }

  lemma {:induction false} SplitAfterSeparator(a: string, sep: char, b: string)
    requires sep !in b
    ensures Split(a + [sep] + b, sep) == Split(a, sep) + [b]
    decreases |b|
  {
    if |b| == 0 {
      SplitOnSeparator(a, sep);
      assert a + [sep] + b == a + [sep];
    } else {
      var b' := b[..|b| - 1];
      var c := b[|b| - 1];
      assert b == b' + [c];
      assert sep !in b' && c != sep;
      SplitAfterSeparator(a, sep, b');
      var t := a + [sep] + b';
      var p := Split(t, sep);
      assert p == Split(a, sep) + [b'];
      SplitExtendLast(t, sep, c);
      assert p[..|p| - 1] == Split(a, sep);
      assert p[|p| - 1] + [c] == b;
      assert t + [c] == a + [sep] + b;
    }
  }

  lemma {:induction false} SplitOfSeparatorFree(s: string, sep: char)
    requires sep !in s
    ensures Split(s, sep) == [s]
  {
    assert CountChar(s, sep) == 0;
    JoinSplit(s, sep);
    assert Join(Split(s, sep), sep) == Split(s, sep)[0];
  }

  /** `Split` is the only way to cut `s` into separator-free pieces that join back
      to `s`, so its contract pins down JavaScript's `split` completely. */
  lemma {:induction false} SplitUnique(pieces: seq<string>, sep: char)
    requires |pieces| > 0
    requires forall k :: 0 <= k < |pieces| ==> sep !in pieces[k]
    ensures Split(Join(pieces, sep), sep) == pieces
    decreases |pieces|
  {
    if |pieces| == 1 {
      SplitOfSeparatorFree(pieces[0], sep);
    } else {
      var init := pieces[..|pieces| - 1];
      var last := pieces[|pieces| - 1];
      assert pieces == init + [last];
      assert forall k :: 0 <= k < |init| ==> sep !in init[k] by {
        forall k | 0 <= k < |init| ensures sep !in init[k] {
          assert init[k] == pieces[k];
        }
      }
      SplitUnique(init, sep);
      JoinSnoc(init, last, sep);
      SplitAfterSeparator(Join(init, sep), sep, last);
    }
  }

  // ---------------------------------------------------------------------------
  // Ordering
  // ---------------------------------------------------------------------------

  /** The order the default `Array.prototype.sort` puts strings in: lexicographic
      by character code, a proper prefix before its extensions. */
  predicate Less(a: string, b: string)
    decreases |a|
  {
    if |a| == 0 then |b| > 0
    else if |b| == 0 then false
    else if a[0] != b[0] then a[0] < b[0]
    else Less(a[1..], b[1..])
  }

  lemma {:induction false} LessIrreflexive(a: string)
    ensures !Less(a, a)
    decreases |a|
  {
    if |a| > 0 {
      LessIrreflexive(a[1..]);
    }
  }

  lemma {:induction false} LessTransitive(a: string, b: string, c: string)
    requires Less(a, b) && Less(b, c)
    ensures Less(a, c)
    decreases |a|
  {
    if |a| > 0 && a[0] == b[0] && b[0] == c[0] {
      LessTransitive(a[1..], b[1..], c[1..]);
    }
  }

  lemma {:induction false} LessTotal(a: string, b: string)
    requires a != b
    ensures Less(a, b) || Less(b, a)
    decreases |a|
  {
    if |a| > 0 && |b| > 0 && a[0] == b[0] {
      assert a == [a[0]] + a[1..];
      assert b == [b[0]] + b[1..];
      LessTotal(a[1..], b[1..]);
    }
  }
}

=== FILE: vocab.dfy ===
/** The vocabularies of the index: the distinct truthy values a set collected,
    in the order of the default `Array.prototype.sort`.
 */
module Vocab {
  import opened Strings

  predicate StrictlySorted(s: seq<string>) {
    forall i, j :: 0 <= i < j < |s| ==> Less(s[i], s[j])
  }

  /** Puts `x` into its place in a strictly sorted list, unless it is there. */
  function InsertSorted(x: string, s: seq<string>): (r: seq<string>)
    requires StrictlySorted(s)
    ensures StrictlySorted(r)
    ensures forall y :: y in r <==> y in s || y == x
    decreases |s|
  {
    if |s| == 0 then [x]
    else if x == s[0] then s
    else if Less(x, s[0]) then
      assert forall j :: 0 < j < |s| ==> Less(x, s[j]) by {
        forall j | 0 < j < |s| ensures Less(x, s[j]) {
          LessTransitive(x, s[0], s[j]);
        }
      }
      [x] + s
    else
      LessTotal(x, s[0]);
      var rest := InsertSorted(x, s[1..]);
      assert forall y :: y in s[1..] ==> Less(s[0], y);
      assert s == [s[0]] + s[1..];
      [s[0]] + rest
  }

  /** `Array.from(set).filter(v => v).sort()` for a set that was filled with
      `values` in order; the empty string stands for both falsy values, `""`
      and `undefined`. */
  function Vocabulary(values: seq<string>): (r: seq<string>)
    ensures StrictlySorted(r)
    ensures forall x :: x in r <==> x in values && x != ""
  {
    if |values| == 0 then []
    else
      var r := Vocabulary(values[..|values| - 1]);
      var last := values[|values| - 1];
      assert values == values[..|values| - 1] + [last];
      if last == "" then r else InsertSorted(last, r)
  }

  /** A strictly sorted list is determined by its elements, so `Vocabulary`
      is the only sorted list of the truthy values. */
  lemma {:induction false} StrictlySortedUnique(a: seq<string>, b: seq<string>)
    requires StrictlySorted(a) && StrictlySorted(b)
    requires forall x :: x in a <==> x in b
    ensures a == b
    decreases |a|
  {
    if |a| > 0 {
      assert a[0] in b;
    }
    if |b| > 0 {
      assert b[0] in a;
    }
    if |a| > 0 {
      var i :| 0 <= i < |b| && b[i] == a[0];
      var j :| 0 <= j < |a| && a[j] == b[0];
      if i > 0 && j > 0 {
        LessTransitive(a[0], a[j], a[0]);
        LessIrreflexive(a[0]);
      } else if i > 0 {
        LessIrreflexive(a[0]);
      } else if j > 0 {
        LessIrreflexive(b[0]);
      }
      assert a[0] == b[0];
      forall x ensures x in a[1..] <==> x in b[1..] {
        if x in a[1..] {
          var k :| 0 <= k < |a[1..]| && a[1..][k] == x;
          assert Less(a[0], x);
          LessIrreflexive(x);
          assert x in b;
          assert b == [b[0]] + b[1..];
        }
        if x in b[1..] {
          var k :| 0 <= k < |b[1..]| && b[1..][k] == x;
          assert Less(b[0], x);
          LessIrreflexive(x);
          assert x in a;
          assert a == [a[0]] + a[1..];
        }
      }
      StrictlySortedUnique(a[1..], b[1..]);
      assert a == [a[0]] + a[1..];
      assert b == [b[0]] + b[1..];
    }
  }

  /** `Vocabulary` is the one strictly sorted list of the truthy values. */
  lemma VocabularyCharacterised(values: seq<string>, s: seq<string>)
    requires StrictlySorted(s)
    requires forall x :: x in s <==> x in values && x != ""
    ensures s == Vocabulary(values)
  {
    StrictlySortedUnique(s, Vocabulary(values));
  }
}

=== FILE: worked_examples.dfy ===
/** Worked examples of the title tests of the greedy pass on concrete titles. */
module WorkedExamples {
  import opened Strings
  import opened Selector

  /** A title followed by punctuation or spaces normalises to the title itself,
      so the pass drops it as an exact duplicate of the title. */
  lemma TrailingPunctuationIsSameTitle(title: string, tail: string)
    requires forall i :: 0 <= i < |tail| ==> !IsAsciiAlphanumeric(tail[i])
    ensures NormalizeTitle(title + tail) == NormalizeTitle(title)
  {
    NormalizeTitleAppend(title, tail);
    NormalizeDropsPunctuation(tail);
  }

  /** "Naruto " is the same title as "Naruto". */
  lemma NarutoTrailingSpaceIsSameTitle(naruto: string)
    requires naruto == "Naruto"
    ensures NormalizeTitle(naruto + " ") == NormalizeTitle(naruto)
  {
    TrailingPunctuationIsSameTitle(naruto, " ");
  }

  /** A sequel title "<title><separator><subtitle>" whose subtitle has at least
      three letters or digits is not a near duplicate of the title: it contains
      the title but is at least three characters longer. */
  lemma SequelIsNoNearDuplicate(title: string, separator: string, subtitle: string)
    requires forall i :: 0 <= i < |separator| ==> !IsAsciiAlphanumeric(separator[i])
    requires forall i :: 0 <= i < |subtitle| ==> IsAsciiAlphanumeric(subtitle[i])
    requires |subtitle| >= NearDuplicateGap
    ensures NormalizeTitle(title + separator + subtitle) == NormalizeTitle(title) + Lower(subtitle)
    ensures !NearDuplicate(NormalizeTitle(title), NormalizeTitle(title + separator + subtitle))
  {
    NormalizeTitleAppend(title + separator, subtitle);
    TrailingPunctuationIsSameTitle(title, separator);
    NormalizeKeepsAlphanumerics(subtitle);
  }

  /** "Naruto" and "Naruto: Shippuden" can both be kept. */
  lemma NarutoShippudenIsNoNearDuplicate(naruto: string, shippuden: string)
    requires naruto == "Naruto" && shippuden == "Shippuden"
    ensures !NearDuplicate(NormalizeTitle(naruto), NormalizeTitle(naruto + ": " + shippuden))
  {
    SequelIsNoNearDuplicate(naruto, ": ", shippuden);
  }

  /** "Naruto 2" differs from "Naruto" by one character: a near duplicate, so
      the pass keeps only the first of the two it meets. */
  lemma ShortSuffixIsNearDuplicate(naruto: string)
    requires naruto == "Naruto"
    ensures NearDuplicate(NormalizeTitle(naruto), NormalizeTitle(naruto + " 2"))
  {
    var n := NormalizeTitle(naruto);
    NormalizeTitleAppend(naruto, " 2");
    assert NormalizeTitle(" 2") == "2" by {
      NormalizeTitleAppend(" ", "2");
      NormalizeDropsPunctuation(" ");
      NormalizeKeepsAlphanumerics("2");
    }
    assert OccursAt(n + "2", n, 0);
  }
}

=== FILE: wrappers.dfy ===
/** Failure-carrying wrappers shared by every module of the model.
    - Option<T> stands for a JavaScript value that may be `undefined`
      (or, for the abstract parsers, `NaN`).
    - Result<T, E> stands for a computation that may throw.
 */
module Wrappers {

  datatype Option<+T> = None | Some(value: T) {

    /** Returns the value inside Some, or `default` for None (JavaScript `x || default`
        when the only falsy value that can occur is `undefined`). */
    function GetOr(default: T): T {
      match this
      case Some(v) => v
      case None => default
    }
  }

  datatype Result<+T, +E> = Success(value: T) | Failure(error: E)
}
